=== FILE: README.md ===
# Rainbow-Emails, modelled in Dafny

Rainbow-Emails is a set of Python scripts that turn markdown into colourful HTML email.
This project models the text processing at their core and proves properties of it:

- `generate_newsletter.py` (and its byte-identical copy `archive/generate_newsletter.py`)
  - reads a constants file and the newsletter's YAML frontmatter, and merges them;
  - renders the markdown;
  - rewrites standalone image paragraphs;
  - splits the HTML into titled sections;
  - extracts a personal note;
  - fills the `{{KEY}}` placeholders of a template;
  - gives every rule, heading, highlight and link its own random SparkLabs colour;
  - turns the header and footer rules into wavy SVG lines.
- `rainbow_email.py` colours every rule, highlight, emphasis, link and paragraph of a
  rendered email. Each colour is drawn so that it differs from the one drawn just before
  it. Optional top content is rendered, unwrapped from its paragraph, coloured the same
  way, and put where the markdown says `{{top}}`.
- `batch_retro_email.py`:
  - reads the recipients file, keeping the lines that look like addresses;
  - collects one recipient's personalised text from the terminal. Input ends after two
    empty lines in a row, or is abandoned with `skip`.

Modelling choices:

- Strings are `seq<char>`.
- The markdown renderer and `yaml.safe_load` are opaque function parameters.
- Randomness is an oracle. `Oracle.Rng` answers every `random.choice` with an index, and
  records how many draws have been made. Contracts therefore state:
  - which list a colour comes from;
  - which colour it avoids;
  - exactly how many draws each pass consumes.
- Every `re.sub` with a callback is modelled as written, by one scanner (`Scanner.ScanAll`):
  - it cuts the subject into unchanged gaps and non-overlapping hits, left to right;
  - the callbacks run on the hits in order, and the shared random source is threaded
    through them (`Passes.SubDraw`).
- `str.replace` is the same scan with a literal pattern.
- `(.*?)` without DOTALL does not cross a newline.
- The frontmatter pattern `^---\s*\n(.*?)\n---\s*\n(.*)` is modelled with the backtracking
  order of Python's `re`. `Frontmatter.FrontmatterMatches` proves that the match exists
  exactly when some way of matching exists, and that the groups reported are those of the
  preferred way.

Where a source comment and the code disagree, the model follows the code. The comment at
`generate_newsletter.py:119` says that a personal note is a first section whose title
*starts with* "Personal Note". The code tests whether the lower-cased title *contains*
"personal note", and that is what `Newsletter.PersonalNote` does.

Modules, one per file:

- `Wrappers`: `Option`/`Result`.
- `Text`: `strip`, `lower`, `split`, `join`, `in`, `startswith`.
- `Oracle`: the random source.
- `Palette`: both palettes, `get_random_color`, `get_different_color`.
- `Scanner`: the regex and `str.replace` scans.
- `Passes`: callbacks that draw colours.
- `Frontmatter`: `extract_frontmatter` and the merge of variables.
- `Sections`: the image rewrite and the section split.
- `Newsletter`: the personal note, replacements and placeholder filling; a template is
  read as a sequence of text pieces and `{{KEY}}` placeholders.
- `Colouring`: the newsletter's colour passes and `create_wavy_svg`.
- `Pipeline`: `generate_newsletter` end to end.
- `Rainbow`: `rainbow_email.py`.
- `Batch`: `batch_retro_email.py`.

## Model

| member | source | states |
|---|---|---|
| Oracle.Choice | generate_newsletter.py:89 | a draw is an element of the non-empty list and consumes exactly one answer of the source |
| Oracle.ChoiceCovers | generate_newsletter.py:89 | the oracle restricts nothing: every element of the list is what some source draws |
| Palette.RandomColor | generate_newsletter.py:75-89 | the colour is one of the eight palette colours; with `text_safe_only` it is one of the seven text-safe colours and never gold; one draw |
| Palette.NewsletterPaletteShape | generate_newsletter.py:77-87 | seven text-safe colours, eight in all, pairwise distinct, with gold the only colour outside the text-safe list |
| Palette.RandomColorCovers | generate_newsletter.py:89 | every colour of the list chosen by the flag can come out of a draw |
| Palette.SparkLabDistinct | rainbow_email.py:29-40 | the email palette has eight pairwise-distinct colours |
| Palette.Without | rainbow_email.py:106 | the filtered list holds exactly the colours other than the avoided one; a distinct list containing it loses exactly one entry; a list without it is unchanged |
| Palette.Candidates | rainbow_email.py:105-106 | the candidates are palette colours, seven when a palette colour is avoided and never fewer than seven, so never empty |
| Palette.DifferentColor | rainbow_email.py:161-164 | a palette colour that differs from the avoided colour whenever one is given (truthy); one draw |
| Palette.DifferentColorCovers | rainbow_email.py:105-107 | any palette colour other than the avoided one can be drawn |
| Text.Split | generate_newsletter.py:53 | joining the pieces of `split('\n')` with `'\n'` gives the text back, and no piece holds a newline |
| Text.StripShape | batch_retro_email.py:56 | the stripped text neither starts nor ends with whitespace, and it is empty exactly when the text is all whitespace |
| Text.StripIdempotent | batch_retro_email.py:24 | stripping twice is stripping once |
| Scanner.FindClose | generate_newsletter.py:170 | the lazy `(.*?)close` stops at the first occurrence of `close`, and without DOTALL never crosses a newline; when nothing is found, every later `close` lies beyond a newline |
| Scanner.MatchAt | generate_newsletter.py:197 | a match is a non-empty prefix of the subject that has the regex's structure (tags and groups read back from it) |
| Scanner.ScanAll | generate_newsletter.py:160 | `re.sub`'s left-to-right cut: weaving the hits' own texts back between the gaps gives the subject again, and every hit has the pattern's shape |
| Scanner.ScanLeftmost | generate_newsletter.py:160 | the cut is leftmost-first and maximal: no match starts inside any gap, each hit is the match found where its gap ends, and the last gap runs to the end of the subject |
| Scanner.SubIdentity | generate_newsletter.py:47 | replacing every match by its own text returns the subject unchanged |
| Scanner.SubNoMatch | generate_newsletter.py:47 | a subject in which the pattern matches nowhere is left unchanged |
| Scanner.SubAfter | generate_newsletter.py:47 | after a match at the very start, the rest of the subject is rewritten on its own |
| Scanner.ReplaceAbsent | generate_newsletter.py:152 | `str.replace` of a literal that does not occur returns the text unchanged, and counts no occurrence |
| Scanner.ReplaceSelf | generate_newsletter.py:152 | replacing a literal by itself is the identity |
| Scanner.ReplaceLeading | generate_newsletter.py:152 | a leading occurrence is replaced and the scan resumes right after it |
| Scanner.ReplaceSkipFree | generate_newsletter.py:152 | text free of the literal's first character is copied through unchanged |
| Scanner.ReplaceSplit | generate_newsletter.py:152 | when no occurrence of the literal straddles the seam between two texts, `str.replace` on the joined text is `str.replace` on each part, joined |
| Scanner.ReplaceBetween | rainbow_email.py:145 | one occurrence of a literal between two texts free of it, with none straddling the first seam, is the only one `str.replace` rewrites; both texts are kept |
| Scanner.LiteralGapsClean | generate_newsletter.py:160 | no occurrence of the literal survives in the text between hits, so every `<hr>` is rewritten |
| Scanner.LazyShortest | generate_newsletter.py:170 | `open(.*?)close` matches whenever `open g close` starts the text (with `g` free of newlines unless DOTALL), and captures a group no longer than `g` |
| Passes.ThreadClosed | generate_newsletter.py:158-160 | a pass in closed form: the text between matches is kept, match `i` is replaced using the source advanced past the earlier matches' draws, and the pass consumes all their draws |
| Passes.SubDrawOnce | generate_newsletter.py:158-160 | with one draw per match, match `i` uses the source advanced by `i`, and the pass draws once per match |
| Frontmatter.FrontmatterMatches | generate_newsletter.py:16-17 | the frontmatter pattern matches exactly when some layout of delimiters exists, and reports the groups of the layout Python's backtracking prefers |
| Frontmatter.Beaten | generate_newsletter.py:16-17 | any other layout loses to the reported one in backtracking order (opening newline latest, closing delimiter earliest, then its newline latest) |
| Frontmatter.FrontmatterRoundTrip | generate_newsletter.py:16-23 | writing `---`, YAML, `---` and a body reads back the same YAML and body, for YAML that starts with non-space and holds no closing delimiter, and a body that does not start with whitespace |
| Frontmatter.ExtractFrontmatter | generate_newsletter.py:14-25 | fails exactly when a block is found and its YAML is malformed; the body is a suffix of the content; with no block the result is the empty mapping and the whole content |
| Frontmatter.ExtractRoundTrip | generate_newsletter.py:19-23 | extracting a written block gives the loaded YAML and the body |
| Frontmatter.ExtractWithoutBlock | archive/generate_newsletter.py:24-25 | content that does not open with `---` is all body, with an empty mapping |
| Frontmatter.LoadConstants | generate_newsletter.py:94-100 | a missing constants file gives the empty mapping; an existing one succeeds exactly when its frontmatter extraction does |
| Frontmatter.Merge | generate_newsletter.py:110 | the merge succeeds exactly when both are mappings; its keys are the union; frontmatter values override constants |
| Frontmatter.MergedLookup | archive/generate_newsletter.py:109-110 | a key looked up in the merge gives the frontmatter's value, else the constants' value, else the default |
| Sections.TitleOfHeader | generate_newsletter.py:62 | removing the header tags from `<h1>x</h1>` or `<h2>x</h2>` gives `x` back for any `x` holding none of the four header tags, so other markup such as `<strong>` stays in the title |
| Sections.TagMatch | generate_newsletter.py:62 | each of `<h1>`, `<h2>`, `</h1>`, `</h2>` is matched as itself |
| Sections.Sections | generate_newsletter.py:58-71 | every emitted section has a non-empty title or content, and there are no more sections than header lines |
| Sections.PreambleDropped | generate_newsletter.py:56-67 | lines before the first header line contribute nothing |
| Sections.ResumeClosed | generate_newsletter.py:57-64 | a header line closes the open section (kept only when non-empty) and the sections of the rest follow |
| Sections.ResumeLine | generate_newsletter.py:65-67 | a body line is appended to the open section followed by a newline |
| Sections.Feed | generate_newsletter.py:56-67 | one turn of the loop keeps the sections still to come unchanged |
| Sections.SplitSections | generate_newsletter.py:49-73 | the loop as written yields the grouped sections of the split lines, each with a title or content |
| Sections.ImageMatches | generate_newsletter.py:36 | a standalone image paragraph is matched whole, with its alt, src and optional title as the groups |
| Sections.StandaloneImage | archive/generate_newsletter.py:36-47 | a standalone image paragraph becomes one `image-section` block that keeps `src` and `alt`, captioned with the title, or with the alt text when the title is absent or empty |
| Sections.RewriteImages | generate_newsletter.py:36-47 | `re.sub(img_pattern, replace_img, html)`; it has no contract of its own: `Sections.StandaloneImage` states what it makes of an image paragraph, and `Scanner.ScanAll` and `Scanner.SubNoMatch` state that the rest of the HTML is kept |
| Sections.ProcessMarkdown | generate_newsletter.py:27-73 | the renderer (a parameter), the image rewrite, then the section split of the lines; it has no contract of its own: `Sections.SplitSections` and `Sections.StandaloneImage` state its two stages |
| Newsletter.NoteTitleAnywhere | generate_newsletter.py:123 | a title mentioning "personal note" in any letter case, anywhere, is recognised |
| Newsletter.PersonalNote | generate_newsletter.py:119-125 | the first section is removed exactly when its lower-cased title contains "personal note", and then its stripped content is the note; otherwise the note is empty and all sections remain |
| Newsletter.Replacements | generate_newsletter.py:128-147 | the dictionary has the fifteen names in insertion order, brace-free and pairwise distinct |
| Newsletter.SettingAt | generate_newsletter.py:128-138 | each setting's value is the merged variable, or its literal default |
| Newsletter.NoteAt | generate_newsletter.py:131 | the `PERSONAL_NOTE` value is the note |
| Newsletter.SlotTitleAt | generate_newsletter.py:140-147 | `SECTION_i_TITLE` holds the i-th remaining section's title, or `''` |
| Newsletter.SlotContentAt | generate_newsletter.py:140-147 | `SECTION_i_CONTENT` holds the i-th remaining section's stripped content, or `''` |
| Newsletter.KeysDistinct | generate_newsletter.py:128-147 | no placeholder name occurs twice |
| Newsletter.ColourKeysFresh | generate_newsletter.py:149-152 | the colour placeholders are brace-free and none of them is among the names filled |
| Newsletter.FillPlaceholders | generate_newsletter.py:149-152 | one `str.replace` of `{{key}}` per entry, in the order of the dictionary; it has no contract of its own: `Newsletter.FillTemplate` states what the loop shows, and `Newsletter.ReplaceLayout` what each turn does |
| Newsletter.FillWithoutBraces | generate_newsletter.py:149-152 | a template without `{` is left unchanged |
| Newsletter.TokenInside | generate_newsletter.py:152 | one brace-free placeholder occurs inside another only when the two are the same |
| Newsletter.FillLoneToken | generate_newsletter.py:149-152 | a template that is one placeholder becomes that placeholder's value, when the names are brace-free and distinct and that value has no `{` |
| Newsletter.FillLoneUnknown | generate_newsletter.py:149-152 | a template that is one placeholder whose name is not in the dictionary is left as it is |
| Newsletter.ReplaceLayout | generate_newsletter.py:152 | one `str.replace` of `{{k}}` by text in which no placeholder opens turns exactly the `{{k}}` pieces of a well-formed template into that text, and the template stays well formed |
| Newsletter.FillTemplate | generate_newsletter.py:149-152 | on any template made of text in which no `{{` opens and of brace-free placeholders, the loop shows every text piece as it is, every placeholder the dictionary names as its value, and every other placeholder untouched, when the names are brace-free and no value opens a placeholder |
| Newsletter.FillToken | generate_newsletter.py:149-152 | a placeholder anywhere in a well-formed template shows its own value, and the text on either side is filled as if it were alone |
| Newsletter.FillUnknown | generate_newsletter.py:149-152 | a placeholder whose name is not in the dictionary survives wherever it sits in a well-formed template |
| Newsletter.SettingShown | archive/generate_newsletter.py:110-138 | a setting's placeholder, anywhere in a well-formed template, shows the frontmatter value, else the constants value, else the default |
| Newsletter.SlotTitleShown | generate_newsletter.py:140-152 | the numbered title placeholders, anywhere in a well-formed template, show the section titles in order, and are blank past the last section |
| Newsletter.SlotContentShown | generate_newsletter.py:140-152 | the numbered content placeholders, anywhere in a well-formed template, show the stripped section contents in order, and are blank past the last section |
| Newsletter.NoteShown | generate_newsletter.py:149-152 | the note's placeholder, anywhere in a well-formed template, shows the note |
| Newsletter.ColoursKept | generate_newsletter.py:149-152 | `{{H1_COLOR}}` and the other colour placeholders, anywhere in a well-formed template, are left for the colour passes |
| Colouring.HrStep | generate_newsletter.py:158-159 | each rule makes exactly one draw |
| Colouring.H1Step | generate_newsletter.py:163-164 | a heading makes one draw even without a placeholder, and a heading without `{{H1_COLOR}}` is returned as it was |
| Colouring.H2Step | generate_newsletter.py:168-169 | each `<h2>` heading makes exactly one draw |
| Colouring.H2Plain | generate_newsletter.py:168-169 | for a heading with no `<h2>` inside, only the leading `<h2>` gets the style attribute; the text, any other markup in it, and the closing tag are kept |
| Colouring.H3Step | generate_newsletter.py:173-180 | a heading mentioning `style=` is returned unchanged and draws nothing; any other draws once |
| Colouring.StrongStep | generate_newsletter.py:184-185 | each highlight makes exactly one draw |
| Colouring.LinkStep | generate_newsletter.py:189-196 | the call to action makes one draw and any other link two |
| Colouring.LinkKept | generate_newsletter.py:189-197 | the rewritten link starts with the original href and ends with the original text |
| Colouring.LinkColours | generate_newsletter.py:193-196 | link text with "Get In Touch" or "Connect & Create" gives a button on a colour from all eight; any other link gets a text-safe colour and an underline colour from all eight |
| Colouring.ColourNameOfVar | generate_newsletter.py:201-202 | a `var(--color-NAME)` colour is recognised, and stripping the wrapper gives `NAME` back, for any `NAME` without `)` or a wrapper of its own |
| Colouring.PaletteStroke | generate_newsletter.py:204-214 | each of the eight palette colours is drawn as the wave of its own table entry |
| Colouring.StrokeWithoutVar | generate_newsletter.py:201-215 | any colour that does not contain `var(--color-` falls back to `%23ec5999` |
| Colouring.StrokeUnknown | generate_newsletter.py:201-213 | a `var(--color-NAME)` colour whose `NAME` the table does not list falls back to `%23ec5999` |
| Colouring.WavySame | generate_newsletter.py:218 | two colours give the same SVG exactly when they give the same stroke |
| Colouring.StepDraws | generate_newsletter.py:158-196 | each callback's draws: one per rule, heading and highlight; none for a styled `<h3>`; one or two per link |
| Colouring.HrPass | archive/generate_newsletter.py:157-160 | every `<hr>` becomes a dotted rule in the i-th colour drawn; the text between is kept; the pass draws once per occurrence of `<hr>` |
| Colouring.H1Pass | archive/generate_newsletter.py:162-165 | inside each `<h1…>…</h1>` only `{{H1_COLOR}}` is replaced, by a text-safe colour; one draw per heading |
| Colouring.H2Pass | archive/generate_newsletter.py:167-170 | each single-line `<h2>…</h2>` is rebuilt with the styled opening tag in a text-safe colour; one draw per heading |
| Colouring.StrongPass | archive/generate_newsletter.py:183-186 | each `<strong>…</strong>` on one line gets a text-safe colour with its text kept; one draw per highlight |
| Colouring.VariablePasses | generate_newsletter.py:172-197 | the `<h3>` and link passes in closed form, with each match's draws counted |
| Colouring.RegexPasses | generate_newsletter.py:157-197 | the six regex passes only move the source forward |
| Colouring.DrawInto | generate_newsletter.py:221-231 | a fixed substitution draws its colour whether or not its placeholder occurs, and text without the placeholder is unchanged |
| Colouring.DrawAll | generate_newsletter.py:220-231 | the fixed substitutions make one draw each, and leave brace-free text unchanged |
| Colouring.FixedPasses | generate_newsletter.py:220-231 | the header wave, footer wave, note colour and button colour make exactly four draws |
| Colouring.Colourize | generate_newsletter.py:157-231 | the colouring makes at least the four fixed draws and never rewinds the source |
| Colouring.PassPlain | generate_newsletter.py:157-197 | a pass whose pattern opens with a tag leaves text without `<` alone and draws nothing |
| Colouring.RegexPlain | generate_newsletter.py:157-197 | text without markup goes through the six regex passes unchanged, with no draw |
| Colouring.FixedPlain | generate_newsletter.py:220-231 | text without placeholders goes through the fixed substitutions unchanged, after four draws |
| Colouring.ColourizePlain | generate_newsletter.py:157-231 | plain text comes out of the colouring as it went in, after exactly four draws |
| Colouring.PassAdvances | generate_newsletter.py:157-197 | a pass only moves the source forward |
| Pipeline.Generate | generate_newsletter.py:91-231 | the newsletter is produced exactly when both the constants and the newsletter frontmatter load as mappings; at least four draws are made |
| Pipeline.GenerateWithoutFrontmatter | generate_newsletter.py:94-110 | without a constants file and without frontmatter, the newsletter is always produced |
| Pipeline.GeneratePlainTemplate | generate_newsletter.py:149-231 | a template without markup or placeholders comes out unchanged, after four draws |
| Rainbow.Fresh | rainbow_email.py:159 | a fresh `last_color` starts a steady brush with no colours drawn |
| Rainbow.Paint | rainbow_email.py:170-173 | the drawn colour is a palette colour, differs from the last one, and becomes the last one |
| Rainbow.PaintSteady | rainbow_email.py:171-173 | a draw keeps the colours drawn free of immediate repeats |
| Rainbow.HrStep | rainbow_email.py:170-175 | `replace_hr`: a dotted rule in one fresh colour; no contract of its own, `Rainbow.StepsPaint` states its one draw and the steady brush |
| Rainbow.StrongStep | rainbow_email.py:178-183 | `replace_strong`: the text kept in a coloured `<strong>`; no contract of its own, `Rainbow.StepsPaint` states its one draw |
| Rainbow.EmStep | rainbow_email.py:186-191 | `replace_em`: the text kept in a coloured `<em>`; no contract of its own, `Rainbow.StepsPaint` states its one draw |
| Rainbow.ParagraphStep | rainbow_email.py:206-212 | `replace_paragraph`: the content kept in a coloured `<p>`; no contract of its own, `Rainbow.StepsPaint` states its one draw |
| Rainbow.TopStrongStep | rainbow_email.py:110-115 | the top content's `replace_strong`: the text in a bold coloured span; no contract of its own, `Rainbow.StepsPaint` states its one draw |
| Rainbow.TopEmStep | rainbow_email.py:118-123 | the top content's `replace_em`: the text in an italic coloured span; no contract of its own, `Rainbow.StepsPaint` states its one draw |
| Rainbow.LinkStep | rainbow_email.py:194-203 | `replace_link` (the top content's at lines 126-134 is the same): text colour, then underline colour; no contract of its own, `Rainbow.LinkKept` states what it keeps and `Rainbow.StepsPaint` its two draws |
| Rainbow.LinkKept | rainbow_email.py:194-203 | the rewritten link keeps its href and text, and shows two different palette colours, for text and underline |
| Rainbow.StepsPaint | rainbow_email.py:170-212 | each callback keeps the brush steady, with one draw per rule, highlight, emphasis and paragraph, and two per link |
| Rainbow.ThreadSteady | rainbow_email.py:175 | across the matches of one pass the brush stays steady, and it draws `n` colours per match |
| Rainbow.PassSteady | rainbow_email.py:175-212 | a pass keeps the brush steady and draws `n` colours per match |
| Rainbow.PassAdvanced | rainbow_email.py:175-212 | after a pass, every draw made is recorded in the trail of colours |
| Rainbow.RuleAndLinkCounts | rainbow_email.py:170-203 | the rule pass draws once per occurrence of `<hr>`, and the link pass twice per link |
| Rainbow.BodyPasses | rainbow_email.py:169-212 | the rule, highlight, emphasis, link and paragraph passes in source order; no contract of its own, `Rainbow.BodySteady` states the colours it draws |
| Rainbow.BodySteady | rainbow_email.py:159-212 | across all five body passes no colour repeats the one before it, and each draw is recorded |
| Rainbow.ParagraphTagsApart | rainbow_email.py:94-95 | a text that starts with `<p>` and ends with `</p>` is at least seven characters long, so the tags cannot overlap |
| Rainbow.Unwrap | rainbow_email.py:93-95 | the stripped top HTML loses exactly its leading `<p>` and trailing `</p>` when it has both (even with several paragraphs), and is kept otherwise |
| Rainbow.TopPasses | rainbow_email.py:109-135 | the highlight, emphasis and link passes of the top content from `last_color = None`; no contract of its own, `Rainbow.TopWrap` and `Rainbow.TopAdvances` state its outcome |
| Rainbow.ColorizeTop | rainbow_email.py:100-142 | `colorize_top_content`; no contract of its own, `Rainbow.TopWrap`, `Rainbow.PlainTopOneSpan`, `Rainbow.LinkedTopNotWrapped` and `Rainbow.TopAdvances` state it |
| Rainbow.TopWrap | rainbow_email.py:137-140 | the top fragment is wrapped in one span exactly when no `<strong`, `<em` or `<a` remains after the passes; the span's colour differs from the last one drawn |
| Rainbow.PlainTopOneSpan | rainbow_email.py:137-140 | top content without markup becomes one span in one palette colour, after exactly one draw |
| Rainbow.LinkedTopNotWrapped | rainbow_email.py:135-140 | a link in the top content keeps the fragment from being wrapped |
| Rainbow.TopAdvances | rainbow_email.py:100-142 | colouring the top content only moves the source forward, and never repeats a colour immediately |
| Rainbow.FillTop | rainbow_email.py:88-148 | without top content every `{{top}}` is removed and nothing is drawn |
| Rainbow.TopPlaceholder | rainbow_email.py:145 | a `{{top}}` between two texts that do not hold `{{top}}` is replaced by the given HTML, with both texts kept, braces and all |
| Rainbow.TopUnbordered | rainbow_email.py:145 | no `{{top}}` starts inside a text and runs into a `{{top}}` that follows it, as no proper end of `{{top}}` is also its start |
| Rainbow.TopEverywhere | rainbow_email.py:145 | every `{{top}}` is replaced: a text cut at its `{{top}}` occurrences becomes the same pieces joined by the given HTML |
| Rainbow.TopPlaceholderBraced | rainbow_email.py:145 | markdown with a stray brace beside `{{top}}`, such as `a{b{{top}}}`, still has it replaced |
| Rainbow.RainbowHtml | rainbow_email.py:85-212 | `process_markdown_to_rainbow_html` up to the page template: the top placeholder, the renderer (a parameter), then the body passes; no contract of its own, `Rainbow.RainbowNoRepeats` states its colours and `Rainbow.FillTop` its first step |
| Rainbow.RainbowNoRepeats | rainbow_email.py:85-212 | the body's colours start from a fresh `last_color` on the generator the top colours left: all are palette colours, none equals the one drawn just before it, and the generator moves on by one draw per colour |
| Batch.Recipients | batch_retro_email.py:19-27 | `read_recipients` over the file's lines; no contract of its own, `Batch.RecipientsMembers` and `Batch.RecipientsAppend` state which addresses it keeps and in what order |
| Batch.Addresses | batch_retro_email.py:23-26 | the filter returns no more entries than it is given, and each looks like an address |
| Batch.AddressesMembers | batch_retro_email.py:25-26 | an entry is kept exactly when it is non-empty and contains `@` |
| Batch.RecipientsMembers | batch_retro_email.py:19-27 | an address is read exactly when it is non-empty, contains `@`, and is the stripped form of some line |
| Batch.RecipientsAppend | batch_retro_email.py:19-27 | reading two files one after the other gives the two lists one after the other, so the file order is kept |
| Batch.KindOf | batch_retro_email.py:41-46 | a line is a `skip` exactly when lower-cased and stripped it is `skip`, and empty exactly when it is `''` |
| Batch.FirstStop | batch_retro_email.py:38-47 | the first line that stops the input (a `skip`, or a second empty line in a row) is found, with no stop before it |
| Batch.StopFound | batch_retro_email.py:38-47 | a stopping line after a run without stops is the first stop |
| Batch.NoStop | batch_retro_email.py:38-47 | a run without stops to the end of the input finds no stop |
| Batch.DropEmpty | batch_retro_email.py:52-54 | the lines kept are a prefix that does not end in `''`, and only `''` lines are dropped |
| Batch.PopEmpty | batch_retro_email.py:52-54 | the pop loop drops exactly the trailing empty lines |
| Batch.Finish | batch_retro_email.py:56-57 | the text is non-empty with no whitespace at either end, and `None` exactly when the joined lines are all whitespace |
| Batch.Expected | batch_retro_email.py:29-57 | the reply fixed by the first stopping line: nothing after a `skip`, the finished text after two empty lines, end of input otherwise; no contract of its own, `Batch.Collect` proves the loop equals it |
| Batch.Conclude | batch_retro_email.py:52-57 | the code after the loop gives the finished text of the lines read |
| Batch.Collect | batch_retro_email.py:29-57 | the prompt loop yields the reply determined by the first stopping line; if the input ends first, it yields the end-of-input outcome |
| Batch.SkipAborts | batch_retro_email.py:41-42 | a `skip` line (any case, any surrounding spaces) ends the prompt with nothing, whatever was typed before it |
| Batch.TwoEmptyLinesEnd | batch_retro_email.py:38-47 | two `''` lines in a row end the prompt with the text typed before them; a line of spaces does not count |

## Left out

- The markdown renderer (`markdown.Markdown(...).convert`) and `yaml.safe_load` are
  foreign libraries. They are parameters: `render: string -> string`, and
  `load: string -> Doc`, where a `Doc` is a mapping, another document, or a parse error.
- `str()` of non-string YAML values. A mapping's values are taken to be strings already.
- File reading and writing, `Path.exists`, `argparse`/`main` and `print` are I/O. A missing
  constants file arrives as `None`, and the files' texts arrive as strings.
- Clipboard copying, `subprocess`, `xdotool`, `time.sleep`, launching the email client,
  `webbrowser` and `urllib.parse.quote` are calls into the operating system.
- `process_markdown_to_retro_html` comes from `retro_email.py`, which is not part of this
  model.
- `get_random_sparklab_color` (rainbow_email.py:15-27) is never called.
- `get_rainbow_styles` and the page template around the email (rainbow_email.py:42-83,
  215-226) are constant text with no behaviour. `Rainbow.RainbowHtml` stops before the
  template.
- The distribution of `random.choice` is not modelled. The oracle supplies the index, so
  uniformity cannot be stated.
- `KeyboardInterrupt` and `sys.exit` in `get_personalized_content` are not modelled. Running
  out of input (an uncaught `EOFError`) is the `Exhausted` reply.
- Text.Lower: models `str.lower` for ASCII letters and the Kelvin sign only. The model
  compares lower-cased text only with ASCII words ("skip", "personal note"). The only other
  character whose lower case contains an ASCII letter is `İ` (U+0130), which lowers to two
  characters. It cannot complete either word, so the outcome of the comparisons is the same.
- Rainbow.FillTop: with top content, it states only that the source moves forward. It does
  not restate what the coloured HTML is. `Rainbow.TopWrap` and `Rainbow.TopPlaceholder`
  state that part.
- Colouring.Colourize: states only that the source moves forward by at least the four fixed
  draws. The per-pass outcome is stated by `Colouring.HrPass`, `Colouring.H1Pass`,
  `Colouring.H2Pass`, `Colouring.StrongPass` and `Colouring.VariablePasses`.
- Pipeline.Generate: states when the newsletter is produced and how the source moves. It
  does not state the final HTML, which the lemmas of the stages describe.
- Newsletter.FillTemplate: covers templates made of inert text (every `{` followed by some
  other character, so single style-sheet braces are allowed) and brace-free placeholders,
  with inert values. A value that opens a placeholder, or text with a stray `{{`, can form a
  placeholder that a later entry then replaces, as Python does; those cascades are not
  stated.
- Newsletter.FillToken: same restriction as `Newsletter.FillTemplate`.
- Newsletter.FillUnknown: same restriction as `Newsletter.FillTemplate`.
- Newsletter.SettingShown: same restriction as `Newsletter.FillTemplate`.
- Newsletter.SlotTitleShown: same restriction as `Newsletter.FillTemplate`.
- Newsletter.SlotContentShown: same restriction as `Newsletter.FillTemplate`.
- Newsletter.NoteShown: same restriction as `Newsletter.FillTemplate`.
- Newsletter.ColoursKept: same restriction as `Newsletter.FillTemplate`.
- `archive/generate_newsletter.py` is byte-identical to `generate_newsletter.py`. One model
  covers both, and rows citing either file hold for both.

=== FILE: batch.dfy ===
/**
 * batch_retro_email.py: the recipients file is filtered down to its addresses, and the
 * personalised text for one recipient is collected from the terminal until two empty
 * lines in a row, or abandoned with `skip`. The file's lines and the terminal's lines are
 * given as sequences.
 */
module Batch {
  import opened Wrappers
  import opened Text

  // ---- read_recipients ----

  /** A stripped line is kept when it is not empty and has an `@`. */
  predicate IsAddress(email: string) {
    email != "" && '@' in email
  }

  /** Every line of the file, stripped. */
  function Stripped(lines: seq<string>): (r: seq<string>)
    ensures |r| == |lines|
  {
    seq(|lines|, i requires 0 <= i < |lines| => Strip(lines[i]))
  }

  /** The entries that look like addresses, in order. */
  function Addresses(emails: seq<string>): (r: seq<string>)
    ensures |r| <= |emails|
    ensures forall i :: 0 <= i < |r| ==> IsAddress(r[i])
    decreases |emails|
  {
    if emails == [] then []
    else (if IsAddress(emails[0]) then [emails[0]] else []) + Addresses(emails[1..])
  }

  /** `read_recipients`: the stripped form of every line that looks like an address, in the
      file's order. */
  function Recipients(lines: seq<string>): seq<string> {
    Addresses(Stripped(lines))
  }

  /** An entry is kept exactly when it is an address. */
  lemma {:induction false} AddressesMembers(emails: seq<string>, email: string)
    ensures email in Addresses(emails) <==> IsAddress(email) && email in emails
    decreases |emails|
  {
    if emails != [] {
      AddressesMembers(emails[1..], email);
      assert emails == [emails[0]] + emails[1..];
    }
  }

  /** Filtering two lists one after the other gives the two filtered lists one after the
      other. */
  lemma {:induction false} AddressesAppend(a: seq<string>, b: seq<string>)
    ensures Addresses(a + b) == Addresses(a) + Addresses(b)
    decreases |a|
  {
    if a != [] {
      assert (a + b)[0] == a[0] && (a + b)[1..] == a[1..] + b;
      AddressesAppend(a[1..], b);
    } else {
      assert a + b == b;
    }
  }

  /** An address is read exactly when some line of the file strips to it. */
  lemma RecipientsMembers(lines: seq<string>, email: string)
    ensures email in Recipients(lines) <==>
              IsAddress(email) && exists i :: 0 <= i < |lines| && Strip(lines[i]) == email
  {
    var st := Stripped(lines);
    AddressesMembers(st, email);
    if email in st {
      var i :| 0 <= i < |st| && st[i] == email;
      assert Strip(lines[i]) == email;
    }
    if exists i :: 0 <= i < |lines| && Strip(lines[i]) == email {
      var i :| 0 <= i < |lines| && Strip(lines[i]) == email;
      assert st[i] == email;
    }
  }

  /** Reading two files one after the other gives the two lists one after the other, so
      the file's order is kept. */
  lemma RecipientsAppend(a: seq<string>, b: seq<string>)
    ensures Recipients(a + b) == Recipients(a) + Recipients(b)
  {
    assert Stripped(a + b) == Stripped(a) + Stripped(b);
    AddressesAppend(Stripped(a), Stripped(b));
  }

  // ---- get_personalized_content ----

  /** `line.lower().strip() == 'skip'` */
  predicate IsSkip(line: string) {
    Strip(Lower(line)) == "skip"
  }

  /** What a typed line means to the prompt. */
  datatype Kind = SkipLine | EmptyLine | TextLine

  /** The `skip` test comes first; the empty line is the exact string `''`. */
  function KindOf(line: string): (k: Kind)
    ensures k == SkipLine <==> IsSkip(line)
    ensures k == EmptyLine <==> line == ""
  {
    if IsSkip(line) then SkipLine
    else if line == "" then EmptyLine
    else TextLine
  }

  /** The kind of every typed line. */
  function Kinds(input: seq<string>): (r: seq<Kind>)
    ensures |r| == |input|
  {
    seq(|input|, k requires 0 <= k < |input| => KindOf(input[k]))
  }

  /** Input stops at line `k`: it asks to skip, or it is the second empty line in a row. */
  predicate StopsAt(kinds: seq<Kind>, k: nat)
    requires k < |kinds|
  {
    kinds[k] == SkipLine || (k > 0 && kinds[k - 1] == EmptyLine && kinds[k] == EmptyLine)
  }

  /** No line in `[from, to)` stops the input. */
  predicate RunsOn(kinds: seq<Kind>, from: nat, to: nat)
    requires to <= |kinds|
  {
    forall k :: from <= k < to ==> !StopsAt(kinds, k)
  }

  /** The first line at or after `from` that stops the input. */
  function FirstStop(kinds: seq<Kind>, from: nat): (r: Option<nat>)
    requires from <= |kinds|
    ensures r.Some? ==> from <= r.value < |kinds| && StopsAt(kinds, r.value) && RunsOn(kinds, from, r.value)
    ensures r.None? ==> RunsOn(kinds, from, |kinds|)
    decreases |kinds| - from
  {
    if from == |kinds| then None
    else if StopsAt(kinds, from) then Some(from)
    else FirstStop(kinds, from + 1)
  }

  /** A line that stops the input after a run without stops is the first stop. */
  lemma {:induction false} StopFound(kinds: seq<Kind>, from: nat, k: nat)
    requires from <= k < |kinds| && StopsAt(kinds, k) && RunsOn(kinds, from, k)
    ensures FirstStop(kinds, from) == Some(k)
    decreases k - from
  {
    if from < k {
      assert !StopsAt(kinds, from);
      StopFound(kinds, from + 1, k);
    }
  }

  /** A run without stops to the end of the input finds no stop. */
  lemma {:induction false} NoStop(kinds: seq<Kind>, from: nat)
    requires from <= |kinds| && RunsOn(kinds, from, |kinds|)
    ensures FirstStop(kinds, from) == None
    decreases |kinds| - from
  {
    if from < |kinds| {
      assert !StopsAt(kinds, from);
      NoStop(kinds, from + 1);
    }
  }

  /** What the prompt for one recipient yields: the text (None for `skip` or for nothing but
      whitespace) and how many lines it read; or the input ran out (an `EOFError` the
      script does not catch). */
  datatype Reply = Reply(content: Option<string>, used: nat) | Exhausted

  /** `while lines and lines[-1] == '': lines.pop()` */
  function DropEmpty(lines: seq<string>): (r: seq<string>)
    ensures |r| <= |lines| && r == lines[..|r|]
    ensures r == [] || r[|r| - 1] != ""
    ensures forall i :: |r| <= i < |lines| ==> lines[i] == ""
    decreases |lines|
  {
    if lines != [] && lines[|lines| - 1] == "" then DropEmpty(lines[..|lines| - 1]) else lines
  }

  /** `'\n'.join(lines).strip()`, and `None` when that is empty. */
  function Finish(lines: seq<string>): (r: Option<string>)
    ensures r.Some? ==> r.value != "" && !IsSpace(r.value[0]) && !IsSpace(r.value[|r.value| - 1])
    ensures r.None? <==> AllSpace(Join(DropEmpty(lines), "\n"))
  {
    var joined := Join(DropEmpty(lines), "\n");
    StripShape(joined);
    var content := Strip(joined);
    if content == "" then None else Some(content)
  }

  /** The reply in terms of the first stopping line: a `skip` there gives nothing, two
      empty lines end the text, which is every line read up to them. */
  function Expected(input: seq<string>): Reply {
    var kinds := Kinds(input);
    match FirstStop(kinds, 0)
    case None => Exhausted
    case Some(k) =>
      if kinds[k] == SkipLine then Reply(None, k + 1) else Reply(Finish(input[..k + 1]), k + 1)
  }

  /** `get_personalized_content`, reading the lines of `input` in order. */
  method Collect(input: seq<string>) returns (r: Reply)
    ensures r == Expected(input)
  {
    ghost var kinds := Kinds(input);
    var lines: seq<string> := [];
    var empty := 0;
    var i := 0;
    while empty < 2
      invariant 0 <= i <= |input| && lines == input[..i] && 0 <= empty <= 2
      invariant empty < 2 ==> RunsOn(kinds, 0, i)
      invariant empty == 1 ==> i > 0 && kinds[i - 1] == EmptyLine
      invariant empty == 0 ==> i == 0 || kinds[i - 1] != EmptyLine
      invariant empty == 2 ==>
                  i > 1 && kinds[i - 1] == EmptyLine && kinds[i - 2] == EmptyLine && RunsOn(kinds, 0, i - 1)
      decreases |input| - i, 2 - empty
    {
      if i == |input| {
        NoStop(kinds, 0);
        return Exhausted;
      }
      var line := input[i];
      var kind := KindOf(line);
      assert kind == kinds[i];
      if kind == SkipLine {
        StopFound(kinds, 0, i);
        return Reply(None, i + 1);
      }
      if kind == EmptyLine {
        empty := empty + 1;
      } else {
        empty := 0;
      }
      lines := lines + [line];
      i := i + 1;
    }
    TwoEmptyLinesEnd(input, i - 1);
    var content := Conclude(lines);
    r := Reply(content, i);
  }

  /** What follows the loop: trailing empty lines popped, the rest joined and stripped. */
  method Conclude(lines: seq<string>) returns (content: Option<string>)
    ensures content == Finish(lines)
  {
    var kept := PopEmpty(lines);
    var text := Strip(Join(kept, "\n"));
    content := if text == "" then None else Some(text);
  }

  /** The pop loop. */
  method PopEmpty(lines: seq<string>) returns (r: seq<string>)
    ensures r == DropEmpty(lines)
  {
    r := lines;
    while r != [] && r[|r| - 1] == ""
      invariant DropEmpty(r) == DropEmpty(lines)
      decreases |r|
    {
      r := r[..|r| - 1];
    }
  }

  /** A `skip` line (in any case, with any surrounding spaces) ends the prompt with nothing,
      whatever was typed before it. */
  lemma SkipAborts(input: seq<string>, k: nat)
    requires k < |input| && IsSkip(input[k])
    requires RunsOn(Kinds(input), 0, k)
    ensures Expected(input) == Reply(None, k + 1)
  {
    StopFound(Kinds(input), 0, k);
  }

  /** Two empty lines in a row end the prompt with the text typed before them; a line of
      spaces is not empty and does not count towards the two. */
  lemma TwoEmptyLinesEnd(input: seq<string>, k: nat)
    requires 0 < k < |input| && input[k - 1] == "" && input[k] == ""
    requires RunsOn(Kinds(input), 0, k)
    ensures Expected(input) == Reply(Finish(input[..k + 1]), k + 1)
  {
    var kinds := Kinds(input);
    assert KindOf(input[k - 1]) == EmptyLine && KindOf(input[k]) == EmptyLine;
    StopFound(kinds, 0, k);
  }
}

=== FILE: colouring.dfy ===
/**
 * The colour passes of generate_newsletter.py: every rule, heading, highlight and link of
 * the filled template gets its own random colour, and the header and footer rules become
 * wavy SVG lines.
 */
module Colouring {
  import opened Wrappers
  import opened Text
  import opened Scanner
  import opened Oracle
  import opened Palette
  import opened Passes

  // ---- The per-match callbacks ----

  function HrRule(c: string): string {
    "<hr style=\"border: none; " + "border-bottom: 2px dotted " + c + "; margin: 2rem 0;\">"
  }

  /** `replace_hr`: a dotted rule in a colour drawn from all eight. */
  function HrStep(h: Hit, rng: Rng): (r: (string, Rng))
    ensures r.1 == Skip(rng, 1)
  {
    var (c, rng1) := RandomColor(false, rng);
    (HrRule(c), rng1)
  }

  const H1Token: string := "{{H1_COLOR}}"

  /** `replace_h1`: the heading's colour placeholder becomes a text-safe colour. The colour
      is drawn even when the match holds no placeholder. */
  function H1Step(h: Hit, rng: Rng): (r: (string, Rng))
    ensures r.1 == Skip(rng, 1)
    ensures !Contains(h.text, H1Token) ==> r.0 == h.text
  {
    var (c, rng1) := RandomColor(true, rng);
    if !Contains(h.text, H1Token) then ReplaceAbsent(h.text, H1Token, c); (ReplaceAll(h.text, H1Token, c), rng1)
    else (ReplaceAll(h.text, H1Token, c), rng1)
  }

  function H2Open(c: string): string {
    "<h2 style=\"font-weight: 100; " + "font-size: 2rem; " + "text-transform: uppercase; " + "color: " + c + "; margin-bottom: 1rem;\">"
  }

  /** `replace_h2`: the heading is rebuilt from its group and every `<h2>` in the rebuilt
      text gets the style attribute. */
  function H2Step(h: Hit, rng: Rng): (r: (string, Rng))
    ensures r.1 == Skip(rng, 1)
  {
    var (c, rng1) := RandomColor(true, rng);
    (ReplaceAll("<h2>" + h.g1 + "</h2>", "<h2>", H2Open(c)), rng1)
  }

  /** For a heading with no `<h2>` inside, the rebuilt heading is the styled opening tag,
      the heading's text and the closing tag; other markup inside is kept as it is. */
  lemma H2Plain(g: string, c: string)
    requires !Contains(g, "<h2>")
    ensures ReplaceAll("<h2>" + g + "</h2>", "<h2>", H2Open(c)) == H2Open(c) + g + "</h2>"
  {
    OpeningOnly(g, H2Open(c));
  }

  /** Only the leading `<h2>` of `<h2>g</h2>` is an opening tag when `g` holds none. */
  lemma OpeningOnly(g: string, v: string)
    requires !Contains(g, "<h2>")
    ensures ReplaceAll("<h2>" + g + "</h2>", "<h2>", v) == v + g + "</h2>"
  {
    ClosingRest(g, v);
    LeadingOnly("<h2>", g, "</h2>", v);
  }

  /** A leading occurrence followed by text where nothing is replaced is the only one. */
  lemma LeadingOnly(open: string, g: string, close: string, v: string)
    requires |open| > 0 && ReplaceAll(g + close, open, v) == g + close
    ensures ReplaceAll(open + g + close, open, v) == v + g + close
  {
    assert open + g + close == open + (g + close);
    ReplaceLeading(open, g + close, v);
    assert v + (g + close) == v + g + close;
  }

  /** After the opening tag, nothing of `g</h2>` is replaced: no `<h2>` lies in `g`, none
      can run from `g` into the closing tag, and the closing tag is not one. */
  lemma ClosingRest(g: string, v: string)
    requires !Contains(g, "<h2>")
    ensures ReplaceAll(g + "</h2>", "<h2>", v) == g + "</h2>"
  {
    var open, close := "<h2>", "</h2>";
    assert close[0] !in open[1..];
    forall p | 0 <= p < |g| < p + |open|
      ensures !StartsWith((g + close)[p..], open)
    {
      SeamFree(g, close, open, p);
    }
    ReplaceSplit(g, close, open, v);
    ReplaceAbsent(g, open, v);
    ClosingKept(close, open, v);
  }

  /** A closing tag is not an opening tag: replacing the opening leaves it alone. */
  lemma ClosingKept(close: string, open: string, v: string)
    requires |open| >= 2 && |close| >= 2 && close[0] == open[0] == '<' && close[1] == '/' != open[1]
    requires forall i :: 1 <= i < |close| ==> close[i] != '<'
    ensures ReplaceAll(close, open, v) == close
  {
    ContainsAt(close, open);
    forall k | 0 <= k <= |close|
      ensures !StartsWith(close[k..], open)
    {
      if k == 0 {
        assert close[k..][1] == close[1];
      } else if k < |close| {
        assert close[k..][0] == close[k];
      }
    }
    ReplaceAbsent(close, open, v);
  }

  const WhiteText: string := "color: var(--color-white)"

  /** `replace_h3_color`: a match mentioning `style=` anywhere is rewritten by a regex whose
      replacement equals what it matches, and draws nothing; any other gets a text-safe
      colour on every `<h3`. */
  function H3Step(h: Hit, rng: Rng): (r: (string, Rng))
    ensures r.1 == Skip(rng, H3Cost(h))
    ensures Contains(h.text, "style=") ==> r.0 == h.text
  {
    if Contains(h.text, "style=") then
      ReplaceSelf(h.text, WhiteText);
      (ReplaceAll(h.text, WhiteText, WhiteText), rng)
    else
      var (c, rng1) := RandomColor(true, rng);
      (ReplaceAll(h.text, "<h3", H3Open(c)), rng1)
  }

  function H3Open(c: string): string {
    "<h3 style=\"color: " + c + ";\""
  }

  function H3Cost(h: Hit): nat {
    if Contains(h.text, "style=") then 0 else 1
  }

  function StrongOpen(c: string): string {
    "<strong style=\"color: " + c + "; font-weight: 600;\">"
  }

  /** `replace_strong`: the highlighted text in a text-safe colour. */
  function StrongStep(h: Hit, rng: Rng): (r: (string, Rng))
    ensures r.1 == Skip(rng, 1)
  {
    var (c, rng1) := RandomColor(true, rng);
    (StrongOpen(c) + h.g1 + "</strong>", rng1)
  }

  /** The link text that marks the call-to-action button. */
  predicate IsCta(text: string) {
    Contains(text, "Get In Touch") || Contains(text, "Connect & Create")
  }

  const CtaStyle: string :=
    "; color: var(--color-white); " + "display: inline-block; " + "padding: 0.75rem 1.5rem; " + "text-decoration: none; "
    + "border-radius: 4px; margin: " + "1rem 0; text-transform: " + "uppercase; font-weight: 600; " + "letter-spacing: 0.1em;\""

  function CtaLink(href: string, bg: string, text: string): string {
    LinkTag(href, " class=\"cta\" " + "style=\"background-color: " + bg + CtaStyle, text)
  }

  function PlainLink(href: string, fg: string, underline: string, text: string): string {
    LinkTag(href, " style=\"color: " + fg + "; text-decoration: underline; " + "text-decoration-style: "
      + "dotted; text-decoration-color:" + " " + underline + ";\"", text)
  }

  function LinkCost(h: Hit): nat {
    if IsCta(h.g2) then 1 else 2
  }

  /** `replace_link`: the call to action becomes a button on a colour from all eight; any
      other link gets a text-safe colour and then an underline colour from all eight. */
  function LinkStep(h: Hit, rng: Rng): (r: (string, Rng))
    ensures r.1 == Skip(rng, LinkCost(h))
  {
    if IsCta(h.g2) then
      var (bg, rng1) := RandomColor(false, rng);
      (CtaLink(h.g1, bg, h.g2), rng1)
    else
      var (fg, rng1) := RandomColor(true, rng);
      var (underline, rng2) := RandomColor(false, rng1);
      (PlainLink(h.g1, fg, underline, h.g2), rng2)
  }

  /** The rewritten link keeps the href and the link text verbatim. */
  lemma LinkKept(h: Hit, rng: Rng)
    ensures StartsWith(LinkStep(h, rng).0, AnchorOpen + h.g1 + "\"")
    ensures EndsWith(LinkStep(h, rng).0, ">" + h.g2 + "</a>")
  {
    if IsCta(h.g2) {
      var bg := RandomColor(false, rng).0;
      LinkFrame(h.g1, " class=\"cta\" " + "style=\"background-color: " + bg + CtaStyle, h.g2);
    } else {
      var fg := RandomColor(true, rng).0;
      var u := RandomColor(false, Skip(rng, 1)).0;
      LinkFrame(h.g1, " style=\"color: " + fg + "; text-decoration: underline; " + "text-decoration-style: "
        + "dotted; text-decoration-color:" + " " + u + ";\"", h.g2);
    }
  }

  /** The button's background comes from all eight colours; an ordinary link's text colour
      is text-safe and its underline colour comes from all eight. */
  lemma LinkColours(h: Hit, rng: Rng)
    ensures IsCta(h.g2) ==> exists bg :: bg in AllColors && LinkStep(h, rng).0 == CtaLink(h.g1, bg, h.g2)
    ensures !IsCta(h.g2) ==>
              exists fg, u :: fg in TextSafe && u in AllColors && LinkStep(h, rng).0 == PlainLink(h.g1, fg, u, h.g2)
  {
    if IsCta(h.g2) {
      var bg := RandomColor(false, rng).0;
      assert LinkStep(h, rng).0 == CtaLink(h.g1, bg, h.g2);
    } else {
      var fg := RandomColor(true, rng).0;
      var u := RandomColor(false, Skip(rng, 1)).0;
      assert LinkStep(h, rng).0 == PlainLink(h.g1, fg, u, h.g2);
    }
  }

  // ---- The wavy rules ----

  /** `color.replace('var(--color-', '').replace(')', '')` */
  function ColourName(c: string): string {
    ReplaceAll(ReplaceAll(c, "var(--color-", ""), ")", "")
  }

  /** The URL-encoded stroke colour of each palette name. */
  const StrokeTable: map<string, string> := map[
    "dragonfruit" := "%23ec5999", "fire" := "%23ff595e", "mandarin" := "%23f7802b",
    "gold" := "%23ffca3a", "leaf" := "%238ac926", "aqua" := "%231aa5c4",
    "sky" := "%2321a9f5", "plum" := "%237f5fad"
  ]

  const DefaultStroke: string := "%23ec5999"

  /** The stroke of the wave drawn for colour `c`. */
  function Stroke(c: string): string {
    if Contains(c, "var(--color-") then
      var name := ColourName(c);
      if name in StrokeTable then StrokeTable[name] else DefaultStroke
    else DefaultStroke
  }

  /** The SVG data URL before and after the stroke colour. */
  const SvgHead: string :=
    "url(\"data:image/svg+xml,<svg " + "xmlns='http://www.w3.org/2000/" + "svg' viewBox='0 0 100 " + "8'><path d='M0,4 Q5,0 10,4 "
    + "T20,4 T30,4 T40,4 T50,4 T60,4 " + "T70,4 T80,4 T90,4 T100,4' " + "stroke='"
  const SvgTail: string := "' fill='none' " + "stroke-width='2'/></svg>\")"

  /** `create_wavy_svg(color)` */
  function WavySvg(c: string): string {
    SvgHead + Stroke(c) + SvgTail
  }

  /** Two colours give the same wave exactly when they give the same stroke: the drawing
      depends on the colour through the stroke alone. */
  lemma WavySame(a: string, b: string)
    ensures WavySvg(a) == WavySvg(b) <==> Stroke(a) == Stroke(b)
  {
    if WavySvg(a) == WavySvg(b) {
      MiddleCancel(SvgHead, Stroke(a), Stroke(b), SvgTail);
    }
  }

  /** Equal texts with the same ends have the same middle. */
  lemma MiddleCancel(p: string, x: string, y: string, q: string)
    requires p + x + q == p + y + q
    ensures x == y
  {
    assert |x| == |y|;
    assert x == (p + x + q)[|p|..|p| + |x|];
    assert y == (p + y + q)[|p|..|p| + |y|];
  }

  function CssVar(name: string): string {
    "var(--color-" + name + ")"
  }

  /** Stripping the `var(--color-…)` wrapper gives the name back, for a name that holds
      no `)` and no wrapper of its own, and the wrapper is recognised. */
  lemma ColourNameOfVar(name: string)
    requires ')' !in name && !Contains(name, "var(--color-")
    ensures Contains(CssVar(name), "var(--color-")
    ensures ColourName(CssVar(name)) == name
  {
    var prefix, tail := "var(--color-", name + ")";
    assert CssVar(name) == prefix + tail;
    assert ')' !in prefix;
    ContainsAppend(name, prefix, ')');
    ReplacePrefix(prefix, tail, "");
    assert ReplaceAll(CssVar(name), prefix, "") == tail;
    assert ")"[0] == ')';
    ReplaceTrailing(name, ")", "");
    assert name + "" == name;
  }

  /** The palette's names, in the order of `AllColors`. */
  const Names: seq<string> := ["dragonfruit", "fire", "mandarin", "leaf", "aqua", "sky", "plum", "gold"]

  lemma PaletteNames(i: nat)
    requires i < |AllColors|
    ensures AllColors[i] == CssVar(Names[i]) && Names[i] in StrokeTable
    ensures '(' !in Names[i] && ')' !in Names[i]
  {
  }

  /** Each of the eight palette colours is drawn as a wave of that same colour: the table
      is read back through the `var(--color-…)` wrapper. */
  lemma PaletteStroke(i: nat)
    requires i < |AllColors|
    ensures Stroke(AllColors[i]) == StrokeTable[Names[i]]
  {
    PaletteNames(i);
    MissingChar(Names[i], "var(--color-", '(');
    ColourNameOfVar(Names[i]);
  }

  /** A colour given without the `var(--color-` wrapper falls back to dragonfruit. */
  lemma StrokeWithoutVar(c: string)
    requires !Contains(c, "var(--color-")
    ensures Stroke(c) == DefaultStroke
  {
  }

  /** A wrapped name the table does not list falls back to dragonfruit as well. */
  lemma StrokeUnknown(name: string)
    requires ')' !in name && !Contains(name, "var(--color-") && name !in StrokeTable
    ensures Stroke(CssVar(name)) == DefaultStroke
  {
    ColourNameOfVar(name);
  }

  // ---- The passes ----

  /** The text a pass looks for and replaces: never empty. */
  type Needle = t: string | |t| > 0 witness "{"

  const HeaderRule: Needle := "border-bottom: 2px dotted " + "{{HEADER_RULE_COLOR}}"
  const FooterRule: Needle := "border-top: 2px dotted " + "{{FOOTER_RULE_COLOR}}"
  const NoteColour: Needle := "{{PERSONAL_NOTE_COLOR}}"
  const CtaColour: Needle := "{{CTA_COLOR}}"

  function WavyHeader(c: string): string {
    "border-bottom: none; " + "background-image: " + WavySvg(c)
    + "; background-repeat: " + "repeat-x; background-position:" + " bottom; background-size: " + "auto 8px"
  }

  function WavyFooter(c: string): string {
    "border-top: none; " + "background-image: " + WavySvg(c)
    + "; background-repeat: " + "repeat-x; background-position:" + " top; background-size: auto " + "8px"
  }

  const Hr := Literal("<hr>")
  const H1 := TaggedLazy("<h1", "</h1>")
  const H2 := Lazy("<h2>", "</h2>", false)
  const H3 := TaggedLazy("<h3", "</h3>")
  const Strong := Lazy("<strong>", "</strong>", false)

  function Once(h: Hit): nat {
    1
  }

  /** The callbacks' draws: one per match, none for a styled `<h3>`, one or two per link. */
  lemma StepDraws()
    ensures Draws(HrStep, Once) && Draws(H1Step, Once) && Draws(H2Step, Once)
    ensures Draws(StrongStep, Once) && Draws(H3Step, H3Cost) && Draws(LinkStep, LinkCost)
  {
  }

  /** Each `<hr>` becomes a dotted rule; the i-th rule takes the i-th colour drawn, the text
      between rules is kept, and the pass draws once per rule. */
  lemma HrPass(s: string, rng: Rng)
    ensures var sc := ScanAll(Hr, s);
            var fills := Drawn(sc.hits, HrStep, Once, rng);
            && SubDraw(Hr, HrStep, s, rng) == (Weave(sc.gaps, fills), Skip(rng, Count(s, "<hr>")))
            && forall i :: 0 <= i < |fills| ==> fills[i] == HrRule(RandomColor(false, Skip(rng, i)).0)
  {
    StepDraws();
    SubDrawOnce(Hr, HrStep, Once, s, rng);
  }

  /** Each `<h1…>…</h1>` has its colour placeholders filled with the colour drawn for it,
      in order, one draw per heading. */
  lemma H1Pass(s: string, rng: Rng)
    ensures var sc := ScanAll(H1, s);
            var fills := Drawn(sc.hits, H1Step, Once, rng);
            && SubDraw(H1, H1Step, s, rng) == (Weave(sc.gaps, fills), Skip(rng, |sc.hits|))
            && forall i :: 0 <= i < |fills| ==> fills[i] == ReplaceAll(sc.hits[i].text, H1Token, RandomColor(true, Skip(rng, i)).0)
  {
    StepDraws();
    SubDrawOnce(H1, H1Step, Once, s, rng);
  }

  /** Each single-line `<h2>…</h2>` is rebuilt with a styled opening tag in the colour drawn
      for it, in order, one draw per heading. */
  lemma H2Pass(s: string, rng: Rng)
    ensures var sc := ScanAll(H2, s);
            var fills := Drawn(sc.hits, H2Step, Once, rng);
            && SubDraw(H2, H2Step, s, rng) == (Weave(sc.gaps, fills), Skip(rng, |sc.hits|))
            && forall i :: 0 <= i < |fills| ==> fills[i] == ReplaceAll("<h2>" + sc.hits[i].g1 + "</h2>", "<h2>", H2Open(RandomColor(true, Skip(rng, i)).0))
  {
    StepDraws();
    SubDrawOnce(H2, H2Step, Once, s, rng);
  }

  /** Each `<strong>…</strong>` on one line is wrapped in the colour drawn for it, its text
      kept, one draw per highlight. */
  lemma StrongPass(s: string, rng: Rng)
    ensures var sc := ScanAll(Strong, s);
            var fills := Drawn(sc.hits, StrongStep, Once, rng);
            && SubDraw(Strong, StrongStep, s, rng) == (Weave(sc.gaps, fills), Skip(rng, |sc.hits|))
            && forall i :: 0 <= i < |fills| ==> fills[i] == StrongOpen(RandomColor(true, Skip(rng, i)).0) + sc.hits[i].g1 + "</strong>"
  {
    StepDraws();
    SubDrawOnce(Strong, StrongStep, Once, s, rng);
  }

  /** The `<h3>` and link passes: a match's colours come from the source advanced past the
      earlier matches' draws, and the pass draws what its matches cost (none for a styled
      `<h3>`, one for the button, two for any other link). */
  lemma VariablePasses(s: string, rng: Rng)
    ensures var sc := ScanAll(H3, s);
            SubDraw(H3, H3Step, s, rng)
            == (Weave(sc.gaps, Drawn(sc.hits, H3Step, H3Cost, rng)), Skip(rng, Total(sc.hits, H3Cost)))
    ensures var sc := ScanAll(Anchor, s);
            SubDraw(Anchor, LinkStep, s, rng)
            == (Weave(sc.gaps, Drawn(sc.hits, LinkStep, LinkCost, rng)), Skip(rng, Total(sc.hits, LinkCost)))
  {
    StepDraws();
    var sc := ScanAll(H3, s);
    ThreadClosed(sc.gaps, sc.hits, H3Step, H3Cost, rng);
    var sa := ScanAll(Anchor, s);
    ThreadClosed(sa.gaps, sa.hits, LinkStep, LinkCost, rng);
  }

  /** The six regex passes in the script's order. */
  function RegexPasses(s: string, rng: Rng): (r: (string, Rng))
    ensures r.1.pick == rng.pick && r.1.next >= rng.next
  {
    StepDraws();
    var (s1, r1) := SubDraw(Hr, HrStep, s, rng);
    PassAdvances(Hr, HrStep, Once, s, rng);
    var (s2, r2) := SubDraw(H1, H1Step, s1, r1);
    PassAdvances(H1, H1Step, Once, s1, r1);
    var (s3, r3) := SubDraw(H2, H2Step, s2, r2);
    PassAdvances(H2, H2Step, Once, s2, r2);
    var (s4, r4) := SubDraw(H3, H3Step, s3, r3);
    PassAdvances(H3, H3Step, H3Cost, s3, r3);
    var (s5, r5) := SubDraw(Strong, StrongStep, s4, r4);
    PassAdvances(Strong, StrongStep, Once, s4, r4);
    var (s6, r6) := SubDraw(Anchor, LinkStep, s5, r5);
    PassAdvances(Anchor, LinkStep, LinkCost, s5, r5);
    (s6, r6)
  }

  /** `re.sub(token, render(get_random_color()), s)`: the colour is drawn first, whether
      or not the token occurs, and text without the token is returned as it was. */
  function DrawInto(s: string, token: Needle, render: string -> string, rng: Rng): (r: (string, Rng))
    ensures r.1 == Skip(rng, 1)
    ensures !Contains(s, token) ==> r.0 == s
  {
    var (c, rng1) := RandomColor(false, rng);
    if Contains(s, token) then (ReplaceAll(s, token, render(c)), rng1)
    else ReplaceAbsent(s, token, render(c)); (ReplaceAll(s, token, render(c)), rng1)
  }

  /** One fixed substitution: the placeholder and how the drawn colour is rendered. */
  type Job = (Needle, string -> string)

  /** The fixed substitutions in order, each drawing one colour. */
  function DrawAll(s: string, jobs: seq<Job>, rng: Rng): (r: (string, Rng))
    ensures r.1 == Skip(rng, |jobs|)
    ensures Braced(jobs) && '{' !in s ==> r.0 == s
    decreases |jobs|
  {
    if jobs == [] then (s, rng)
    else
      var (s1, r1) := DrawInto(s, jobs[0].0, jobs[0].1, rng);
      assert forall i :: 0 <= i < |jobs[1..]| ==> jobs[1..][i] == jobs[i + 1];
      if '{' in jobs[0].0 && '{' !in s then
        MissingChar(s, jobs[0].0, '{');
        DrawAll(s1, jobs[1..], r1)
      else
        DrawAll(s1, jobs[1..], r1)
  }

  /** Every placeholder of `jobs` holds a brace. */
  predicate Braced(jobs: seq<Job>) {
    forall i :: 0 <= i < |jobs| ==> '{' in jobs[i].0
  }

  function Same(c: string): string {
    c
  }

  /** `border-bottom: 2px dotted {{HEADER_RULE_COLOR}}` becomes a wave under the header,
      `border-top: 2px dotted {{FOOTER_RULE_COLOR}}` one over the footer, and the note and
      button placeholders take a colour as it is. */
  const Fixed: seq<Job> := [(HeaderRule, WavyHeader), (FooterRule, WavyFooter), (NoteColour, Same), (CtaColour, Same)]

  /** The header and footer waves and the note and button colours: four draws, made
      whether or not the placeholders occur. */
  function FixedPasses(s: string, rng: Rng): (r: (string, Rng))
    ensures r.1 == Skip(rng, 4)
  {
    assert |Fixed| == 4;
    DrawAll(s, Fixed, rng)
  }

  /** The colouring of the filled template. */
  function Colourize(s: string, rng: Rng): (r: (string, Rng))
    ensures r.1.pick == rng.pick && r.1.next >= rng.next + 4
  {
    var (s1, r1) := RegexPasses(s, rng);
    FixedPasses(s1, r1)
  }

  /** A pass whose pattern opens with a tag leaves text without `<` alone and draws nothing. */
  lemma PassPlain(p: Pattern, step: Step, s: string, rng: Rng)
    requires Wf(p) && Opens(p) && '<' !in s
    ensures SubDraw(p, step, s, rng) == (s, rng)
  {
    ScanNoTag(p, s);
  }

  /** Text without markup goes through the six regex passes untouched, drawing nothing. */
  lemma RegexPlain(s: string, rng: Rng)
    requires '<' !in s
    ensures RegexPasses(s, rng) == (s, rng)
  {
    PassPlain(Hr, HrStep, s, rng);
    PassPlain(H1, H1Step, s, rng);
    PassPlain(H2, H2Step, s, rng);
    PassPlain(H3, H3Step, s, rng);
    PassPlain(Strong, StrongStep, s, rng);
    PassPlain(Anchor, LinkStep, s, rng);
  }

  /** Text without placeholders goes through the fixed passes untouched; the four colours
      are drawn all the same. */
  lemma FixedPlain(s: string, rng: Rng)
    requires '{' !in s
    ensures FixedPasses(s, rng) == (s, Skip(rng, 4))
  {
    assert HeaderRule[|HeaderRule| - 21] == '{' && FooterRule[|FooterRule| - 21] == '{';
    assert NoteColour[0] == '{' && CtaColour[0] == '{';
    assert Braced(Fixed);
  }

  /** Plain text (no markup, no placeholders) comes out of the colouring as it went in,
      after exactly four draws. */
  lemma ColourizePlain(s: string, rng: Rng)
    requires '<' !in s && '{' !in s
    ensures Colourize(s, rng) == (s, Skip(rng, 4))
  {
    RegexPlain(s, rng);
    FixedPlain(s, rng);
  }

  /** A pass only moves the source forward. */
  lemma PassAdvances(p: Pattern, step: Step, cost: Hit -> nat, s: string, rng: Rng)
    requires Wf(p) && Draws(step, cost)
    ensures SubDraw(p, step, s, rng).1.pick == rng.pick
    ensures SubDraw(p, step, s, rng).1.next >= rng.next
  {
    var sc := ScanAll(p, s);
    ThreadClosed(sc.gaps, sc.hits, step, cost, rng);
  }
}

=== FILE: frontmatter.dfy ===
/**
 * `extract_frontmatter` (generate_newsletter.py:14-25): the match of
 * `^---\s*\n(.*?)\n---\s*\n(.*)` under DOTALL, with the backtracking order of
 * Python's `re`, followed by the YAML load and the merge of the constants file with
 * the newsletter's own frontmatter (generate_newsletter.py:91-110).
 */
module Frontmatter {
  import opened Wrappers
  import opened Text
  import opened Scanner

  /** The closing delimiter. */
  const Closing: string := "\n---"

  /** `s[a..b]` is all whitespace, stated position by position. */
  predicate Blank(s: string, a: nat, b: nat)
    requires a <= b <= |s|
  {
    forall i :: a <= i < b ==> IsSpace(s[i])
  }

  /** `---` at the start of `s`. */
  predicate Opening(s: string) {
    |s| >= 3 && s[0] == '-' && s[1] == '-' && s[2] == '-'
  }

  /** `\n---` at position `c` of `s`. */
  predicate ClosingAt(s: string, c: nat) {
    c + 4 <= |s| && s[c] == '\n' && s[c + 1] == '-' && s[c + 2] == '-' && s[c + 3] == '-'
  }

  /**
   * A way for the pattern to match `s`: the opening `---`, whitespace `s[3..p]`, the
   * newline at `p`, the first group `s[p + 1..j]`, the closing `\n---` at `j`, the
   * whitespace `s[j + 4..q]`, the newline at `q`, and the second group `s[q + 1..]`.
   */
  predicate Layout(s: string, p: nat, j: nat, q: nat) {
    && Opening(s)
    && 3 <= p < j && j + 4 <= q < |s|
    && Blank(s, 3, p) && s[p] == '\n'
    && ClosingAt(s, j)
    && Blank(s, j + 4, q) && s[q] == '\n'
  }

  /**
   * The layout Python's backtracking settles on: the opening newline as late as
   * possible (greedy `\s*`), then the closing delimiter as early as possible (lazy
   * `.*?`), then the newline after it as late as possible (greedy `\s*`).
   */
  ghost predicate Preferred(s: string, p: nat, j: nat, q: nat) {
    && Layout(s, p, j, q)
    && forall p': nat, j': nat, q': nat :: Layout(s, p', j', q') ==>
         p' < p || (p' == p && (j < j' || (j' == j && q' <= q)))
  }

  /** The end of the whitespace run starting at `k` (`\s*` taken greedily). */
  function Run(s: string, k: nat): (r: nat)
    requires k <= |s|
    ensures k <= r <= |s| && Blank(s, k, r)
    ensures r == |s| || !IsSpace(s[r])
  {
    var r := SpaceRun(s, k);
    assert forall i :: k <= i < r ==> s[k..r][i - k] == s[i];
    r
  }

  /** A whitespace character at `q` preceded only by whitespace lies inside the run. */
  lemma RunCovers(s: string, k: nat, q: nat)
    requires k <= q < |s| && IsSpace(s[q]) && Blank(s, k, q)
    ensures q < Run(s, k)
  {
  }

  // ---- Backtracking as search: the first or last position a condition accepts ----

  /** The first `i` in `[lo, hi)` that `ok` accepts (a lazy quantifier). */
  function FirstWhere(lo: nat, hi: nat, ok: nat -> bool): (r: Option<nat>)
    ensures r.Some? ==> lo <= r.value < hi && ok(r.value)
    decreases hi - lo
  {
    if lo >= hi then None
    else if ok(lo) then Some(lo)
    else FirstWhere(lo + 1, hi, ok)
  }

  /** Every accepted position is found, or an earlier one is. */
  lemma {:induction false} FirstWhereEarliest(lo: nat, hi: nat, ok: nat -> bool, i: nat)
    requires lo <= i < hi && ok(i)
    ensures FirstWhere(lo, hi, ok).Some? && FirstWhere(lo, hi, ok).value <= i
    decreases hi - lo
  {
    if !ok(lo) {
      FirstWhereEarliest(lo + 1, hi, ok, i);
    }
  }

  /** The last `i` in `[lo, hi)` that `ok` accepts (a greedy quantifier giving back). */
  function LastWhere(lo: nat, hi: nat, ok: nat -> bool): (r: Option<nat>)
    ensures r.Some? ==> lo <= r.value < hi && ok(r.value)
    decreases hi
  {
    if hi <= lo then None
    else if ok(hi - 1) then Some(hi - 1)
    else LastWhere(lo, hi - 1, ok)
  }

  /** Every accepted position is found, or a later one is. */
  lemma {:induction false} LastWhereLatest(lo: nat, hi: nat, ok: nat -> bool, i: nat)
    requires lo <= i < hi && ok(i)
    ensures LastWhere(lo, hi, ok).Some? && i <= LastWhere(lo, hi, ok).value
    decreases hi
  {
    if !ok(hi - 1) {
      LastWhereLatest(lo, hi - 1, ok, i);
    }
  }

  // ---- The three searches of the pattern ----

  /** `\s*\n` at `k`: the greedy run of whitespace, given back up to its last newline. */
  function CloseAt(s: string, k: nat): (r: Option<nat>)
    requires k <= |s|
    ensures r.Some? ==> k <= r.value < |s| && Blank(s, k, r.value) && s[r.value] == '\n'
  {
    LastWhere(k, Run(s, k), (i: nat) => i < |s| && s[i] == '\n')
  }

  /** Every newline preceded only by whitespace is a candidate, and the last one is taken. */
  lemma CloseAtLatest(s: string, k: nat, q: nat)
    requires k <= q < |s| && s[q] == '\n' && Blank(s, k, q)
    ensures CloseAt(s, k).Some? && q <= CloseAt(s, k).value
  {
    RunCovers(s, k, q);
    LastWhereLatest(k, Run(s, k), (i: nat) => i < |s| && s[i] == '\n', q);
  }

  /** A closing delimiter at `c` that the rest of the pattern accepts. */
  predicate Closes(s: string, c: nat) {
    ClosingAt(s, c) && CloseAt(s, c + 4).Some?
  }

  /** The lazy `(.*?)`: the first position from `j` on where the closing part matches. */
  function FirstClose(s: string, j: nat): (r: Option<nat>)
    ensures r.Some? ==> j <= r.value && Closes(s, r.value)
  {
    FirstWhere(j, |s|, (c: nat) => Closes(s, c))
  }

  /** Any closing position from `j` on is found, or an earlier one is. */
  lemma FirstCloseEarliest(s: string, j: nat, c: nat)
    requires j <= c && Closes(s, c)
    ensures FirstClose(s, j).Some? && FirstClose(s, j).value <= c
  {
    FirstWhereEarliest(j, |s|, (c: nat) => Closes(s, c), c);
  }

  /** A newline after which the rest of the pattern matches. */
  predicate Opens(s: string, p: nat) {
    3 <= p < |s| && s[p] == '\n' && FirstClose(s, p + 1).Some?
  }

  /**
   * The greedy `---\s*\n` backtracking from `k`: the last acceptable newline before `k`.
   * It is called with `k` the end of the whitespace run after `---`, so every position
   * it tries is preceded only by whitespace.
   */
  function LastOpen(s: string, k: nat): (r: Option<nat>)
    ensures r.Some? ==> r.value < k && Opens(s, r.value)
  {
    LastWhere(3, k, (p: nat) => Opens(s, p))
  }

  /** Any acceptable newline before `k` is found, or a later one is. */
  lemma LastOpenLatest(s: string, k: nat, p: nat)
    requires p < k && Opens(s, p)
    ensures LastOpen(s, k).Some? && p <= LastOpen(s, k).value
  {
    LastWhereLatest(3, k, (p: nat) => Opens(s, p), p);
  }

  /** The three searches of the match, in backtracking order: the opening newline, the
      closing delimiter and the newline after it. */
  function Resolve(s: string): (r: Option<(nat, nat, nat)>)
    ensures r.Some? ==> r.value.0 < r.value.1 && r.value.2 < |s|
  {
    if !Opening(s) then None
    else
      match LastOpen(s, Run(s, 3))
      case None => None
      case Some(p) => Some(ResolveFrom(s, p))
  }

  /** The closing searches once the opening newline `p` is fixed. */
  function ResolveFrom(s: string, p: nat): (r: (nat, nat, nat))
    requires Opens(s, p)
    ensures r.0 == p < r.1 && r.2 < |s|
  {
    var j := FirstClose(s, p + 1).value;
    (p, j, TailAt(s, j))
  }

  /** The newline after the closing delimiter at `j`. */
  function TailAt(s: string, j: nat): (r: nat)
    requires Closes(s, j)
    ensures j + 4 <= r < |s|
  {
    CloseAt(s, j + 4).value
  }

  /** The match of the frontmatter pattern at the start of `s`: the YAML text and the body. */
  function MatchBlock(s: string): (r: Option<(string, string)>)
    ensures !Opening(s) ==> r.None?
  {
    match Resolve(s)
    case None => None
    case Some((p, j, q)) => Some((s[p + 1..j], s[q + 1..]))
  }

  /** Every layout makes its opening newline an acceptable one. */
  lemma LayoutOpens(s: string, p: nat, j: nat, q: nat)
    requires Layout(s, p, j, q)
    ensures Opens(s, p) && Closes(s, j) && p < Run(s, 3)
    ensures FirstClose(s, p + 1).value <= j
    ensures CloseAt(s, j + 4).Some? && q <= CloseAt(s, j + 4).value
  {
    CloseAtLatest(s, j + 4, q);
    FirstCloseEarliest(s, p + 1, j);
    RunCovers(s, 3, p);
  }

  /**
   * The pattern matches exactly when some layout exists, and the groups it reports are
   * those of the layout backtracking prefers.
   */
  lemma FrontmatterMatches(s: string)
    ensures MatchBlock(s).Some? <==> exists p: nat, j: nat, q: nat :: Layout(s, p, j, q)
    ensures MatchBlock(s).Some? ==>
              exists p: nat, j: nat, q: nat :: Preferred(s, p, j, q) && MatchBlock(s).value == (s[p + 1..j], s[q + 1..])
  {
    if exists p: nat, j: nat, q: nat :: Layout(s, p, j, q) {
      var p: nat, j: nat, q: nat :| Layout(s, p, j, q);
      FrontmatterComplete(s, p, j, q);
    }
    if MatchBlock(s).Some? {
      var p, j, q := FrontmatterPreferred(s);
      assert Preferred(s, p, j, q) && MatchBlock(s).value == (s[p + 1..j], s[q + 1..]);
    }
  }

  /** Whenever some layout exists, the pattern matches. */
  lemma FrontmatterComplete(s: string, p: nat, j: nat, q: nat)
    requires Layout(s, p, j, q)
    ensures MatchBlock(s).Some?
  {
    LayoutOpens(s, p, j, q);
    LastOpenLatest(s, Run(s, 3), p);
  }

  /** A match reports the groups of the preferred layout. */
  lemma FrontmatterPreferred(s: string) returns (p: nat, j: nat, q: nat)
    requires MatchBlock(s).Some?
    ensures Preferred(s, p, j, q)
    ensures MatchBlock(s) == Some((s[p + 1..j], s[q + 1..]))
  {
    var w;
    w, p, j, q := Resolved(s);
    ResolvedPreferred(s, w, p, j, q);
    ResolvedGroups(s, p, j, q);
  }

  lemma ResolvedGroups(s: string, p: nat, j: nat, q: nat)
    requires Resolve(s) == Some((p, j, q))
    ensures p < j && q < |s|
    ensures MatchBlock(s) == Some((s[p + 1..j], s[q + 1..]))
  {
  }

  /** The positions the three searches settle on. */
  lemma Resolved(s: string) returns (w: nat, p: nat, j: nat, q: nat)
    requires Resolve(s).Some?
    ensures Opening(s) && w == Run(s, 3)
    ensures LastOpen(s, w) == Some(p) && FirstClose(s, p + 1) == Some(j) && CloseAt(s, j + 4) == Some(q)
    ensures Resolve(s) == Some((p, j, q))
  {
    w := Run(s, 3);
    p := LastOpen(s, w).value;
    j := FirstClose(s, p + 1).value;
    q := TailAt(s, j);
  }

  lemma ResolvedPreferred(s: string, w: nat, p: nat, j: nat, q: nat)
    requires Opening(s) && w == Run(s, 3)
    requires LastOpen(s, w) == Some(p) && FirstClose(s, p + 1) == Some(j) && CloseAt(s, j + 4) == Some(q)
    ensures Preferred(s, p, j, q)
  {
    forall p': nat, j': nat, q': nat | Layout(s, p', j', q')
      ensures p' < p || (p' == p && (j < j' || (j' == j && q' <= q)))
    {
      Beaten(s, w, p, j, q, p', j', q');
    }
  }

  /** Any other layout loses to the resolved one in backtracking order. */
  lemma Beaten(s: string, w: nat, p: nat, j: nat, q: nat, p': nat, j': nat, q': nat)
    requires Opening(s) && w == Run(s, 3)
    requires LastOpen(s, w) == Some(p) && FirstClose(s, p + 1) == Some(j) && CloseAt(s, j + 4) == Some(q)
    requires Layout(s, p', j', q')
    ensures p' < p || (p' == p && (j < j' || (j' == j && q' <= q)))
  {
    LayoutOpens(s, p', j', q');
    OpenOrder(s, w, p, p');
    if p' == p {
      CloseOrder(s, p, j, j');
      if j' == j {
        TailOrder(s, j, q, q');
      }
    }
  }

  lemma OpenOrder(s: string, w: nat, p: nat, p': nat)
    requires LastOpen(s, w) == Some(p) && p' < w && Opens(s, p')
    ensures p' <= p
  {
    LastOpenLatest(s, w, p');
  }

  lemma CloseOrder(s: string, p: nat, j: nat, j': nat)
    requires p + 1 <= j' && FirstClose(s, p + 1) == Some(j) && Closes(s, j')
    ensures j <= j'
  {
    FirstCloseEarliest(s, p + 1, j');
  }

  lemma TailOrder(s: string, j: nat, q: nat, q': nat)
    requires j + 4 <= q' < |s| && CloseAt(s, j + 4) == Some(q) && s[q'] == '\n' && Blank(s, j + 4, q')
    ensures q' <= q
  {
    CloseAtLatest(s, j + 4, q');
  }

  /** No closing delimiter starts inside `y`: the first `\n---` of `y + "\n---"` is the appended one. */
  predicate ClosedOnlyAtEnd(y: string) {
    forall k :: 0 <= k < |y| ==> !ClosingAt(y + Closing, k)
  }

  /**
   * Writing a frontmatter block reads back the same YAML and body, provided the YAML
   * neither starts with whitespace nor contains a closing delimiter, and the body does
   * not start with whitespace.
   */
  lemma FrontmatterRoundTrip(y: string, b: string)
    requires y != [] && !IsSpace(y[0]) && ClosedOnlyAtEnd(y)
    requires b == [] || !IsSpace(b[0])
    ensures MatchBlock("---\n" + y + Closing + "\n" + b) == Some((y, b))
  {
    var s := "---\n" + y + Closing + "\n" + b;
    WrapPieces(y, b, s);
    ReadBack(y, b, s);
  }

  lemma WrapPieces(y: string, b: string, s: string)
    requires s == "---\n" + y + Closing + "\n" + b
    ensures |s| == 9 + |y| + |b| && Opening(s) && s[3] == '\n'
    ensures s[4..4 + |y|] == y && ClosingAt(s, 4 + |y|)
    ensures s[8 + |y|] == '\n' && s[9 + |y|..] == b
    ensures s[4..8 + |y|] == y + Closing
  {
    assert s[..4] == "---\n";
    assert s[4 + |y|..8 + |y|] == Closing;
  }

  /** The pieces of a written frontmatter block are the groups the pattern reports. */
  lemma ReadBack(y: string, b: string, s: string)
    requires y != [] && !IsSpace(y[0]) && ClosedOnlyAtEnd(y)
    requires b == [] || !IsSpace(b[0])
    requires |s| == 9 + |y| + |b| && Opening(s) && s[3] == '\n'
    requires s[4..4 + |y|] == y && ClosingAt(s, 4 + |y|)
    requires s[8 + |y|] == '\n' && s[9 + |y|..] == b
    requires s[4..8 + |y|] == y + Closing
    ensures MatchBlock(s) == Some((y, b))
  {
    var j0 := 4 + |y|;
    var q0 := 8 + |y|;
    assert s[4] == y[0];
    assert Layout(s, 3, j0, q0);
    FrontmatterComplete(s, 3, j0, q0);
    var p, j, q := FrontmatterPreferred(s);
    WrapOpen(s, p);
    WrapClose(y, s, j);
    if q0 + 1 < |s| {
      assert s[q0 + 1] == b[0];
    }
    WrapTail(s, q0, q);
  }

  /** The opening newline is the one right after `---` when the YAML starts with a non-space. */
  lemma WrapOpen(s: string, p: nat)
    requires |s| > 4 && !IsSpace(s[4]) && s[3] == '\n'
    requires 3 <= p < |s| && Blank(s, 3, p) && s[p] == '\n'
    ensures p == 3
  {
  }

  /** The lazy group cannot stop inside the YAML. */
  lemma WrapClose(y: string, s: string, j: nat)
    requires ClosedOnlyAtEnd(y)
    requires |s| >= 8 + |y| && s[4..8 + |y|] == y + Closing
    requires 4 <= j <= 4 + |y| && ClosingAt(s, j)
    ensures j == 4 + |y|
  {
    if j < 4 + |y| {
      ClosingInside(y, s, j);
    }
  }

  lemma ClosingInside(y: string, s: string, j: nat)
    requires |s| >= 8 + |y| && s[4..8 + |y|] == y + Closing
    requires 4 <= j < 4 + |y| && ClosingAt(s, j)
    ensures ClosingAt(y + Closing, j - 4)
  {
    var t := s[4..8 + |y|];
    assert t[j - 4] == s[j] && t[j - 3] == s[j + 1] && t[j - 2] == s[j + 2] && t[j - 1] == s[j + 3];
  }

  /** The newline after the closing delimiter is the last one of its whitespace run. */
  lemma WrapTail(s: string, q0: nat, q: nat)
    requires q0 <= q < |s| && s[q] == '\n' && Blank(s, q0, q)
    requires q0 + 1 == |s| || !IsSpace(s[q0 + 1])
    ensures q == q0
  {
  }

  // ---- Loading and merging ----

  /** What `yaml.safe_load` makes of a text: a mapping (its values rendered with `str`),
      any other document (a scalar, a list, or `None` for an empty text), or a parse error. */
  datatype Doc = Mapping(vars: map<string, string>) | NotMapping | Malformed

  /** `extract_frontmatter(content)`: the loaded frontmatter and the body after it, or the
      empty mapping and the whole content when there is no frontmatter block. A YAML
      error propagates. */
  function ExtractFrontmatter(content: string, load: string -> Doc): (r: Result<(Doc, string), string>)
    ensures r.Failure? <==> MatchBlock(content).Some? && load(MatchBlock(content).value.0).Malformed?
    ensures r.Success? ==> EndsWith(content, r.value.1) && !r.value.0.Malformed?
    ensures MatchBlock(content).None? ==> r == Success((Mapping(map[]), content))
  {
    match MatchBlock(content)
    case None => Success((Mapping(map[]), content))
    case Some((yaml, body)) =>
      var doc := load(yaml);
      if doc.Malformed? then Failure("invalid YAML in frontmatter")
      else
        MatchBlockSuffix(content);
        Success((doc, body))
  }

  /** The body the match reports is a suffix of the content. */
  lemma MatchBlockSuffix(s: string)
    requires MatchBlock(s).Some?
    ensures EndsWith(s, MatchBlock(s).value.1)
  {
    var _, p, j, q := Resolved(s);
    ResolvedGroups(s, p, j, q);
  }

  /** Writing a block and extracting it gives back the loaded YAML and the body. */
  lemma ExtractRoundTrip(y: string, b: string, load: string -> Doc)
    requires y != [] && !IsSpace(y[0]) && ClosedOnlyAtEnd(y)
    requires b == [] || !IsSpace(b[0])
    requires !load(y).Malformed?
    ensures ExtractFrontmatter("---\n" + y + Closing + "\n" + b, load) == Success((load(y), b))
  {
    FrontmatterRoundTrip(y, b);
  }

  /** Content that does not open with `---` is all body. */
  lemma ExtractWithoutBlock(content: string, load: string -> Doc)
    requires !StartsWith(content, "---")
    ensures ExtractFrontmatter(content, load) == Success((Mapping(map[]), content))
  {
  }

  /** The constants file's variables: its frontmatter when the file exists, else `{}`. */
  function LoadConstants(file: Option<string>, load: string -> Doc): (r: Result<Doc, string>)
    ensures file.None? ==> r == Success(Mapping(map[]))
    ensures file.Some? ==> r.Success? == ExtractFrontmatter(file.value, load).Success?
  {
    match file
    case None => Success(Mapping(map[]))
    case Some(text) =>
      var (doc, _) :- ExtractFrontmatter(text, load);
      Success(doc)
  }

  /** `{**constants, **frontmatter}`: the frontmatter's keys override the constants'. Unpacking
      anything but a mapping raises a `TypeError`. */
  function Merge(constants: Doc, front: Doc): (r: Result<map<string, string>, string>)
    ensures r.Success? <==> constants.Mapping? && front.Mapping?
    ensures r.Success? ==> r.value.Keys == constants.vars.Keys + front.vars.Keys
    ensures r.Success? ==> forall k :: k in front.vars ==> r.value[k] == front.vars[k]
    ensures r.Success? ==> forall k :: k in constants.vars && k !in front.vars ==> r.value[k] == constants.vars[k]
  {
    if constants.Mapping? && front.Mapping? then Success(constants.vars + front.vars)
    else Failure("frontmatter is not a mapping")
  }

  /** `vars.get(key, default)` */
  function Get(vars: map<string, string>, key: string, default: string): string {
    if key in vars then vars[key] else default
  }

  /** A key set in the newsletter's frontmatter wins; one set only in the constants file is
      used; one set in neither falls back to the default. */
  lemma MergedLookup(constants: map<string, string>, front: map<string, string>, key: string, default: string)
    ensures var m := Merge(Mapping(constants), Mapping(front)).value;
            Get(m, key, default) ==
              if key in front then front[key] else if key in constants then constants[key] else default
  {
  }
}

=== FILE: newsletter.dfy ===
/**
 * generate_newsletter.py after the sections are known: the personal note, the
 * `{{KEY}}` placeholders of the template, and the colour passes that give every
 * rule, heading, highlight and link its own random colour.
 */
module Newsletter {
  import opened Wrappers
  import opened Text
  import opened Scanner
  import opened Oracle
  import opened Palette
  import opened Passes
  import opened Sections
  import opened Frontmatter

  // ---- The personal note ----

  /** `"personal note" in title.lower()` */
  predicate IsNoteTitle(title: string) {
    Contains(Lower(title), "personal note")
  }

  /** Lower-casing works character by character, so it distributes over concatenation. */
  lemma LowerConcat(a: string, b: string)
    ensures Lower(a + b) == Lower(a) + Lower(b)
  {
    assert forall i :: 0 <= i < |a + b| ==> Lower(a + b)[i] == (Lower(a) + Lower(b))[i];
  }

  /** A title mentioning the note in any letter case, anywhere, is recognised. */
  lemma NoteTitleAnywhere(before: string, mention: string, after: string)
    requires Lower(mention) == "personal note"
    ensures IsNoteTitle(before + mention + after)
  {
    LowerConcat(before + mention, after);
    LowerConcat(before, mention);
    assert StartsWith("personal note", "personal note");
    ContainsConcat(Lower(before), "personal note", Lower(after), "personal note");
  }

  /** The note and the sections left for the numbered slots: a first section whose title
      mentions the personal note becomes the note, its content stripped. */
  function PersonalNote(sections: seq<Section>): (r: (string, seq<Section>))
    ensures |sections| - 1 <= |r.1| <= |sections| && r.1 == sections[|sections| - |r.1|..]
    ensures |r.1| < |sections| <==> sections != [] && IsNoteTitle(sections[0].title)
    ensures |r.1| < |sections| ==> r.0 == Strip(sections[0].content)
    ensures |r.1| == |sections| ==> r.0 == ""
  {
    if sections != [] && IsNoteTitle(sections[0].title) then (Strip(sections[0].content), sections[1..])
    else ("", sections)
  }

  // ---- The placeholders ----

  /** `'{{' + key + '}}'` */
  function Token(key: string): string {
    "{{" + key + "}}"
  }

  /** Text without braces: no placeholder can start or end inside it. */
  predicate Plain(s: string) {
    '{' !in s && '}' !in s
  }

  /** The text-valued placeholders, in the order the script fills them. */
  const Keys: seq<string> := [
    "NEWSLETTER_TITLE", "DATE", "PERSONAL_NOTE", "CONTACT_INFO", "PORTFOLIO_LINK",
    "LINKEDIN_LINK", "CTA_TEXT", "CTA_LINK", "EMAIL_ADDRESS",
    "SECTION_1_TITLE", "SECTION_1_CONTENT", "SECTION_2_TITLE", "SECTION_2_CONTENT",
    "SECTION_3_TITLE", "SECTION_3_CONTENT"
  ]

  /** The placeholders the colour passes fill later. */
  const ColourKeys: seq<string> := [
    "H1_COLOR", "HEADER_RULE_COLOR", "FOOTER_RULE_COLOR", "PERSONAL_NOTE_COLOR", "CTA_COLOR"
  ]

  predicate PlainKeys(reps: seq<(string, string)>) {
    forall j :: 0 <= j < |reps| ==> Plain(reps[j].0)
  }

  predicate DistinctKeys(reps: seq<(string, string)>) {
    forall a, b :: 0 <= a < b < |reps| ==> reps[a].0 != reps[b].0
  }

  /** The settings the template shows: the frontmatter variable and the default used when
      neither the newsletter nor the constants file sets it. */
  const Settings: seq<(string, string)> := [
    ("title", "Newsletter"), ("date", ""),
    ("contact_info", "Creative Technologist & Design Innovator"),
    ("portfolio_link", "#"), ("linkedin_link", "#"), ("cta_text", "Get In Touch"),
    ("cta_link", "mailto:hello@example.com"), ("recipient_email", "subscriber@example.com")
  ]

  /** The position in `Keys` of the placeholder setting `i` fills (the note sits at 2). */
  function SettingKey(i: nat): nat {
    if i < 2 then i else i + 1
  }

  /** Numbered slot `i` (0-based): the section's title and stripped content, or two empty
      strings when there are fewer sections. */
  function Slot(content: seq<Section>, i: nat): (string, string) {
    if i < |content| then (content[i].title, Strip(content[i].content)) else ("", "")
  }

  /** The values of the `replacements` dictionary, one per name in `Keys`. */
  function Values(vars: map<string, string>, note: string, content: seq<Section>): (v: seq<string>)
    ensures |v| == |Keys|
  {
    var shown := seq(|Settings|, i requires 0 <= i < |Settings| => Get(vars, Settings[i].0, Settings[i].1));
    var slots := seq(6, j requires 0 <= j < 6 => if j % 2 == 0 then Slot(content, j / 2).0 else Slot(content, j / 2).1);
    shown[..2] + [note] + shown[2..] + slots
  }

  /** The `replacements` dictionary, in insertion order. */
  function Replacements(vars: map<string, string>, note: string, content: seq<Section>): (r: seq<(string, string)>)
    ensures |r| == |Keys| && forall j :: 0 <= j < |r| ==> r[j] == (Keys[j], Values(vars, note, content)[j])
    ensures PlainKeys(r) && DistinctKeys(r)
  {
    KeysPlain();
    KeysDistinct();
    var v := Values(vars, note, content);
    seq(|Keys|, j requires 0 <= j < |Keys| => (Keys[j], v[j]))
  }

  /** Where each value sits: the settings around the note, then the three slots. */
  lemma SettingAt(vars: map<string, string>, note: string, content: seq<Section>, i: nat)
    requires i < |Settings|
    ensures Values(vars, note, content)[SettingKey(i)] == Get(vars, Settings[i].0, Settings[i].1)
  {
    var shown := seq(|Settings|, i requires 0 <= i < |Settings| => Get(vars, Settings[i].0, Settings[i].1));
    var slots := seq(6, j requires 0 <= j < 6 => if j % 2 == 0 then Slot(content, j / 2).0 else Slot(content, j / 2).1);
    var v := shown[..2] + [note] + shown[2..] + slots;
    assert Values(vars, note, content) == v;
    if i < 2 {
      assert v[i] == shown[..2][i];
    } else {
      assert v[i + 1] == shown[2..][i - 2];
    }
  }

  lemma NoteAt(vars: map<string, string>, note: string, content: seq<Section>)
    ensures Values(vars, note, content)[2] == note
  {
  }

  lemma SlotTitleAt(vars: map<string, string>, note: string, content: seq<Section>, i: nat)
    requires i < 3
    ensures Values(vars, note, content)[9 + 2 * i] == Slot(content, i).0
  {
    assert (2 * i) % 2 == 0 && (2 * i) / 2 == i;
  }

  lemma SlotContentAt(vars: map<string, string>, note: string, content: seq<Section>, i: nat)
    requires i < 3
    ensures Values(vars, note, content)[10 + 2 * i] == Slot(content, i).1
  {
    assert (2 * i + 1) % 2 == 1 && (2 * i + 1) / 2 == i;
  }

  lemma KeysPlain()
    ensures forall j :: 0 <= j < |Keys| ==> Plain(Keys[j])
  {
    forall j | 0 <= j < |Keys|
      ensures Plain(Keys[j])
    {
      if j < 5 {
        KeysPlainBelow(j);
      } else if j < 10 {
        KeysPlainMiddle(j);
      } else {
        KeysPlainAbove(j);
      }
    }
  }

  lemma KeysPlainBelow(j: nat)
    requires j < 5
    ensures Plain(Keys[j])
  {
  }

  lemma KeysPlainMiddle(j: nat)
    requires 5 <= j < 10
    ensures Plain(Keys[j])
  {
  }

  lemma KeysPlainAbove(j: nat)
    requires 10 <= j < |Keys|
    ensures Plain(Keys[j])
  {
  }

  lemma KeysDistinct()
    ensures Distinct(Keys)
  {
  }

  lemma ColourKeysFresh()
    ensures forall j :: 0 <= j < |ColourKeys| ==> Plain(ColourKeys[j]) && ColourKeys[j] !in Keys
  {
  }

  /** `for key, value in replacements.items(): result = result.replace('{{' + key + '}}', value)` */
  function FillPlaceholders(template: string, reps: seq<(string, string)>): string
    decreases |reps|
  {
    if reps == [] then template
    else FillPlaceholders(ReplaceAll(template, Token(reps[0].0), reps[0].1), reps[1..])
  }

  /** A template without an opening brace is left as it is. */
  lemma {:induction false} FillWithoutBraces(template: string, reps: seq<(string, string)>)
    requires '{' !in template
    ensures FillPlaceholders(template, reps) == template
    decreases |reps|
  {
    if reps != [] {
      var t := Token(reps[0].0);
      assert t[0] == '{';
      MissingChar(template, t, '{');
      ReplaceAbsent(template, t, reps[0].1);
      FillWithoutBraces(template, reps[1..]);
    }
  }

  /** One brace-free placeholder occurs inside another only when the two are the same. */
  lemma TokenInside(k: string, x: string)
    ensures Plain(k) && Plain(x) && Contains(Token(x), Token(k)) ==> k == x
  {
    ContainsAt(Token(x), Token(k));
    if Plain(k) && Plain(x) && Contains(Token(x), Token(k)) {
      var m :| 0 <= m <= |Token(x)| && StartsWith(Token(x)[m..], Token(k));
      TokenAt(k, x, m);
    }
  }

  lemma TokenAt(k: string, x: string, m: nat)
    requires Plain(k) && Plain(x) && m <= |Token(x)| && StartsWith(Token(x)[m..], Token(k))
    ensures m == 0 && k == x
  {
    var s, t := Token(x), Token(k);
    assert s[m..][0] == s[m] && s[m..][1] == s[m + 1];
    forall i | 2 <= i < |s|
      ensures s[i] != '{'
    {
      assert s[i] == if i < |x| + 2 then x[i - 2] else '}';
    }
    assert m == 0;
    assert |k| <= |x| && s[..|t|] == t;
    forall i | 0 <= i < |k|
      ensures k[i] == x[i]
    {
      assert s[..|t|][i + 2] == t[i + 2];
    }
    assert s[|k| + 2] == t[|k| + 2];
    assert |k| == |x|;
  }

  /** A template that is one placeholder gets that placeholder's value, provided the names
      are brace-free and distinct and the value opens no further placeholder. */
  lemma {:induction false} FillLoneToken(reps: seq<(string, string)>, i: nat)
    requires i < |reps| && PlainKeys(reps) && DistinctKeys(reps) && '{' !in reps[i].1
    ensures FillPlaceholders(Token(reps[i].0), reps) == reps[i].1
    decreases |reps|
  {
    var k := reps[0].0;
    if i == 0 {
      ReplaceWhole(Token(k), reps[0].1);
      FillWithoutBraces(reps[0].1, reps[1..]);
    } else {
      TokenInside(k, reps[i].0);
      ReplaceAbsent(Token(reps[i].0), Token(k), reps[0].1);
      assert reps[1..][i - 1] == reps[i];
      FillLoneToken(reps[1..], i - 1);
    }
  }

  /** A template that is one brace-free placeholder not in the dictionary is left as it is. */
  lemma {:induction false} FillLoneUnknown(x: string, reps: seq<(string, string)>)
    requires Plain(x) && PlainKeys(reps) && forall j :: 0 <= j < |reps| ==> reps[j].0 != x
    ensures FillPlaceholders(Token(x), reps) == Token(x)
    decreases |reps|
  {
    if reps != [] {
      TokenInside(reps[0].0, x);
      ReplaceAbsent(Token(x), Token(reps[0].0), reps[0].1);
      FillLoneUnknown(x, reps[1..]);
    }
  }

  // ---- Templates ----

  /** A piece of a template: text copied as it is, or a `{{KEY}}` placeholder. */
  datatype Piece = Verbatim(text: string) | Placeholder(key: string)

  /** Text in which every `{` is followed by some other character: no placeholder opens
      inside it or at its end. Single braces, as in a style sheet, are allowed. */
  predicate Inert(s: string) {
    forall i :: 0 <= i < |s| && s[i] == '{' ==> i + 1 < |s| && s[i + 1] != '{'
  }

  predicate InertValues(reps: seq<(string, string)>) {
    forall j :: 0 <= j < |reps| ==> Inert(reps[j].1)
  }

  predicate WellPlaced(p: Piece) {
    match p
    case Verbatim(t) => Inert(t)
    case Placeholder(k) => Plain(k)
  }

  /** Every piece is inert text or a placeholder with a brace-free name. */
  predicate WellFormed(ps: seq<Piece>) {
    forall j :: 0 <= j < |ps| ==> WellPlaced(ps[j])
  }

  /** The value the dictionary gives a name: that of its first entry under the name. */
  function Lookup(reps: seq<(string, string)>, key: string): Option<string>
    decreases |reps|
  {
    if reps == [] then None
    else if reps[0].0 == key then Some(reps[0].1)
    else Lookup(reps[1..], key)
  }

  /** What a piece shows once the dictionary is applied: text as it is, a placeholder's
      value when the dictionary names it, the placeholder itself otherwise. */
  function Shown(p: Piece, reps: seq<(string, string)>): string {
    match p
    case Verbatim(t) => t
    case Placeholder(k) => Lookup(reps, k).GetOr(Token(k))
  }

  /** The pieces, each shown, one after the other. */
  function Filled(ps: seq<Piece>, reps: seq<(string, string)>): string
    decreases |ps|
  {
    if ps == [] then [] else Shown(ps[0], reps) + Filled(ps[1..], reps)
  }

  /** The template's own text, every placeholder in place. */
  function Layout(ps: seq<Piece>): string {
    Filled(ps, [])
  }

  /** The pieces with every `{{key}}` turned into the text `v`. */
  function Substitute(ps: seq<Piece>, key: string, v: string): (r: seq<Piece>)
    ensures |r| == |ps|
    ensures forall j :: 0 <= j < |ps| ==> r[j] == if ps[j] == Placeholder(key) then Verbatim(v) else ps[j]
  {
    seq(|ps|, j requires 0 <= j < |ps| => if ps[j] == Placeholder(key) then Verbatim(v) else ps[j])
  }

  /** Inert text holds no placeholder. */
  lemma InertToken(t: string, k: string)
    requires Inert(t)
    ensures !Contains(t, Token(k))
  {
    forall m | 0 <= m <= |t|
      ensures !StartsWith(t[m..], Token(k))
    {
      if m < |t| && t[m] == '{' {
        assert t[m..][1] == t[m + 1];
        Differ(t[m..], Token(k), 1);
      } else {
        Differ(t[m..], Token(k), 0);
      }
    }
    ContainsAt(t, Token(k));
  }

  /** No placeholder starts inside inert text and ends after it. */
  lemma InertSeam(a: string, b: string, k: string)
    requires Inert(a)
    ensures Unstraddled(a, b, Token(k))
  {
    forall p | 0 <= p < |a| < p + |Token(k)|
      ensures !StartsWith((a + b)[p..], Token(k))
    {
      var s := (a + b)[p..];
      if a[p] == '{' {
        assert s[1] == a[p + 1];
        Differ(s, Token(k), 1);
      } else {
        assert s[0] == a[p];
        Differ(s, Token(k), 0);
      }
    }
  }

  /** No brace-free placeholder starts inside another one and ends after it. */
  lemma TokenSeam(x: string, b: string, k: string)
    requires Plain(x) && Plain(k)
    ensures Unstraddled(Token(x), b, Token(k))
  {
    var a, t := Token(x), Token(k);
    forall p | 0 <= p < |a| < p + |t|
      ensures !StartsWith((a + b)[p..], t)
    {
      var s := (a + b)[p..];
      if p == 0 {
        assert s[|x| + 2] == a[|x| + 2] == '}';
        assert t[|x| + 2] == k[|x|];
        Differ(s, t, |x| + 2);
      } else if p == 1 {
        assert s[1] == a[2] == if |x| > 0 then x[0] else '}';
        Differ(s, t, 1);
      } else {
        assert s[0] == a[p] == if p < |x| + 2 then x[p - 2] else '}';
        Differ(s, t, 0);
      }
    }
  }

  /** A text that differs from `t` at some position inside `t` does not start with `t`. */
  lemma Differ(s: string, t: string, j: nat)
    requires j < |t| && (j < |s| ==> s[j] != t[j])
    ensures !StartsWith(s, t)
  {
    if |t| <= |s| {
      assert s[..|t|][j] != t[j];
    }
  }

  /** One `str.replace` of `{{k}}` by inert text turns exactly the pieces `{{k}}` into
      that text and keeps the template well formed. */
  lemma {:induction false} ReplaceLayout(ps: seq<Piece>, k: string, v: string)
    requires WellFormed(ps) && Plain(k) && Inert(v)
    ensures ReplaceAll(Layout(ps), Token(k), v) == Layout(Substitute(ps, k, v))
    ensures WellFormed(Substitute(ps, k, v))
    decreases |ps|
  {
    var qs := Substitute(ps, k, v);
    assert WellFormed(qs) by {
      forall j | 0 <= j < |qs|
        ensures WellPlaced(qs[j])
      {
        assert WellPlaced(ps[j]);
      }
    }
    if ps == [] {
      ReplaceEmpty(Token(k), v);
    } else {
      var head, rest := Shown(ps[0], []), Layout(ps[1..]);
      assert Layout(ps) == head + rest;
      ReplacePiece(ps[0], rest, k, v);
      ReplaceSplit(head, rest, Token(k), v);
      assert WellFormed(ps[1..]) by {
        assert forall j :: 0 <= j < |ps| - 1 ==> ps[1..][j] == ps[j + 1];
      }
      ReplaceLayout(ps[1..], k, v);
      assert qs[1..] == Substitute(ps[1..], k, v);
    }
  }

  /** One piece under the replacement of `{{k}}`: no occurrence runs past its end, and it
      becomes `v` exactly when it is that placeholder. */
  lemma ReplacePiece(p: Piece, rest: string, k: string, v: string)
    requires WellPlaced(p) && Plain(k)
    ensures Unstraddled(Shown(p, []), rest, Token(k))
    ensures ReplaceAll(Shown(p, []), Token(k), v) == Shown(if p == Placeholder(k) then Verbatim(v) else p, [])
  {
    match p
    case Verbatim(t) =>
      InertSeam(t, rest, k);
      InertToken(t, k);
      ReplaceAbsent(t, Token(k), v);
    case Placeholder(x) =>
      TokenSeam(x, rest, k);
      if x == k {
        ReplaceWhole(Token(k), v);
      } else {
        TokenInside(k, x);
        ReplaceAbsent(Token(x), Token(k), v);
      }
  }

  /** Filling the template after the first entry went in is filling the original with the
      whole dictionary. */
  lemma {:induction false} FilledSubstitute(ps: seq<Piece>, reps: seq<(string, string)>)
    requires reps != []
    ensures Filled(Substitute(ps, reps[0].0, reps[0].1), reps[1..]) == Filled(ps, reps)
    decreases |ps|
  {
    if ps != [] {
      var qs := Substitute(ps, reps[0].0, reps[0].1);
      assert qs[1..] == Substitute(ps[1..], reps[0].0, reps[0].1);
      FilledSubstitute(ps[1..], reps);
    }
  }

  /** The script's placeholder loop applied to any well-formed template shows every piece:
      text as it is, each placeholder the dictionary names as its value, and every other
      placeholder untouched, provided the names are brace-free and no value opens a
      placeholder of its own. */
  lemma {:induction false} FillTemplate(ps: seq<Piece>, reps: seq<(string, string)>)
    requires WellFormed(ps) && PlainKeys(reps) && InertValues(reps)
    ensures FillPlaceholders(Layout(ps), reps) == Filled(ps, reps)
    decreases |reps|
  {
    if reps != [] {
      var qs := Substitute(ps, reps[0].0, reps[0].1);
      ReplaceLayout(ps, reps[0].0, reps[0].1);
      assert PlainKeys(reps[1..]) && InertValues(reps[1..]) by {
        assert forall j :: 0 <= j < |reps| - 1 ==> reps[1..][j] == reps[j + 1];
      }
      FillTemplate(qs, reps[1..]);
      FilledSubstitute(ps, reps);
    }
  }

  /** Showing a joined template is showing each part. */
  lemma {:induction false} FilledJoin(ps: seq<Piece>, qs: seq<Piece>, reps: seq<(string, string)>)
    ensures Filled(ps + qs, reps) == Filled(ps, reps) + Filled(qs, reps)
    decreases |ps|
  {
    if ps == [] {
      assert ps + qs == qs;
    } else {
      assert (ps + qs)[1..] == ps[1..] + qs;
      FilledJoin(ps[1..], qs, reps);
    }
  }

  /** The template `pre`, one placeholder, then `post`: well formed when its parts are, and
      shown part by part. */
  lemma Around(pre: seq<Piece>, key: string, post: seq<Piece>, reps: seq<(string, string)>)
    requires WellFormed(pre) && Plain(key) && WellFormed(post)
    ensures WellFormed(pre + [Placeholder(key)] + post)
    ensures Filled(pre + [Placeholder(key)] + post, reps)
            == Filled(pre, reps) + Shown(Placeholder(key), reps) + Filled(post, reps)
  {
    var ps := pre + [Placeholder(key)] + post;
    forall j | 0 <= j < |ps|
      ensures WellPlaced(ps[j])
    {
      if j < |pre| {
        assert ps[j] == pre[j];
      } else if j > |pre| {
        assert ps[j] == post[j - |pre| - 1];
      }
    }
    FilledJoin(pre + [Placeholder(key)], post, reps);
    FilledJoin(pre, [Placeholder(key)], reps);
  }

  /** With distinct names, an entry's name looks up that entry's value. */
  lemma {:induction false} LookupAt(reps: seq<(string, string)>, i: nat)
    requires i < |reps| && DistinctKeys(reps)
    ensures Lookup(reps, reps[i].0) == Some(reps[i].1)
    decreases i
  {
    if i > 0 {
      assert reps[0].0 != reps[i].0;
      assert reps[1..][i - 1] == reps[i];
      LookupAt(reps[1..], i - 1);
    }
  }

  /** A name no entry carries looks up nothing. */
  lemma {:induction false} LookupNone(reps: seq<(string, string)>, x: string)
    requires forall j :: 0 <= j < |reps| ==> reps[j].0 != x
    ensures Lookup(reps, x) == None
    decreases |reps|
  {
    if reps != [] {
      assert reps[0].0 != x;
      LookupNone(reps[1..], x);
    }
  }

  /** A placeholder anywhere in a well-formed template shows its own value, and the text
      around it is filled as if the placeholder were not there. */
  lemma FillToken(reps: seq<(string, string)>, i: nat, pre: seq<Piece>, post: seq<Piece>)
    requires i < |reps| && PlainKeys(reps) && DistinctKeys(reps) && InertValues(reps)
    requires WellFormed(pre) && WellFormed(post)
    ensures FillPlaceholders(Layout(pre + [Placeholder(reps[i].0)] + post), reps)
            == Filled(pre, reps) + reps[i].1 + Filled(post, reps)
  {
    Around(pre, reps[i].0, post, reps);
    LookupAt(reps, i);
    FillTemplate(pre + [Placeholder(reps[i].0)] + post, reps);
  }

  /** A brace-free placeholder that is not in the dictionary survives the filling, wherever
      it sits in a well-formed template. */
  lemma FillUnknown(x: string, reps: seq<(string, string)>, pre: seq<Piece>, post: seq<Piece>)
    requires Plain(x) && PlainKeys(reps) && InertValues(reps)
    requires forall j :: 0 <= j < |reps| ==> reps[j].0 != x
    requires WellFormed(pre) && WellFormed(post)
    ensures FillPlaceholders(Layout(pre + [Placeholder(x)] + post), reps)
            == Filled(pre, reps) + Token(x) + Filled(post, reps)
  {
    Around(pre, x, post, reps);
    LookupNone(reps, x);
    FillTemplate(pre + [Placeholder(x)] + post, reps);
  }

  /** A setting's placeholder, anywhere in a well-formed template, shows the newsletter's
      frontmatter value, else the constants file's, else the default. */
  lemma SettingShown(constants: map<string, string>, front: map<string, string>, note: string,
                     content: seq<Section>, i: nat, pre: seq<Piece>, post: seq<Piece>)
    requires i < |Settings| && WellFormed(pre) && WellFormed(post)
    requires InertValues(Replacements(Merge(Mapping(constants), Mapping(front)).value, note, content))
    ensures var (name, default) := Settings[i];
            var shown := if name in front then front[name] else if name in constants then constants[name] else default;
            var reps := Replacements(Merge(Mapping(constants), Mapping(front)).value, note, content);
            FillPlaceholders(Layout(pre + [Placeholder(Keys[SettingKey(i)])] + post), reps)
            == Filled(pre, reps) + shown + Filled(post, reps)
  {
    var vars := Merge(Mapping(constants), Mapping(front)).value;
    var reps := Replacements(vars, note, content);
    SettingAt(vars, note, content, i);
    FillToken(reps, SettingKey(i), pre, post);
  }

  /** The numbered title placeholders, anywhere in a well-formed template, show the
      sections' titles in order and are blank past the last section. */
  lemma SlotTitleShown(vars: map<string, string>, note: string, content: seq<Section>, i: nat,
                       pre: seq<Piece>, post: seq<Piece>)
    requires i < 3 && WellFormed(pre) && WellFormed(post)
    requires InertValues(Replacements(vars, note, content))
    ensures var reps := Replacements(vars, note, content);
            var out := FillPlaceholders(Layout(pre + [Placeholder(Keys[9 + 2 * i])] + post), reps);
            && (i < |content| ==> out == Filled(pre, reps) + content[i].title + Filled(post, reps))
            && (i >= |content| ==> out == Filled(pre, reps) + Filled(post, reps))
  {
    var reps := Replacements(vars, note, content);
    var j := 9 + 2 * i;
    SlotTitleAt(vars, note, content, i);
    assert reps[j] == (Keys[j], Slot(content, i).0);
    FillToken(reps, j, pre, post);
    assert Filled(pre, reps) + [] == Filled(pre, reps);
  }

  /** The numbered content placeholders, anywhere in a well-formed template, show the
      sections' stripped content in order and are blank past the last section. */
  lemma SlotContentShown(vars: map<string, string>, note: string, content: seq<Section>, i: nat,
                         pre: seq<Piece>, post: seq<Piece>)
    requires i < 3 && WellFormed(pre) && WellFormed(post)
    requires InertValues(Replacements(vars, note, content))
    ensures var reps := Replacements(vars, note, content);
            var out := FillPlaceholders(Layout(pre + [Placeholder(Keys[10 + 2 * i])] + post), reps);
            && (i < |content| ==> out == Filled(pre, reps) + Strip(content[i].content) + Filled(post, reps))
            && (i >= |content| ==> out == Filled(pre, reps) + Filled(post, reps))
  {
    var reps := Replacements(vars, note, content);
    var j := 10 + 2 * i;
    SlotContentAt(vars, note, content, i);
    assert reps[j] == (Keys[j], Slot(content, i).1);
    FillToken(reps, j, pre, post);
    assert Filled(pre, reps) + [] == Filled(pre, reps);
  }

  /** The note's placeholder, anywhere in a well-formed template, shows the note. */
  lemma NoteShown(vars: map<string, string>, note: string, content: seq<Section>,
                  pre: seq<Piece>, post: seq<Piece>)
    requires WellFormed(pre) && WellFormed(post)
    requires InertValues(Replacements(vars, note, content))
    ensures var reps := Replacements(vars, note, content);
            FillPlaceholders(Layout(pre + [Placeholder("PERSONAL_NOTE")] + post), reps)
            == Filled(pre, reps) + note + Filled(post, reps)
  {
    var reps := Replacements(vars, note, content);
    NoteAt(vars, note, content);
    assert reps[2].0 == Keys[2] == "PERSONAL_NOTE";
    FillToken(reps, 2, pre, post);
  }

  /** The colour placeholders, anywhere in a well-formed template, are left for the colour
      passes. */
  lemma ColoursKept(vars: map<string, string>, note: string, content: seq<Section>, x: string,
                    pre: seq<Piece>, post: seq<Piece>)
    requires x in ColourKeys && WellFormed(pre) && WellFormed(post)
    requires InertValues(Replacements(vars, note, content))
    ensures var reps := Replacements(vars, note, content);
            FillPlaceholders(Layout(pre + [Placeholder(x)] + post), reps)
            == Filled(pre, reps) + Token(x) + Filled(post, reps)
  {
    ColourKeysFresh();
    FillUnknown(x, Replacements(vars, note, content), pre, post);
  }
}

=== FILE: oracle.dfy ===
/** The random source of `random.choice`, made explicit. */
module Oracle {

  /** `pick(k)` is the raw index behind the k-th call of `random.choice`; `next` counts
      the calls made so far. Threading an `Rng` through the passes records how many
      colours each pass consumes. */
  datatype Rng = Rng(pick: nat -> nat, next: nat)

  /** `random.choice(xs)`: one element of the non-empty list, chosen by the oracle. */
  function Choice<T>(rng: Rng, xs: seq<T>): (r: (T, Rng))
    requires |xs| > 0
    ensures r.0 in xs
    ensures r.1 == Skip(rng, 1)
  {
    (xs[rng.pick(rng.next) % |xs|], Rng(rng.pick, rng.next + 1))
  }

  /** The oracle after `n` more draws. */
  function Skip(rng: Rng, n: nat): Rng {
    Rng(rng.pick, rng.next + n)
  }

  /** The oracle that answers `i` to every draw. */
  function Always(i: nat, next: nat): Rng {
    Rng(_ => i, next)
  }

  /** The oracle restricts nothing: every element of the list is the outcome of some draw. */
  lemma ChoiceCovers<T>(xs: seq<T>, i: nat, next: nat)
    requires i < |xs|
    ensures Choice(Always(i, next), xs).0 == xs[i]
  {
  }
}

=== FILE: palette.dfy ===
/**
 * The SparkLabs palettes and the two colour-selection policies:
 * independent draws (generate_newsletter.py) and draws that avoid the
 * previous colour (rainbow_email.py).
 */
module Palette {
  import opened Wrappers
  import opened Oracle

  predicate Distinct<T(==)>(xs: seq<T>) {
    forall i, j :: 0 <= i < j < |xs| ==> xs[i] != xs[j]
  }

  // ---- The newsletter palette: CSS custom properties ----

  /** The colours readable as body text. */
  const TextSafe: seq<string> := [
    "var(--color-dragonfruit)",
    "var(--color-fire)",
    "var(--color-mandarin)",
    "var(--color-leaf)",
    "var(--color-aqua)",
    "var(--color-sky)",
    "var(--color-plum)"
  ]

  /** Gold is too light for text; it only appears in rules, backgrounds and decorations. */
  const Gold: string := "var(--color-gold)"

  const AllColors: seq<string> := TextSafe + [Gold]

  /** `get_random_color(text_safe_only)`: one draw from the text-safe list or from all eight. */
  function RandomColor(textSafeOnly: bool, rng: Rng): (r: (string, Rng))
    ensures r.0 in AllColors
    ensures textSafeOnly ==> r.0 in TextSafe && r.0 != Gold
    ensures r.1 == Skip(rng, 1)
  {
    Choice(rng, if textSafeOnly then TextSafe else AllColors)
  }

  /** Seven text-safe colours, eight in all, gold the only one outside the text-safe list. */
  lemma NewsletterPaletteShape()
    ensures |TextSafe| == 7 && |AllColors| == 8
    ensures Distinct(AllColors)
    ensures Gold !in TextSafe
    ensures forall c :: c in AllColors && c !in TextSafe ==> c == Gold
  {
  }

  /** Any of the eight colours can come out of an unrestricted draw, and any text-safe one
      out of a text-safe draw. */
  lemma RandomColorCovers(textSafeOnly: bool, i: nat, next: nat)
    requires i < (if textSafeOnly then 7 else 8)
    ensures RandomColor(textSafeOnly, Always(i, next)).0 == (if textSafeOnly then TextSafe else AllColors)[i]
  {
    ChoiceCovers(if textSafeOnly then TextSafe else AllColors, i, next);
  }

  // ---- The rainbow palette: hex values, with darker leaf and gold for text ----

  /** `get_sparklab_colors()` */
  const SparkLab: seq<string> := [
    "#ec5999",
    "#ff595e",
    "#f7802b",
    "#6b9c1a",
    "#1aa5c4",
    "#21a9f5",
    "#7f5fad",
    "#d4a017"
  ]

  lemma SparkLabDistinct()
    ensures |SparkLab| == 8 && Distinct(SparkLab)
  {
  }

  /** `[c for c in xs if c != x]` */
  function Without(xs: seq<string>, x: string): (r: seq<string>)
    ensures forall c :: c in r <==> c in xs && c != x
    ensures Distinct(xs) && x in xs ==> |r| == |xs| - 1
    ensures x !in xs ==> r == xs
    decreases |xs|
  {
    if xs == [] then []
    else
      var rest := Without(xs[1..], x);
      assert Distinct(xs) ==> Distinct(xs[1..]) && xs[0] !in xs[1..];
      if xs[0] == x then rest else [xs[0]] + rest
  }

  /** The candidates of `get_different_color(avoid)`: every palette colour but `avoid`
      when `avoid` is truthy, the whole palette when it is `None` (or empty). */
  function Candidates(avoid: Option<string>): (r: seq<string>)
    ensures forall c :: c in r ==> c in SparkLab
    ensures avoid.Some? && avoid.value in SparkLab ==> |r| == 7
    ensures |r| >= 7
  {
    SparkLabDistinct();
    if avoid.Some? && avoid.value != "" then Without(SparkLab, avoid.value) else SparkLab
  }

  /** `get_different_color(avoid)`: a palette colour, never the avoided one. */
  function DifferentColor(avoid: Option<string>, rng: Rng): (r: (string, Rng))
    ensures r.0 in SparkLab
    ensures avoid.Some? && avoid.value != "" ==> r.0 != avoid.value
    ensures r.1 == Skip(rng, 1)
  {
    Choice(rng, Candidates(avoid))
  }

  /** Only the avoided colour is excluded: any other palette colour can be drawn. */
  lemma DifferentColorCovers(avoid: Option<string>, c: string, next: nat)
    requires c in SparkLab && (avoid.Some? && avoid.value != "" ==> c != avoid.value)
    ensures exists i: nat :: DifferentColor(avoid, Always(i, next)).0 == c
  {
    var xs := Candidates(avoid);
    assert c in xs;
    var i :| 0 <= i < |xs| && xs[i] == c;
    ChoiceCovers(xs, i, next);
    assert DifferentColor(avoid, Always(i, next)).0 == c;
  }
}

=== FILE: passes.dfy ===
/**
 * `re.sub(pattern, callback, s)` where the callback draws colours: the callbacks run on
 * the matches from left to right, each consuming draws from the shared random source,
 * and each match is replaced by what its callback returns.
 */
module Passes {
  import opened Scanner
  import opened Oracle

  /** A callback: the replacement for one match, and the random source after its draws. */
  type Step = (Hit, Rng) -> (string, Rng)

  /** `step` makes `cost(h)` draws on match `h`, whatever the source answers. */
  ghost predicate Draws(step: Step, cost: Hit -> nat) {
    forall h, rng :: step(h, rng).1 == Skip(rng, cost(h))
  }

  /** The callbacks run on `hits` in order, each on the state the one before left behind,
      their results woven between the gaps. */
  function Thread<S>(gaps: seq<string>, hits: seq<Hit>, step: (Hit, S) -> (string, S), st: S): (r: (string, S))
    requires |gaps| == |hits| + 1
    decreases |hits|
  {
    if hits == [] then (gaps[0], st)
    else
      var (x, st1) := step(hits[0], st);
      var (rest, st2) := Thread(gaps[1..], hits[1..], step, st1);
      (gaps[0] + x + rest, st2)
  }

  /** `re.sub(p, callback, s)`, the callback's state (the random source, the last colour)
      carried from match to match. */
  function SubDraw<S>(p: Pattern, step: (Hit, S) -> (string, S), s: string, st: S): (string, S)
    requires Wf(p)
  {
    var sc := ScanAll(p, s);
    Thread(sc.gaps, sc.hits, step, st)
  }

  /** The first match's callback runs on the state as given, the rest on what it leaves. */
  lemma ThreadHead<S>(gaps: seq<string>, hits: seq<Hit>, step: (Hit, S) -> (string, S), st: S)
    requires |gaps| == |hits| + 1 && hits != []
    ensures var (x, st1) := step(hits[0], st);
            Thread(gaps, hits, step, st).0 == gaps[0] + x + Thread(gaps[1..], hits[1..], step, st1).0
  {
  }

  /** The draws the callbacks make on `hits`. */
  function Total(hits: seq<Hit>, cost: Hit -> nat): nat
    decreases |hits|
  {
    if hits == [] then 0 else cost(hits[0]) + Total(hits[1..], cost)
  }

  /** The replacement of every match, each made with the source advanced past the draws
      of the matches before it. */
  function Drawn(hits: seq<Hit>, step: Step, cost: Hit -> nat, rng: Rng): (r: seq<string>)
    ensures |r| == |hits|
  {
    seq(|hits|, i requires 0 <= i < |hits| => step(hits[i], Skip(rng, Total(hits[..i], cost))).0)
  }

  /**
   * The pass in closed form: the text between matches is kept, match `i` is replaced by
   * its callback's result on the source advanced past the earlier matches' draws, and the
   * pass as a whole consumes the draws of all matches.
   */
  lemma {:induction false} ThreadClosed(gaps: seq<string>, hits: seq<Hit>, step: Step, cost: Hit -> nat, rng: Rng)
    requires |gaps| == |hits| + 1 && Draws(step, cost)
    ensures Thread(gaps, hits, step, rng) == (Weave(gaps, Drawn(hits, step, cost, rng)), Skip(rng, Total(hits, cost)))
    decreases |hits|
  {
    if hits != [] {
      var rng1 := step(hits[0], rng).1;
      assert rng1 == Skip(rng, cost(hits[0]));
      ThreadClosed(gaps[1..], hits[1..], step, cost, rng1);
      DrawnCons(hits, step, cost, rng);
    }
  }

  lemma DrawnCons(hits: seq<Hit>, step: Step, cost: Hit -> nat, rng: Rng)
    requires hits != []
    ensures Drawn(hits, step, cost, rng)
            == [step(hits[0], rng).0] + Drawn(hits[1..], step, cost, Skip(rng, cost(hits[0])))
  {
    var d := Drawn(hits, step, cost, rng);
    var e := Drawn(hits[1..], step, cost, Skip(rng, cost(hits[0])));
    assert hits[..0] == [] && Skip(rng, 0) == rng;
    forall i | 1 <= i < |hits|
      ensures d[i] == e[i - 1]
    {
      var pre := hits[..i];
      assert pre[0] == hits[0] && pre[1..] == hits[1..][..i - 1];
      assert Total(pre, cost) == cost(hits[0]) + Total(hits[1..][..i - 1], cost);
      assert Skip(rng, Total(pre, cost)) == Skip(Skip(rng, cost(hits[0])), Total(hits[1..][..i - 1], cost));
      assert hits[1..][i - 1] == hits[i];
    }
    assert Total(hits[..0], cost) == 0;
    assert d[0] == step(hits[0], rng).0;
    assert d == [d[0]] + e;
  }

  /** When every match costs `n` draws, the matches before match `i` cost `n * i`. */
  lemma {:induction false} TotalConst(hits: seq<Hit>, cost: Hit -> nat, n: nat)
    requires forall h :: cost(h) == n
    ensures Total(hits, cost) == n * |hits|
    decreases |hits|
  {
    if hits != [] {
      TotalConst(hits[1..], cost, n);
      assert n * |hits| == n * (|hits| - 1) + n;
    }
  }

  /** The pass of a callback making one draw on each match, in closed form: match `i` is
      replaced with the source advanced by `i`, and the pass draws once per match. */
  lemma SubDrawOnce(p: Pattern, step: Step, cost: Hit -> nat, s: string, rng: Rng)
    requires Wf(p) && Draws(step, cost) && forall h :: cost(h) == 1
    ensures var sc := ScanAll(p, s);
            var fills := Drawn(sc.hits, step, cost, rng);
            && SubDraw(p, step, s, rng) == (Weave(sc.gaps, fills), Skip(rng, |sc.hits|))
            && forall i :: 0 <= i < |sc.hits| ==> fills[i] == step(sc.hits[i], Skip(rng, i)).0
  {
    var sc := ScanAll(p, s);
    ThreadClosed(sc.gaps, sc.hits, step, cost, rng);
    TotalConst(sc.hits, cost, 1);
    var d := Drawn(sc.hits, step, cost, rng);
    forall i | 0 <= i < |sc.hits|
      ensures d[i] == step(sc.hits[i], Skip(rng, i)).0
    {
      TotalConst(sc.hits[..i], cost, 1);
    }
  }
}

=== FILE: pipeline.dfy ===
/**
 * `generate_newsletter`: the constants file and the newsletter's frontmatter give the
 * variables, the rendered markdown gives the sections, the template's placeholders are
 * filled and the result is coloured. Reading and writing files is left to the caller: the
 * texts arrive as parameters, a missing constants file as `None`.
 */
module Pipeline {
  import opened Wrappers
  import opened Oracle
  import opened Frontmatter
  import opened Sections
  import N = Newsletter
  import C = Colouring

  /** The newsletter's HTML and the random source after the colour draws, or the error the
      script would raise. */
  function Generate(md: string, constantsFile: Option<string>, template: string,
                    load: string -> Doc, render: string -> string, rng: Rng): (r: Result<(string, Rng), string>)
    ensures r.Success? <==>
              && LoadConstants(constantsFile, load).Success?
              && ExtractFrontmatter(md, load).Success?
              && LoadConstants(constantsFile, load).value.Mapping?
              && ExtractFrontmatter(md, load).value.0.Mapping?
    ensures r.Success? ==> r.value.1.pick == rng.pick && r.value.1.next >= rng.next + 4
  {
    var constants :- LoadConstants(constantsFile, load);
    var doc :- ExtractFrontmatter(md, load);
    var vars :- Merge(constants, doc.0);
    var (note, content) := N.PersonalNote(ProcessMarkdown(doc.1, render));
    var filled := N.FillPlaceholders(template, N.Replacements(vars, note, content));
    Success(C.Colourize(filled, rng))
  }

  /** Without a constants file and without frontmatter the newsletter is always produced. */
  lemma GenerateWithoutFrontmatter(md: string, template: string, load: string -> Doc, render: string -> string, rng: Rng)
    requires !Text.StartsWith(md, "---")
    ensures Generate(md, None, template, load, render, rng).Success?
  {
    ExtractWithoutBlock(md, load);
  }

  /** A template without markup or placeholders comes out as it is, after four draws. */
  lemma GeneratePlainTemplate(md: string, constantsFile: Option<string>, template: string,
                              load: string -> Doc, render: string -> string, rng: Rng)
    requires '<' !in template && '{' !in template
    requires Generate(md, constantsFile, template, load, render, rng).Success?
    ensures Generate(md, constantsFile, template, load, render, rng).value == (template, Skip(rng, 4))
  {
    var constants := LoadConstants(constantsFile, load).value;
    var doc := ExtractFrontmatter(md, load).value;
    var vars := Merge(constants, doc.0).value;
    var (note, content) := N.PersonalNote(ProcessMarkdown(doc.1, render));
    var reps := N.Replacements(vars, note, content);
    N.FillWithoutBraces(template, reps);
    C.ColourizePlain(template, rng);
  }
}

=== FILE: rainbow.dfy ===
/**
 * rainbow_email.py: the rendered email gets a colour on every rule, highlight, emphasis,
 * link and paragraph, each colour different from the one drawn just before it. Optional
 * top content is rendered, unwrapped from its paragraph, coloured the same way and put
 * where the markdown says `{{top}}`.
 */
module Rainbow {
  import opened Wrappers
  import opened Text
  import opened Scanner
  import opened Oracle
  import opened Palette
  import opened Passes

  // ---- Drawing colours that avoid the last one ----

  /** The state the callbacks share through `nonlocal last_color`: the colour drawn last,
      the random source, and the colours drawn so far, in order. */
  datatype Brush = Brush(last: Option<string>, rng: Rng, trail: seq<string>)

  /** `last_color = None` */
  function Fresh(rng: Rng): (b: Brush)
    ensures Steady(b) && b.rng == rng && b.trail == []
  {
    Brush(None, rng, [])
  }

  /** No colour equals the one just before it. */
  predicate NoRepeat(trail: seq<string>) {
    forall i :: 0 < i < |trail| ==> trail[i] != trail[i - 1]
  }

  /** Every colour drawn is a palette colour and differs from the one drawn just before it,
      and `last` holds the latest. */
  predicate Steady(b: Brush) {
    && (forall i :: 0 <= i < |b.trail| ==> b.trail[i] in SparkLab)
    && NoRepeat(b.trail)
    && b.last == (if b.trail == [] then None else Some(b.trail[|b.trail| - 1]))
  }

  /** `color = get_different_color(last_color); last_color = color` */
  function Paint(b: Brush): (r: (string, Brush))
    ensures r.0 in SparkLab
    ensures b.last.Some? && b.last.value != "" ==> r.0 != b.last.value
    ensures r.1 == Brush(Some(r.0), Skip(b.rng, 1), b.trail + [r.0])
  {
    var (c, rng1) := DifferentColor(b.last, b.rng);
    (c, Brush(Some(c), rng1, b.trail + [c]))
  }

  /** No palette colour is the empty string, so `if avoid_color` never lets the last colour
      through. */
  lemma PaletteNonEmpty(c: string)
    ensures c in SparkLab ==> c != ""
  {
  }

  /** A colour other than the last one extends a trail without repeats. */
  lemma NoRepeatExtend(trail: seq<string>, c: string)
    requires NoRepeat(trail) && (trail != [] ==> c != trail[|trail| - 1])
    ensures NoRepeat(trail + [c])
  {
    var t := trail + [c];
    forall i | 0 < i < |t|
      ensures t[i] != t[i - 1]
    {
      if i < |trail| {
        assert t[i] == trail[i] && t[i - 1] == trail[i - 1];
      }
    }
  }

  /** A draw keeps the brush steady: the new colour is not the last one. */
  lemma PaintSteady(b: Brush)
    requires Steady(b)
    ensures Steady(Paint(b).1)
  {
    var (c, b1) := Paint(b);
    if b.trail != [] {
      PaletteNonEmpty(b.trail[|b.trail| - 1]);
    }
    SteadyExtend(b.trail, c, b1.rng);
  }

  /** A palette colour other than the last one extends a steady trail. */
  lemma SteadyExtend(trail: seq<string>, c: string, rng: Rng)
    requires forall i :: 0 <= i < |trail| ==> trail[i] in SparkLab
    requires NoRepeat(trail) && c in SparkLab && (trail != [] ==> c != trail[|trail| - 1])
    ensures Steady(Brush(Some(c), rng, trail + [c]))
  {
    var t := trail + [c];
    NoRepeatExtend(trail, c);
    forall i | 0 <= i < |t|
      ensures t[i] in SparkLab
    {
      if i < |trail| {
        assert t[i] == trail[i];
      }
    }
  }

  // ---- The callbacks ----

  /** `<tag style="color: C…">inner</tag>` */
  function Styled(tag: string, style: string, c: string, inner: string): string {
    "<" + tag + " style=\"color: " + c + style + ";\">" + inner + "</" + tag + ">"
  }

  function HrStep(h: Hit, b: Brush): (string, Brush) {
    var (c, b1) := Paint(b);
    ("<hr style=\"border-bottom: 2px dotted " + c + ";\">", b1)
  }

  function StrongStep(h: Hit, b: Brush): (string, Brush) {
    var (c, b1) := Paint(b);
    (Styled("strong", "; font-weight: 600", c, h.g1), b1)
  }

  function EmStep(h: Hit, b: Brush): (string, Brush) {
    var (c, b1) := Paint(b);
    (Styled("em", "", c, h.g1), b1)
  }

  function ParagraphStep(h: Hit, b: Brush): (string, Brush) {
    var (c, b1) := Paint(b);
    (Styled("p", "", c, h.g1), b1)
  }

  /** In the top content highlights and emphasis become coloured spans. */
  function TopStrongStep(h: Hit, b: Brush): (string, Brush) {
    var (c, b1) := Paint(b);
    (Styled("span", "; font-weight: 600", c, h.g1), b1)
  }

  function TopEmStep(h: Hit, b: Brush): (string, Brush) {
    var (c, b1) := Paint(b);
    (Styled("span", "; font-style: italic", c, h.g1), b1)
  }

  /** A link with a wavy underline: the text colour, then the underline colour. */
  function WavyLink(href: string, fg: string, underline: string, text: string): string {
    LinkTag(href, " style=\"color: " + fg + "; text-decoration: underline; " + "text-decoration-style: wavy; "
      + "text-decoration-color: " + underline + "; text-decoration-thickness: " + "1px;\"", text)
  }

  /** `replace_link`: two draws, the underline's avoiding the text's. */
  function LinkStep(h: Hit, b: Brush): (string, Brush) {
    var (fg, b1) := Paint(b);
    var (u, b2) := Paint(b1);
    (WavyLink(h.g1, fg, u, h.g2), b2)
  }

  /** The rewritten link keeps href and text verbatim and shows two different palette
      colours. */
  lemma LinkKept(h: Hit, b: Brush)
    ensures StartsWith(LinkStep(h, b).0, AnchorOpen + h.g1 + "\"")
    ensures EndsWith(LinkStep(h, b).0, ">" + h.g2 + "</a>")
    ensures exists fg, u :: fg in SparkLab && u in SparkLab && fg != u && LinkStep(h, b).0 == WavyLink(h.g1, fg, u, h.g2)
  {
    var (fg, b1) := Paint(b);
    var u := Paint(b1).0;
    LinkFrame(h.g1, " style=\"color: " + fg + "; text-decoration: underline; " + "text-decoration-style: wavy; "
      + "text-decoration-color: " + u + "; text-decoration-thickness: " + "1px;\"", h.g2);
    assert LinkStep(h, b).0 == WavyLink(h.g1, fg, u, h.g2);
  }

  // ---- Passes keep the brush steady ----

  /** `step` draws `n` colours on every match and keeps the brush steady. */
  ghost predicate Paints(step: (Hit, Brush) -> (string, Brush), n: nat) {
    forall h, b :: Steady(b) ==>
      Steady(step(h, b).1) && step(h, b).1.rng == Skip(b.rng, n) && |step(h, b).1.trail| == |b.trail| + n
  }

  lemma StepsPaint()
    ensures Paints(HrStep, 1) && Paints(StrongStep, 1) && Paints(EmStep, 1) && Paints(ParagraphStep, 1)
    ensures Paints(TopStrongStep, 1) && Paints(TopEmStep, 1) && Paints(LinkStep, 2)
  {
    forall b | Steady(b)
      ensures Steady(Paint(b).1) && Steady(Paint(Paint(b).1).1)
    {
      PaintSteady(b);
      PaintSteady(Paint(b).1);
    }
  }

  /** A pass draws `n` colours per match and the brush stays steady across matches. */
  lemma {:induction false} ThreadSteady(gaps: seq<string>, hits: seq<Hit>, step: (Hit, Brush) -> (string, Brush), n: nat, b: Brush)
    requires |gaps| == |hits| + 1 && Paints(step, n) && Steady(b)
    ensures Steady(Thread(gaps, hits, step, b).1)
    ensures Thread(gaps, hits, step, b).1.rng == Skip(b.rng, n * |hits|)
    ensures |Thread(gaps, hits, step, b).1.trail| == |b.trail| + n * |hits|
    ensures |Thread(gaps, hits, step, b).1.trail| >= |b.trail|
    decreases |hits|
  {
    if hits != [] {
      var b1 := step(hits[0], b).1;
      ThreadSteady(gaps[1..], hits[1..], step, n, b1);
      assert n * |hits| == n + n * (|hits| - 1);
    }
  }

  /** The pass `re.sub(p, step, s)` in terms of its matches. */
  lemma PassSteady(p: Pattern, step: (Hit, Brush) -> (string, Brush), n: nat, s: string, b: Brush)
    requires Wf(p) && Paints(step, n) && Steady(b)
    ensures var b1 := SubDraw(p, step, s, b).1;
            && Steady(b1)
            && b1.rng == Skip(b.rng, n * |ScanAll(p, s).hits|)
            && |b1.trail| == |b.trail| + n * |ScanAll(p, s).hits|
            && |b1.trail| >= |b.trail|
  {
    var sc := ScanAll(p, s);
    ThreadSteady(sc.gaps, sc.hits, step, n, b);
  }

  /** `b1` comes from `b` by draws, each recorded in the trail. */
  ghost predicate Advanced(b: Brush, b1: Brush) {
    |b1.trail| >= |b.trail| && b1.rng == Skip(b.rng, |b1.trail| - |b.trail|)
  }

  lemma PassAdvanced(p: Pattern, step: (Hit, Brush) -> (string, Brush), n: nat, s: string, b: Brush)
    requires Wf(p) && Paints(step, n) && Steady(b)
    ensures Steady(SubDraw(p, step, s, b).1) && Advanced(b, SubDraw(p, step, s, b).1)
  {
    PassSteady(p, step, n, s, b);
    var b1 := SubDraw(p, step, s, b).1;
    CountedAdvanced(b, b1, |b1.trail| - |b.trail|);
  }

  lemma CountedAdvanced(b: Brush, b1: Brush, k: nat)
    requires b1.rng == Skip(b.rng, k) && |b1.trail| == |b.trail| + k
    ensures Advanced(b, b1)
  {
  }

  lemma AdvancedTrans(b: Brush, b1: Brush, b2: Brush)
    requires Advanced(b, b1) && Advanced(b1, b2)
    ensures Advanced(b, b2)
  {
  }

  const HrTag := Literal("<hr>")
  const StrongTag := Lazy("<strong>", "</strong>", false)
  const EmTag := Lazy("<em>", "</em>", false)
  const Paragraph := Lazy("<p>", "</p>", true)

  /** Only the exact text `<hr>` is rewritten, one colour per occurrence; every link takes
      exactly two colours. */
  lemma RuleAndLinkCounts(s: string, b: Brush)
    requires Steady(b)
    ensures SubDraw(HrTag, HrStep, s, b).1.rng == Skip(b.rng, Count(s, "<hr>"))
    ensures SubDraw(Anchor, LinkStep, s, b).1.rng == Skip(b.rng, 2 * |ScanAll(Anchor, s).hits|)
  {
    StepsPaint();
    PassSteady(HrTag, HrStep, 1, s, b);
    PassSteady(Anchor, LinkStep, 2, s, b);
  }

  // ---- The body passes ----

  /** The rule, highlight, emphasis, link and paragraph passes of the rendered email. */
  function BodyPasses(html: string, b: Brush): (string, Brush) {
    var (s1, b1) := SubDraw(HrTag, HrStep, html, b);
    var (s2, b2) := SubDraw(StrongTag, StrongStep, s1, b1);
    var (s3, b3) := SubDraw(EmTag, EmStep, s2, b2);
    var (s4, b4) := SubDraw(Anchor, LinkStep, s3, b3);
    SubDraw(Paragraph, ParagraphStep, s4, b4)
  }

  /** Across all five passes no colour repeats the one before it, and every draw is recorded
      in the trail. */
  lemma BodySteady(html: string, b: Brush)
    requires Steady(b)
    ensures Steady(BodyPasses(html, b).1) && Advanced(b, BodyPasses(html, b).1)
  {
    StepsPaint();
    var (s1, b1) := SubDraw(HrTag, HrStep, html, b);
    PassAdvanced(HrTag, HrStep, 1, html, b);
    var (s2, b2) := SubDraw(StrongTag, StrongStep, s1, b1);
    PassAdvanced(StrongTag, StrongStep, 1, s1, b1);
    var (s3, b3) := SubDraw(EmTag, EmStep, s2, b2);
    PassAdvanced(EmTag, EmStep, 1, s2, b2);
    var (s4, b4) := SubDraw(Anchor, LinkStep, s3, b3);
    PassAdvanced(Anchor, LinkStep, 2, s3, b3);
    var b5 := SubDraw(Paragraph, ParagraphStep, s4, b4).1;
    PassAdvanced(Paragraph, ParagraphStep, 1, s4, b4);
    AdvancedTrans(b, b1, b2);
    AdvancedTrans(b, b2, b3);
    AdvancedTrans(b, b3, b4);
    AdvancedTrans(b, b4, b5);
  }

  // ---- The top content ----

  /** Python's slicing `t[3:-4]` is only reached when both tags are there, and then they
      cannot overlap. */
  lemma ParagraphTagsApart(t: string)
    requires StartsWith(t, "<p>") && EndsWith(t, "</p>")
    ensures |t| >= 7
  {
    assert t[..3][1] == t[1] && t[..3][2] == t[2];
    var k := |t| - 4;
    assert t[k..][0] == t[k] && t[k..][1] == t[k + 1];
  }

  /** The stripped top HTML, without the `<p>` and `</p>` that open and close it. */
  function Unwrap(html: string): (r: string)
    ensures var t := Strip(html);
            && (StartsWith(t, "<p>") && EndsWith(t, "</p>") ==> "<p>" + r + "</p>" == t)
            && (!(StartsWith(t, "<p>") && EndsWith(t, "</p>")) ==> r == t)
  {
    var t := Strip(html);
    if StartsWith(t, "<p>") && EndsWith(t, "</p>") then
      ParagraphTagsApart(t);
      assert t == t[..3] + t[3..|t| - 4] + t[|t| - 4..];
      t[3..|t| - 4]
    else t
  }

  /** `re.search(r'<(strong|em|a)', html)` */
  predicate Marked(html: string) {
    Contains(html, "<strong") || Contains(html, "<em") || Contains(html, "<a")
  }

  /** `colorize_top_content`: highlights, emphasis and links coloured with a fresh
      `last_color`; when no such tag remains, the whole fragment goes into one coloured
      span. */
  function ColorizeTop(html: string, rng: Rng): (string, Brush) {
    var (s3, b3) := TopPasses(html, rng);
    if Marked(s3) then (s3, b3)
    else
      var (c, b4) := Paint(b3);
      (Styled("span", "", c, s3), b4)
  }

  /** The highlight, emphasis and link passes of the top content, from `last_color = None`. */
  function TopPasses(html: string, rng: Rng): (string, Brush) {
    var (s1, b1) := SubDraw(StrongTag, TopStrongStep, html, Fresh(rng));
    var (s2, b2) := SubDraw(EmTag, TopEmStep, s1, b1);
    SubDraw(Anchor, LinkStep, s2, b2)
  }

  /** The fragment is wrapped in one span exactly when no `<strong`, `<em` or `<a` is left
      after the passes; the span's colour is a palette colour other than the last one drawn. */
  lemma TopWrap(html: string, rng: Rng)
    ensures var (s3, b3) := TopPasses(html, rng);
            && (ColorizeTop(html, rng).0 == s3 <==> Marked(s3))
            && (Marked(s3) ==> ColorizeTop(html, rng).1 == b3)
            && (!Marked(s3) ==>
                  exists c :: c in SparkLab && (b3.last.Some? ==> c != b3.last.value)
                              && ColorizeTop(html, rng).0 == Styled("span", "", c, s3))
  {
    var (s3, b3) := TopPasses(html, rng);
    if !Marked(s3) {
      var c := Paint(b3).0;
      PaletteNonEmpty(c);
      assert |Styled("span", "", c, s3)| > |s3|;
    }
  }

  /** Top content without markup becomes one span in one palette colour, after exactly
      one draw. */
  lemma PlainTopOneSpan(html: string, rng: Rng)
    requires '<' !in html
    ensures ColorizeTop(html, rng).1.rng == Skip(rng, 1)
    ensures exists c :: c in SparkLab && ColorizeTop(html, rng).0 == Styled("span", "", c, html)
  {
    ScanNoTag(StrongTag, html);
    ScanNoTag(EmTag, html);
    ScanNoTag(Anchor, html);
    MissingChar(html, "<strong", '<');
    MissingChar(html, "<em", '<');
    MissingChar(html, "<a", '<');
    var c := Paint(Fresh(rng)).0;
    assert ColorizeTop(html, rng).0 == Styled("span", "", c, html);
  }

  /** A link in the top content keeps the fragment from being wrapped. */
  lemma LinkedTopNotWrapped(s: string, b: Brush)
    requires ScanAll(Anchor, s).hits != []
    ensures Contains(SubDraw(Anchor, LinkStep, s, b).0, "<a")
  {
    var sc := ScanAll(Anchor, s);
    var (x, b1) := LinkStep(sc.hits[0], b);
    ThreadHead(sc.gaps, sc.hits, LinkStep, b);
    LinkOpens(sc.hits[0], b);
    ContainsConcat(sc.gaps[0], x, Thread(sc.gaps[1..], sc.hits[1..], LinkStep, b1).0, "<a");
  }

  lemma LinkOpens(h: Hit, b: Brush)
    ensures Contains(LinkStep(h, b).0, "<a")
  {
    var (fg, b1) := Paint(b);
    var u := Paint(b1).0;
    WavyLinkOpens(h.g1, fg, u, h.g2);
    assert LinkStep(h, b).0 == WavyLink(h.g1, fg, u, h.g2);
  }

  lemma WavyLinkOpens(href: string, fg: string, u: string, text: string)
    ensures Contains(WavyLink(href, fg, u, text), "<a")
  {
    var x := WavyLink(href, fg, u, text);
    assert x[0] == AnchorOpen[0] && x[1] == AnchorOpen[1];
    assert StartsWith(x, "<a");
  }

  const TopToken: string := "{{top}}"

  /** `{{top}}` replaced by the coloured top HTML when top content is given, removed
      otherwise; the random source after the top's draws. */
  function FillTop(md: string, top: Option<string>, render: string -> string, rng: Rng): (r: (string, Rng))
    ensures top.None? || top.value == "" ==> r == (ReplaceAll(md, TopToken, ""), rng)
    ensures r.1.pick == rng.pick && r.1.next >= rng.next
  {
    if top.Some? && top.value != "" then
      var (h, b) := ColorizeTop(Unwrap(render(top.value)), rng);
      TopAdvances(Unwrap(render(top.value)), rng);
      (ReplaceAll(md, TopToken, h), b.rng)
    else (ReplaceAll(md, TopToken, ""), rng)
  }

  /** The top content's draws: the source only moves forward, and no colour repeats the one
      drawn just before it. */
  lemma TopAdvances(html: string, rng: Rng)
    ensures ColorizeTop(html, rng).1.rng.pick == rng.pick
    ensures ColorizeTop(html, rng).1.rng.next >= rng.next
    ensures Steady(ColorizeTop(html, rng).1)
  {
    StepsPaint();
    var b := Fresh(rng);
    var (s1, b1) := SubDraw(StrongTag, TopStrongStep, html, b);
    PassAdvanced(StrongTag, TopStrongStep, 1, html, b);
    var (s2, b2) := SubDraw(EmTag, TopEmStep, s1, b1);
    PassAdvanced(EmTag, TopEmStep, 1, s1, b1);
    var b3 := SubDraw(Anchor, LinkStep, s2, b2).1;
    PassAdvanced(Anchor, LinkStep, 2, s2, b2);
    AdvancedTrans(b, b1, b2);
    AdvancedTrans(b, b2, b3);
    PaintSteady(b3);
  }

  /** `{{top}}` between two texts that do not hold it is replaced by the given HTML, with the
      texts on either side kept; braces elsewhere in the markdown do not matter. */
  lemma TopPlaceholder(x: string, y: string, v: string)
    requires !Contains(x, TopToken) && !Contains(y, TopToken)
    ensures ReplaceAll(x + TopToken + y, TopToken, v) == x + v + y
  {
    var t := TopToken;
    forall p | 0 <= p < |x| < p + |t|
      ensures !StartsWith((x + (t + y))[p..], t)
    {
      TopUnbordered(x, y, p);
    }
    ReplaceBetween(x, y, t, v);
  }

  /** No proper suffix of `{{top}}` is also a prefix of it, so no `{{top}}` can start inside
      `x` and end inside the one that follows. */
  lemma TopUnbordered(x: string, y: string, p: nat)
    requires p < |x| < p + |TopToken|
    ensures !StartsWith((x + (TopToken + y))[p..], TopToken)
  {
    var t := TopToken;
    var s := (x + (t + y))[p..];
    var j := |x| - p;
    var w := s[..|t|];
    if j == 1 {
      assert w[2] == t[1] != t[2];
    } else {
      assert w[j] == t[0] != t[j];
    }
  }

  /** Every `{{top}}` of a markdown text is replaced: cut at its occurrences, the text is
      the same pieces joined by the given HTML. */
  lemma {:induction false} TopEverywhere(parts: seq<string>, v: string)
    requires forall i :: 0 <= i < |parts| ==> !Contains(parts[i], TopToken)
    ensures ReplaceAll(Join(parts, TopToken), TopToken, v) == Join(parts, v)
    decreases |parts|
  {
    var t := TopToken;
    if |parts| == 1 {
      ReplaceAbsent(parts[0], t, v);
    } else if |parts| > 1 {
      var x, rest := parts[0], Join(parts[1..], t);
      forall p | 0 <= p < |x| < p + |t|
        ensures !StartsWith((x + (t + rest))[p..], t)
      {
        TopUnbordered(x, rest, p);
      }
      ReplaceSplit(x, t + rest, t, v);
      ReplaceAbsent(x, t, v);
      ReplaceLeading(t, rest, v);
      TopEverywhere(parts[1..], v);
      Associate(x, t, rest);
      Associate(x, v, Join(parts[1..], v));
    }
  }

  /** A markdown text with a stray brace next to `{{top}}` still has it replaced. */
  lemma TopPlaceholderBraced(v: string)
    ensures ReplaceAll("a{b" + TopToken + "}", TopToken, v) == "a{b" + v + "}"
  {
    TopPlaceholder("a{b", "}", v);
  }

  /** `process_markdown_to_rainbow_html` up to the page template: the top placeholder, the
      rendering, and the colour passes with a fresh `last_color`. */
  function RainbowHtml(md: string, top: Option<string>, render: string -> string, rng: Rng): (r: (string, Brush))
  {
    var (md1, rng1) := FillTop(md, top, render, rng);
    BodyPasses(render(md1), Fresh(rng1))
  }

  /** The body's colours come from a fresh `last_color` on the generator the top colours
      left: every one is a palette colour, no two drawn one after the other are the same,
      and the generator has moved on by exactly one draw per colour. */
  lemma RainbowNoRepeats(md: string, top: Option<string>, render: string -> string, rng: Rng)
    ensures var b := RainbowHtml(md, top, render, rng).1;
            Steady(b) && Advanced(Fresh(FillTop(md, top, render, rng).1), b)
  {
    var (md1, rng1) := FillTop(md, top, render, rng);
    BodySteady(render(md1), Fresh(rng1));
  }
}

=== FILE: scanner.dfy ===
/**
 * Left-to-right substitution as Python's `re.sub` and `str.replace` perform it.
 *
 * The subject is cut into gaps and hits: scanning from the left, the first
 * position where the pattern matches gives the next hit, the scan resumes right
 * after it, and every character where no match starts is copied into the
 * current gap. A rewrite pass is then a fold over the hits that produces one
 * replacement per hit, woven back between the unchanged gaps.
 */
module Scanner {
  import opened Wrappers
  import opened Text

  /** One match: its whole text (group 0), the groups the rewrites read, and `filler`,
      the unnamed text between groups (attributes after an href, the spacing and
      title around an image's closing tag). */
  datatype Hit = Hit(text: string, g1: string, g2: string, g3: Option<string>, filler: string)

  /** The regular expressions used by the scripts. None of them can match the empty string. */
  datatype Pattern =
      // a literal: `str.replace(lit, ...)`, or a regex without metacharacters such as `<hr>`
    | Literal(lit: string)
      // `open(.*?)close`; without DOTALL the group cannot cross a newline
    | Lazy(open: string, close: string, dotAll: bool)
      // `prefix[^>]*>.*?close` under DOTALL (the `<h1…>` and `<h3…>` passes); g1 is the body
    | TaggedLazy(prefix: string, close: string)
      // `<a href="([^"]*)"[^>]*>(.*?)</a>`
    | Anchor
      // `<p><img alt="([^"]*)" src="([^"]*)"(?:\s+title="([^"]*)")?\s*/></p>`
    | Image
      // `</?h[12]>`
    | HeaderTag

  predicate Wf(p: Pattern) {
    match p
    case Literal(lit) => |lit| > 0
    case Lazy(open, _, _) => |open| > 0
    case TaggedLazy(prefix, _) => |prefix| > 0
    case _ => true
  }

  const AnchorOpen: string := "<a href=\""

  /** `<a href="HREF"ATTRS>TEXT</a>` */
  function LinkTag(href: string, attrs: string, text: string): string {
    AnchorOpen + href + "\"" + attrs + ">" + text + "</a>"
  }

  /** A rebuilt link starts with its href and ends with its text, whatever the attributes. */
  lemma LinkFrame(href: string, attrs: string, text: string)
    ensures StartsWith(LinkTag(href, attrs, text), AnchorOpen + href + "\"")
    ensures EndsWith(LinkTag(href, attrs, text), ">" + text + "</a>")
  {
    var head := AnchorOpen + href + "\"";
    var tail := ">" + text + "</a>";
    assert LinkTag(href, attrs, text) == head + attrs + tail;
    assert (head + attrs + tail)[..|head|] == head;
    assert (head + attrs + tail)[|head + attrs|..] == tail;
  }

  const ImageOpen: string := "<p><img alt=\""
  const ImageSrc: string := "\" src=\""
  const ImageTitle: string := "title=\""
  const ImageClose: string := "/></p>"

  /** What a hit of `p` looks like: the regex's structure, read back from the groups. */
  predicate Shaped(p: Pattern, h: Hit) {
    match p
    case Literal(lit) => h.text == lit
    case Lazy(open, close, dotAll) =>
      h.text == open + h.g1 + close && (dotAll || '\n' !in h.g1)
    case TaggedLazy(prefix, close) =>
      h.text == prefix + h.filler + ">" + h.g1 + close && '>' !in h.filler
    case Anchor =>
      && h.text == AnchorOpen + h.g1 + "\"" + h.filler + ">" + h.g2 + "</a>"
      && '"' !in h.g1 && '>' !in h.filler && '\n' !in h.g2
    case Image =>
      && h.text == ImageOpen + h.g1 + ImageSrc + h.g2 + "\"" + h.filler + ImageClose
      && '"' !in h.g1 && '"' !in h.g2
      && (h.g3.None? ==> AllSpace(h.filler))
    case HeaderTag =>
      h.text == "<h1>" || h.text == "<h2>" || h.text == "</h1>" || h.text == "</h2>"
  }

  /** `[^c]*c` starting at `from`: the index of the first `c` at or after `from`. */
  function FindChar(s: string, from: nat, c: char): (r: Option<nat>)
    requires from <= |s|
    ensures r.Some? ==> from <= r.value < |s| && s[r.value] == c && c !in s[from..r.value]
    ensures r.None? ==> c !in s[from..]
    decreases |s| - from
  {
    if from == |s| then None
    else if s[from] == c then Some(from)
    else
      var r := FindChar(s, from + 1, c);
      assert s[from..] == [s[from]] + s[from + 1..];
      assert r.Some? ==> s[from..r.value] == [s[from]] + s[from + 1..r.value];
      r
  }

  /** `\s*` starting at `from`: the end of the longest run of whitespace. */
  function SpaceRun(s: string, from: nat): (r: nat)
    requires from <= |s|
    ensures from <= r <= |s| && AllSpace(s[from..r])
    ensures r == |s| || !IsSpace(s[r])
    decreases |s| - from
  {
    if from < |s| && IsSpace(s[from]) then
      SpaceRun(s, from + 1)
    else from
  }

  /** `(.*?)close` starting at `from`: the first index where `close` occurs, provided no
      newline lies before it when `dotAll` is off. */
  function FindClose(s: string, from: nat, close: string, dotAll: bool): (r: Option<nat>)
    requires from <= |s|
    ensures r.Some? ==> from <= r.value <= |s| && StartsWith(s[r.value..], close)
    ensures r.Some? ==> forall k :: from <= k < r.value ==> !StartsWith(s[k..], close)
    ensures r.Some? && !dotAll ==> '\n' !in s[from..r.value]
    ensures r.None? ==> forall k :: from <= k <= |s| && StartsWith(s[k..], close) ==>
                          !dotAll && '\n' in s[from..k]
    decreases |s| - from
  {
    if StartsWith(s[from..], close) then Some(from)
    else if from == |s| || (!dotAll && s[from] == '\n') then
      assert forall k :: from < k <= |s| ==> s[from..k][0] == s[from];
      None
    else
      var r := FindClose(s, from + 1, close, dotAll);
      assert forall k :: from < k <= |s| ==> s[from..k] == [s[from]] + s[from + 1..k];
      r
  }

  function MatchAnchor(s: string): (m: Option<Hit>)
    ensures m.Some? ==> StartsWith(s, m.value.text) && Shaped(Anchor, m.value)
  {
    if !StartsWith(s, AnchorOpen) then None
    else
      match FindChar(s, |AnchorOpen|, '"')
      case None => None
      case Some(q) =>
        match FindChar(s, q + 1, '>')
        case None => None
        case Some(t) =>
          match FindClose(s, t + 1, "</a>", false)
          case None => None
          case Some(j) =>
            AnchorText(s, q, t, j);
            Some(Hit(s[..j + 4], s[|AnchorOpen|..q], s[t + 1..j], None, s[q + 1..t]))
  }

  lemma SliceCat(s: string, a: nat, b: nat, c: nat)
    requires a <= b <= c <= |s|
    ensures s[a..c] == s[a..b] + s[b..c]
  {
  }

  lemma SliceParts(s: string, a: nat, b: nat, x: string, y: string)
    requires a <= b <= |s| && s[a..b] == x + y
    ensures s[a..a + |x|] == x && s[a + |x|..b] == y
  {
    assert s[a..a + |x|] == s[a..b][..|x|];
    assert s[a + |x|..b] == s[a..b][|x|..];
  }

  lemma AnchorText(s: string, q: nat, t: nat, j: nat)
    requires StartsWith(s, AnchorOpen)
    requires |AnchorOpen| <= q < t < j && j + 4 <= |s|
    requires s[q] == '"' && s[t] == '>' && StartsWith(s[j..], "</a>")
    ensures s[..j + 4] == AnchorOpen + s[|AnchorOpen|..q] + "\"" + s[q + 1..t] + ">" + s[t + 1..j] + "</a>"
  {
    var n := |AnchorOpen|;
    assert s[0..n] == AnchorOpen;
    assert s[q..q + 1] == "\"" && s[t..t + 1] == ">" && s[j..j + 4] == "</a>";
    SliceCat(s, 0, j, j + 4);
    SliceCat(s, 0, t + 1, j);
    SliceCat(s, 0, t, t + 1);
    SliceCat(s, 0, q + 1, t);
    SliceCat(s, 0, q, q + 1);
    SliceCat(s, 0, n, q);
    assert s[..j + 4] == s[0..j + 4];
  }

  /** The optional title group only survives when the closing `/></p>` follows it; when
      the group is present but the tail fails, backtracking to "no title" fails too,
      since whitespace is then followed by `t` and not by `/`. */
  function MatchImage(s: string): (m: Option<Hit>)
    ensures m.Some? ==> StartsWith(s, m.value.text) && Shaped(Image, m.value)
  {
    if !StartsWith(s, ImageOpen) then None
    else
      match FindChar(s, |ImageOpen|, '"')
      case None => None
      case Some(q1) =>
        if !StartsWith(s[q1..], ImageSrc) then None else MatchImageSrc(s, q1)
  }

  /** The rest of an image match once `alt` has been read up to its closing quote at `q1`. */
  function MatchImageSrc(s: string, q1: nat): (m: Option<Hit>)
    requires StartsWith(s, ImageOpen) && |ImageOpen| <= q1 <= |s| && '"' !in s[|ImageOpen|..q1]
    requires StartsWith(s[q1..], ImageSrc)
    ensures m.Some? ==> StartsWith(s, m.value.text) && Shaped(Image, m.value)
  {
    match FindChar(s, q1 + |ImageSrc|, '"')
    case None => None
    case Some(q2) => MatchImageEnd(s, q1, q2)
  }

  /** The rest of an image match once `src` has been read up to its closing quote at `q2`. */
  function MatchImageEnd(s: string, q1: nat, q2: nat): (m: Option<Hit>)
    requires StartsWith(s, ImageOpen) && |ImageOpen| <= q1 <= |s| && '"' !in s[|ImageOpen|..q1]
    requires StartsWith(s[q1..], ImageSrc)
    requires q1 + |ImageSrc| <= q2 < |s| && s[q2] == '"' && '"' !in s[q1 + |ImageSrc|..q2]
    ensures m.Some? ==> StartsWith(s, m.value.text) && Shaped(Image, m.value)
  {
    var (title, after) := ImageTitleAt(s, q2);
    var e := SpaceRun(s, after);
    if !StartsWith(s[e..], ImageClose) then None
    else
      ImageText(s, q1, q2, e);
      Some(Hit(s[..e + |ImageClose|], s[|ImageOpen|..q1], s[q1 + |ImageSrc|..q2], title, s[q2 + 1..e]))
  }

  /** The optional `(?:\s+title="([^"]*)")?` after the closing quote of `src` at `q2`:
      the title and the index just past it, or no title and `q2 + 1`. */
  function ImageTitleAt(s: string, q2: nat): (r: (Option<string>, nat))
    requires q2 < |s|
    ensures r.0.None? ==> r.1 == q2 + 1
    ensures q2 + 1 <= r.1 <= |s|
  {
    var w := SpaceRun(s, q2 + 1);
    if w > q2 + 1 && StartsWith(s[w..], ImageTitle) then
      match FindChar(s, w + |ImageTitle|, '"')
      case Some(q3) => (Some(s[w + |ImageTitle|..q3]), q3 + 1)
      case None => (None, q2 + 1)
    else (None, q2 + 1)
  }

  /** The match MatchImage reports once each of its searches has been resolved. */
  lemma MatchImageAt(s: string, q1: nat, q2: nat, title: Option<string>, after: nat, e: nat)
    requires StartsWith(s, ImageOpen) && FindChar(s, |ImageOpen|, '"') == Some(q1)
    requires StartsWith(s[q1..], ImageSrc) && q1 + |ImageSrc| <= |s|
    requires FindChar(s, q1 + |ImageSrc|, '"') == Some(q2)
    requires ImageTitleAt(s, q2) == (title, after) && SpaceRun(s, after) == e
    requires StartsWith(s[e..], ImageClose)
    ensures MatchImage(s) == Some(Hit(s[..e + |ImageClose|], s[|ImageOpen|..q1], s[q1 + |ImageSrc|..q2], title, s[q2 + 1..e]))
  {
    ImageAltRead(s, q1);
    ImageSrcRead(s, q1, q2);
    ImageEndRead(s, q1, q2, title, after, e);
  }

  lemma ImageEndRead(s: string, q1: nat, q2: nat, title: Option<string>, after: nat, e: nat)
    requires StartsWith(s, ImageOpen) && |ImageOpen| <= q1 <= |s| && '"' !in s[|ImageOpen|..q1]
    requires StartsWith(s[q1..], ImageSrc)
    requires q1 + |ImageSrc| <= q2 < |s| && s[q2] == '"' && '"' !in s[q1 + |ImageSrc|..q2]
    requires ImageTitleAt(s, q2) == (title, after) && SpaceRun(s, after) == e
    requires StartsWith(s[e..], ImageClose)
    ensures MatchImageEnd(s, q1, q2) == Some(Hit(s[..e + |ImageClose|], s[|ImageOpen|..q1], s[q1 + |ImageSrc|..q2], title, s[q2 + 1..e]))
  {
    var h := Hit(s[..e + |ImageClose|], s[|ImageOpen|..q1], s[q1 + |ImageSrc|..q2], title, s[q2 + 1..e]);
    assert MatchImageEnd(s, q1, q2) == Some(h);
  }

  lemma ImageAltRead(s: string, q1: nat)
    requires StartsWith(s, ImageOpen) && FindChar(s, |ImageOpen|, '"') == Some(q1)
    requires StartsWith(s[q1..], ImageSrc)
    ensures MatchImage(s) == MatchImageSrc(s, q1)
  {
  }

  lemma ImageSrcRead(s: string, q1: nat, q2: nat)
    requires StartsWith(s, ImageOpen) && |ImageOpen| <= q1 <= |s| && '"' !in s[|ImageOpen|..q1]
    requires StartsWith(s[q1..], ImageSrc) && q1 + |ImageSrc| <= |s|
    requires FindChar(s, q1 + |ImageSrc|, '"') == Some(q2)
    ensures MatchImageSrc(s, q1) == MatchImageEnd(s, q1, q2)
  {
  }

  lemma ImageText(s: string, q1: nat, q2: nat, e: nat)
    requires StartsWith(s, ImageOpen)
    requires |ImageOpen| <= q1 && q1 + |ImageSrc| <= q2 < e && e + |ImageClose| <= |s|
    requires StartsWith(s[q1..], ImageSrc) && s[q2] == '"' && StartsWith(s[e..], ImageClose)
    ensures s[..e + |ImageClose|] == ImageOpen + s[|ImageOpen|..q1] + ImageSrc + s[q1 + |ImageSrc|..q2] + "\""
                                      + s[q2 + 1..e] + ImageClose
  {
    var c := |ImageClose|;
    ImageHeadText(s, q1, q2);
    assert s[e..e + c] == ImageClose;
    SliceCat(s, 0, e, e + c);
    SliceCat(s, 0, q2 + 1, e);
    assert s[..e + c] == s[0..e + c];
  }

  lemma ImageHeadText(s: string, q1: nat, q2: nat)
    requires StartsWith(s, ImageOpen)
    requires |ImageOpen| <= q1 && q1 + |ImageSrc| <= q2 < |s|
    requires StartsWith(s[q1..], ImageSrc) && s[q2] == '"'
    ensures s[0..q2 + 1] == ImageOpen + s[|ImageOpen|..q1] + ImageSrc + s[q1 + |ImageSrc|..q2] + "\""
  {
    var n := |ImageOpen|;
    var m := |ImageSrc|;
    assert s[0..n] == ImageOpen;
    assert s[q1..q1 + m] == ImageSrc && s[q2..q2 + 1] == "\"";
    SliceCat(s, 0, q2, q2 + 1);
    SliceCat(s, 0, q1 + m, q2);
    SliceCat(s, 0, q1, q1 + m);
    SliceCat(s, 0, n, q1);
  }

  function MatchLazy(open: string, close: string, dotAll: bool, s: string): (m: Option<Hit>)
    requires |open| > 0
    ensures m.Some? ==> StartsWith(s, m.value.text) && Shaped(Lazy(open, close, dotAll), m.value)
  {
    if !StartsWith(s, open) then None
    else
      match FindClose(s, |open|, close, dotAll)
      case None => None
      case Some(j) =>
        assert s[..j + |close|] == s[..|open|] + s[|open|..j] + s[j..j + |close|];
        Some(Hit(s[..j + |close|], s[|open|..j], "", None, ""))
  }

  function MatchTagged(prefix: string, close: string, s: string): (m: Option<Hit>)
    requires |prefix| > 0
    ensures m.Some? ==> StartsWith(s, m.value.text) && Shaped(TaggedLazy(prefix, close), m.value)
  {
    if !StartsWith(s, prefix) then None
    else
      match FindChar(s, |prefix|, '>')
      case None => None
      case Some(t) =>
        match FindClose(s, t + 1, close, true)
        case None => None
        case Some(j) =>
          TaggedText(s, prefix, close, t, j);
          Some(Hit(s[..j + |close|], s[t + 1..j], "", None, s[|prefix|..t]))
  }

  lemma TaggedText(s: string, prefix: string, close: string, t: nat, j: nat)
    requires StartsWith(s, prefix) && |prefix| <= t && t + 1 <= j && j + |close| <= |s|
    requires s[t] == '>' && StartsWith(s[j..], close)
    ensures s[..j + |close|] == prefix + s[|prefix|..t] + ">" + s[t + 1..j] + close
  {
    assert s[0..|prefix|] == prefix;
    assert s[t..t + 1] == ">" && s[j..j + |close|] == close;
    SliceCat(s, 0, j, j + |close|);
    SliceCat(s, 0, t + 1, j);
    SliceCat(s, 0, t, t + 1);
    SliceCat(s, 0, |prefix|, t);
    assert s[..j + |close|] == s[0..j + |close|];
  }

  function MatchHeaderTag(s: string): (m: Option<Hit>)
    ensures m.Some? ==> StartsWith(s, m.value.text) && Shaped(HeaderTag, m.value)
  {
    if StartsWith(s, "<h1>") then Some(Hit("<h1>", "", "", None, ""))
    else if StartsWith(s, "<h2>") then Some(Hit("<h2>", "", "", None, ""))
    else if StartsWith(s, "</h1>") then Some(Hit("</h1>", "", "", None, ""))
    else if StartsWith(s, "</h2>") then Some(Hit("</h2>", "", "", None, ""))
    else None
  }

  /** The match of `p` that starts at the beginning of `s`, if any (`re.match`). */
  function MatchAt(p: Pattern, s: string): (m: Option<Hit>)
    requires Wf(p)
    ensures m.Some? ==> 0 < |m.value.text| && StartsWith(s, m.value.text) && Shaped(p, m.value)
  {
    match p
    case Literal(lit) => if StartsWith(s, lit) then Some(Hit(lit, "", "", None, "")) else None
    case Lazy(open, close, dotAll) => MatchLazy(open, close, dotAll, s)
    case TaggedLazy(prefix, close) => MatchTagged(prefix, close, s)
    case Anchor => MatchAnchor(s)
    case Image => MatchImage(s)
    case HeaderTag => MatchHeaderTag(s)
  }

  /** `gaps[0] + fills[0] + gaps[1] + … + gaps[|fills|]` */
  function Weave(gaps: seq<string>, fills: seq<string>): string
    requires |gaps| == |fills| + 1
    decreases |fills|
  {
    if fills == [] then gaps[0] else gaps[0] + fills[0] + Weave(gaps[1..], fills[1..])
  }

  function Texts(hits: seq<Hit>): (r: seq<string>)
    ensures |r| == |hits| && forall i :: 0 <= i < |hits| ==> r[i] == hits[i].text
  {
    seq(|hits|, i requires 0 <= i < |hits| => hits[i].text)
  }

  lemma WeaveCons(c: char, gaps: seq<string>, fills: seq<string>)
    requires |gaps| == |fills| + 1
    ensures Weave([[c] + gaps[0]] + gaps[1..], fills) == [c] + Weave(gaps, fills)
  {
    var gs := [[c] + gaps[0]] + gaps[1..];
    assert gs[1..] == gaps[1..];
  }

  lemma WeaveSingle(fill: string)
    ensures Weave([[], []], [fill]) == fill
  {
    var gaps: seq<string> := [[], []];
    assert gaps[1..] == [[]];
  }

  datatype Scan = Scan(gaps: seq<string>, hits: seq<Hit>)

  /** The scan with `x` glued to the front of its first gap. */
  function Prepend(x: string, sc: Scan): Scan
    requires |sc.gaps| >= 1
  {
    Scan([x + sc.gaps[0]] + sc.gaps[1..], sc.hits)
  }

  lemma PrependTwice(c: char, x: string, sc: Scan)
    requires |sc.gaps| >= 1
    ensures Prepend([c], Prepend(x, sc)) == Prepend([c] + x, sc)
  {
    assert [c] + (x + sc.gaps[0]) == ([c] + x) + sc.gaps[0];
  }

  /** No match of `p` starts at any of the first `n` positions of `s`. */
  predicate Unmatched(p: Pattern, s: string, n: nat)
    requires Wf(p) && n <= |s| + 1
  {
    forall k :: 0 <= k < n ==> MatchAt(p, s[k..]).None?
  }

  /** The cut of `s` into gaps and hits that `re.sub(p, …, s)` makes. Weaving the hits'
      own texts back between the gaps gives `s` again. */
  function ScanAll(p: Pattern, s: string): (r: Scan)
    requires Wf(p)
    ensures Cuts(p, s, r)
    decreases |s|
  {
    if s == [] then Scan([[]], [])
    else
      match MatchAt(p, s)
      case Some(h) =>
        var rest := ScanAll(p, s[|h.text|..]);
        CutHit(p, s, h, rest);
        Scan([[]] + rest.gaps, [h] + rest.hits)
      case None =>
        var rest := ScanAll(p, s[1..]);
        CutMiss(p, s, rest);
        Scan([[s[0]] + rest.gaps[0]] + rest.gaps[1..], rest.hits)
  }

  /** `r` cuts `s` into gaps and hits of `p`: weaving the hits' own texts back between the
      gaps gives `s` again. */
  predicate Cuts(p: Pattern, s: string, r: Scan) {
    && |r.gaps| == |r.hits| + 1
    && Weave(r.gaps, Texts(r.hits)) == s
    && (forall i :: 0 <= i < |r.hits| ==> Shaped(p, r.hits[i]))
    && StartsWith(s, r.gaps[0])
  }

  /** A hit at the front, then a cut of what follows it, cuts the whole. */
  lemma CutHit(p: Pattern, s: string, h: Hit, rest: Scan)
    requires 0 < |h.text| <= |s| && StartsWith(s, h.text) && Shaped(p, h)
    requires Cuts(p, s[|h.text|..], rest)
    ensures Cuts(p, s, Scan([[]] + rest.gaps, [h] + rest.hits))
  {
    var r := Scan([[]] + rest.gaps, [h] + rest.hits);
    assert r.gaps[1..] == rest.gaps && Texts(r.hits)[1..] == Texts(rest.hits);
    assert s == h.text + s[|h.text|..];
  }

  /** A character where nothing matches joins the first gap of the cut of what follows. */
  lemma CutMiss(p: Pattern, s: string, rest: Scan)
    requires s != [] && Cuts(p, s[1..], rest)
    ensures Cuts(p, s, Scan([[s[0]] + rest.gaps[0]] + rest.gaps[1..], rest.hits))
  {
    WeaveCons(s[0], rest.gaps, Texts(rest.hits));
    assert s == [s[0]] + s[1..];
  }

  /** Where no match starts, the scan leaves the text alone: when the pattern matches
      nowhere, the scan is one gap holding the whole subject. */
  lemma {:induction false} ScanNoMatch(p: Pattern, s: string)
    requires Wf(p)
    requires forall k :: 0 <= k <= |s| ==> MatchAt(p, s[k..]).None?
    ensures ScanAll(p, s) == Scan([s], [])
    decreases |s|
  {
    if s != [] {
      assert MatchAt(p, s[0..]).None? && s[0..] == s;
      forall k | 0 <= k <= |s[1..]|
        ensures MatchAt(p, s[1..][k..]).None?
      {
        assert s[1..][k..] == s[k + 1..];
      }
      ScanNoMatch(p, s[1..]);
      assert [s[0]] + s[1..] == s;
    }
  }

  /** `gaps` and `hits` are the leftmost-first cut of `s`: no match starts inside the first
      gap, the first hit is the match found where that gap ends, and the text after that
      hit is cut the same way; with no hit left, the gap runs to the end of `s`. */
  predicate Leftmost(p: Pattern, s: string, gaps: seq<string>, hits: seq<Hit>)
    requires Wf(p)
    decreases |hits|
  {
    && |gaps| == |hits| + 1
    && |gaps[0]| <= |s|
    && Unmatched(p, s, |gaps[0]|)
    && if hits == [] then |gaps[0]| == |s|
       else
         && |gaps[0]| + |hits[0].text| <= |s|
         && MatchAt(p, s[|gaps[0]|..]) == Some(hits[0])
         && Leftmost(p, s[|gaps[0]| + |hits[0].text|..], gaps[1..], hits[1..])
  }

  /** The scan is maximal: no match of the pattern starts inside any of its gaps, and each
      hit is the match found where its gap ends. */
  lemma {:induction false} ScanLeftmost(p: Pattern, s: string)
    requires Wf(p)
    ensures Leftmost(p, s, ScanAll(p, s).gaps, ScanAll(p, s).hits)
    decreases |s|
  {
    if s != [] {
      match MatchAt(p, s)
      case Some(h) =>
        var rest := ScanAll(p, s[|h.text|..]);
        ScanLeftmost(p, s[|h.text|..]);
        var gaps: seq<string> := [[]] + rest.gaps;
        assert gaps[1..] == rest.gaps && ([h] + rest.hits)[1..] == rest.hits;
        assert s[0..] == s;
      case None =>
        var rest := ScanAll(p, s[1..]);
        ScanLeftmost(p, s[1..]);
        LeftmostMiss(p, s, rest.gaps, rest.hits);
    }
  }

  /** A first character where nothing matches joins the first gap of a leftmost cut. */
  lemma LeftmostMiss(p: Pattern, s: string, gaps: seq<string>, hits: seq<Hit>)
    requires Wf(p) && s != [] && MatchAt(p, s).None? && Leftmost(p, s[1..], gaps, hits)
    ensures Leftmost(p, s, [[s[0]] + gaps[0]] + gaps[1..], hits)
  {
    var gs := [[s[0]] + gaps[0]] + gaps[1..];
    assert gs[1..] == gaps[1..];
    UnmatchedMiss(p, s, |gaps[0]|);
    if hits != [] {
      assert s[|gs[0]|..] == s[1..][|gaps[0]|..];
      assert s[|gs[0]| + |hits[0].text|..] == s[1..][|gaps[0]| + |hits[0].text|..];
    }
  }

  /** A first position where nothing matches extends a run of unmatched positions. */
  lemma UnmatchedMiss(p: Pattern, s: string, n: nat)
    requires Wf(p) && s != [] && MatchAt(p, s).None? && n <= |s| - 1 && Unmatched(p, s[1..], n)
    ensures Unmatched(p, s, n + 1)
  {
    forall k | 0 <= k < n + 1
      ensures MatchAt(p, s[k..]).None?
    {
      if k == 0 {
        assert s[0..] == s;
      } else {
        assert s[k..] == s[1..][k - 1..];
      }
    }
  }

  function TextOf(h: Hit): string {
    h.text
  }

  /** The gaps with each hit replaced by `f(hit)`: `gaps[0] + f(hits[0]) + gaps[1] + …` */
  function Fill(gaps: seq<string>, hits: seq<Hit>, f: Hit -> string): string
    requires |gaps| == |hits| + 1
    decreases |hits|
  {
    if hits == [] then gaps[0] else gaps[0] + f(hits[0]) + Fill(gaps[1..], hits[1..], f)
  }

  /** `re.sub(p, f, s)` with a replacement computed from each match alone. */
  function Sub(p: Pattern, f: Hit -> string, s: string): string
    requires Wf(p)
  {
    var sc := ScanAll(p, s);
    Fill(sc.gaps, sc.hits, f)
  }

  /** Putting each hit's own text back is weaving the scan back together. */
  lemma {:induction false} FillTexts(gaps: seq<string>, hits: seq<Hit>)
    requires |gaps| == |hits| + 1
    ensures Fill(gaps, hits, TextOf) == Weave(gaps, Texts(hits))
    decreases |hits|
  {
    if hits != [] {
      FillTexts(gaps[1..], hits[1..]);
      assert Texts(hits)[1..] == Texts(hits[1..]);
    }
  }

  /** Replacing every match by its own text gives the subject back. */
  lemma SubIdentity(p: Pattern, s: string)
    requires Wf(p)
    ensures Sub(p, TextOf, s) == s
  {
    var sc := ScanAll(p, s);
    FillTexts(sc.gaps, sc.hits);
  }

  /** A subject that is one whole match is replaced by the image of that match. */
  lemma SubWhole(p: Pattern, f: Hit -> string, s: string, h: Hit)
    requires Wf(p) && MatchAt(p, s) == Some(h) && h.text == s
    ensures Sub(p, f, s) == f(h)
  {
    ScanWhole(p, s, h);
    var gaps: seq<string> := [[], []];
    assert gaps[1..] == [[]] && [h][1..] == [];
    assert Fill(gaps, [h], f) == [] + f(h) + [];
  }

  /** After a match at the very start, the rest of the subject is rewritten on its own. */
  lemma SubAfter(p: Pattern, f: Hit -> string, s: string, h: Hit, rest: string)
    requires Wf(p) && MatchAt(p, s) == Some(h) && s == h.text + rest
    ensures Sub(p, f, s) == f(h) + Sub(p, f, rest)
  {
    ScanAfter(p, s, h, rest);
    var sc := ScanAll(p, rest);
    var gaps: seq<string> := [[]] + sc.gaps;
    assert gaps[1..] == sc.gaps;
    assert ([h] + sc.hits)[1..] == sc.hits;
  }

  /** Text in front of which no match starts is copied through unchanged. */
  lemma SubSkip(p: Pattern, f: Hit -> string, x: string, y: string)
    requires Wf(p) && Unmatched(p, x + y, |x|)
    ensures Sub(p, f, x + y) == x + Sub(p, f, y)
  {
    ScanSkip(p, x, y);
    var sc := ScanAll(p, y);
    FillPrepend(x, sc.gaps, sc.hits, f);
  }

  lemma FillPrepend(x: string, gaps: seq<string>, hits: seq<Hit>, f: Hit -> string)
    requires |gaps| == |hits| + 1
    ensures Fill([x + gaps[0]] + gaps[1..], hits, f) == x + Fill(gaps, hits, f)
  {
    var gs := [x + gaps[0]] + gaps[1..];
    assert gs[1..] == gaps[1..];
  }

  /** A subject in which the pattern matches nowhere is left unchanged. */
  lemma SubNoMatch(p: Pattern, f: Hit -> string, s: string)
    requires Wf(p) && Unmatched(p, s, |s| + 1)
    ensures Sub(p, f, s) == s
  {
    ScanNoMatch(p, s);
  }

  /** `s.replace(lit, v)`: every non-overlapping occurrence, found left to right, becomes `v`. */
  function ReplaceAll(s: string, lit: string, v: string): string
    requires |lit| > 0
  {
    Sub(Literal(lit), _ => v, s)
  }

  /** The number of non-overlapping occurrences of `lit` in `s` (`s.count(lit)`). */
  function Count(s: string, lit: string): nat
    requires |lit| > 0
  {
    |ScanAll(Literal(lit), s).hits|
  }

  /** A literal that does not occur is not replaced: the text comes back unchanged. */
  lemma ReplaceAbsent(s: string, lit: string, v: string)
    requires |lit| > 0 && !Contains(s, lit)
    ensures ReplaceAll(s, lit, v) == s
    ensures Count(s, lit) == 0
  {
    ContainsAt(s, lit);
    ScanNoMatch(Literal(lit), s);
  }

  /** Replacing a literal by itself is the identity: the scan loses nothing. */
  lemma ReplaceSelf(s: string, lit: string)
    requires |lit| > 0
    ensures ReplaceAll(s, lit, lit) == s
  {
    var sc := ScanAll(Literal(lit), s);
    FillTexts(sc.gaps, sc.hits);
    FillSame(sc.gaps, sc.hits, _ => lit, TextOf);
  }

  /** Two replacement functions that agree on every hit give the same result. */
  lemma {:induction false} FillSame(gaps: seq<string>, hits: seq<Hit>, f: Hit -> string, g: Hit -> string)
    requires |gaps| == |hits| + 1
    requires forall i :: 0 <= i < |hits| ==> f(hits[i]) == g(hits[i])
    ensures Fill(gaps, hits, f) == Fill(gaps, hits, g)
    decreases |hits|
  {
    if hits != [] {
      FillSame(gaps[1..], hits[1..], f, g);
    }
  }

  /** A leading occurrence is replaced and the scan resumes right after it. */
  lemma ReplaceLeading(lit: string, x: string, v: string)
    requires |lit| > 0
    ensures ReplaceAll(lit + x, lit, v) == v + ReplaceAll(x, lit, v)
  {
    var s := lit + x;
    assert s[..|lit|] == lit;
    SubAfter(Literal(lit), _ => v, s, Hit(lit, "", "", None, ""), x);
  }

  /** A literal followed by text that does not contain it: the leading occurrence is the
      only one replaced. */
  lemma ReplacePrefix(lit: string, x: string, v: string)
    requires |lit| > 0 && !Contains(x, lit)
    ensures Contains(lit + x, lit)
    ensures ReplaceAll(lit + x, lit, v) == v + x
  {
    assert (lit + x)[..|lit|] == lit;
    ReplaceLeading(lit, x, v);
    ReplaceAbsent(x, lit, v);
  }

  /** Nothing is replaced in the empty string. */
  lemma ReplaceEmpty(lit: string, v: string)
    requires |lit| > 0
    ensures ReplaceAll([], lit, v) == []
  {
  }

  /** A subject that is exactly the literal becomes the replacement. */
  lemma ReplaceWhole(lit: string, v: string)
    requires |lit| > 0
    ensures ReplaceAll(lit, lit, v) == v
  {
    ReplaceLeading(lit, [], v);
    assert lit + [] == lit;
  }

  /** Text free of the literal's first character is copied through unchanged. */
  lemma ReplaceSkipFree(x: string, y: string, lit: string, v: string)
    requires |lit| > 0 && lit[0] !in x
    ensures ReplaceAll(x + y, lit, v) == x + ReplaceAll(y, lit, v)
  {
    forall k | 0 <= k < |x|
      ensures MatchAt(Literal(lit), (x + y)[k..]).None?
    {
      assert (x + y)[k..][0] == x[k];
    }
    SubSkip(Literal(lit), _ => v, x, y);
  }

  /** ... and an occurrence right after such text is replaced. */
  lemma ReplaceTrailing(x: string, lit: string, v: string)
    requires |lit| > 0 && lit[0] !in x
    ensures ReplaceAll(x + lit, lit, v) == x + v
  {
    ReplaceSkipFree(x, lit, lit, v);
    ReplaceWhole(lit, v);
  }

  /** Where the literal does not start, the first character is copied through. */
  lemma ReplaceMiss(s: string, lit: string, v: string)
    requires |lit| > 0 && s != [] && !StartsWith(s, lit)
    ensures ReplaceAll(s, lit, v) == [s[0]] + ReplaceAll(s[1..], lit, v)
  {
    assert [s[0]] + s[1..] == s;
    assert ([s[0]] + s[1..])[0..] == s;
    SubSkip(Literal(lit), _ => v, [s[0]], s[1..]);
  }

  /** No occurrence of `lit` in `a + b` starts inside `a` and ends inside `b`. */
  predicate Unstraddled(a: string, b: string, lit: string) {
    forall p :: 0 <= p < |a| < p + |lit| ==> !StartsWith((a + b)[p..], lit)
  }

  /** When no occurrence straddles the seam, replacing in the joined text is replacing in
      each part on its own. */
  lemma {:induction false} ReplaceSplit(a: string, b: string, lit: string, v: string)
    requires |lit| > 0 && Unstraddled(a, b, lit)
    ensures ReplaceAll(a + b, lit, v) == ReplaceAll(a, lit, v) + ReplaceAll(b, lit, v)
    decreases |a|
  {
    if a == [] {
      assert a + b == b;
      ReplaceEmpty(lit, v);
    } else if StartsWith(a + b, lit) {
      SplitHit(a, b, lit);
      ReplaceSplit(a[|lit|..], b, lit, v);
      ReplaceLeading(lit, a[|lit|..] + b, v);
      ReplaceLeading(lit, a[|lit|..], v);
      Associate(v, ReplaceAll(a[|lit|..], lit, v), ReplaceAll(b, lit, v));
    } else {
      SplitMiss(a, b, lit);
      ReplaceSplit(a[1..], b, lit, v);
      MissStep(a, b, lit, v);
    }
  }

  lemma MissStep(a: string, b: string, lit: string, v: string)
    requires |lit| > 0 && a != [] && !StartsWith(a + b, lit) && !StartsWith(a, lit)
    requires (a + b)[0] == a[0] && (a + b)[1..] == a[1..] + b
    requires ReplaceAll(a[1..] + b, lit, v) == ReplaceAll(a[1..], lit, v) + ReplaceAll(b, lit, v)
    ensures ReplaceAll(a + b, lit, v) == ReplaceAll(a, lit, v) + ReplaceAll(b, lit, v)
  {
    ReplaceMiss(a + b, lit, v);
    ReplaceMiss(a, lit, v);
    Associate([a[0]], ReplaceAll(a[1..], lit, v), ReplaceAll(b, lit, v));
  }

  /** One occurrence between two texts free of the literal, with none straddling the first
      seam, is the only one replaced. */
  lemma ReplaceBetween(x: string, y: string, lit: string, v: string)
    requires |lit| > 0 && !Contains(x, lit) && !Contains(y, lit) && Unstraddled(x, lit + y, lit)
    ensures ReplaceAll(x + lit + y, lit, v) == x + v + y
  {
    ReplaceSplit(x, lit + y, lit, v);
    ReplaceAbsent(x, lit, v);
    ReplacePrefix(lit, y, v);
    Associate(x, lit, y);
    Associate(x, v, y);
  }

  lemma Associate(x: string, y: string, z: string)
    ensures x + (y + z) == (x + y) + z
  {
  }

  lemma SplitHit(a: string, b: string, lit: string)
    requires a != [] && Unstraddled(a, b, lit) && StartsWith(a + b, lit)
    ensures |lit| <= |a| && a == lit + a[|lit|..] && a + b == lit + (a[|lit|..] + b)
    ensures Unstraddled(a[|lit|..], b, lit)
  {
    var s := a + b;
    assert |lit| <= |a| by {
      assert s[0..] == s;
    }
    var a' := a[|lit|..];
    assert a[..|lit|] == s[..|lit|];
    assert a == lit + a';
    forall p | 0 <= p < |a'| < p + |lit|
      ensures !StartsWith((a' + b)[p..], lit)
    {
      assert (a' + b)[p..] == s[p + |lit|..];
    }
  }

  lemma SplitMiss(a: string, b: string, lit: string)
    requires a != [] && Unstraddled(a, b, lit) && !StartsWith(a + b, lit)
    ensures !StartsWith(a, lit) && (a + b)[0] == a[0] && (a + b)[1..] == a[1..] + b
    ensures Unstraddled(a[1..], b, lit)
  {
    var s := a + b;
    if |lit| <= |a| {
      assert s[..|lit|] == a[..|lit|];
    }
    forall p | 0 <= p < |a[1..]| < p + |lit|
      ensures !StartsWith((a[1..] + b)[p..], lit)
    {
      assert (a[1..] + b)[p..] == s[p + 1..];
    }
  }

  /** The scan for a literal never leaves an occurrence inside a gap: every occurrence
      is rewritten (the exception being one overlapping a previous hit). */
  lemma {:induction false} LiteralGapsClean(s: string, lit: string)
    requires |lit| > 0
    ensures forall i :: 0 <= i < |ScanAll(Literal(lit), s).gaps| ==> !Contains(ScanAll(Literal(lit), s).gaps[i], lit)
    decreases |s|
  {
    var sc := ScanAll(Literal(lit), s);
    if s == [] {
      assert !Contains(sc.gaps[0], lit);
    } else {
      match MatchAt(Literal(lit), s)
      case Some(h) =>
        LiteralGapsClean(s[|h.text|..], lit);
        var rest := ScanAll(Literal(lit), s[|h.text|..]);
        assert sc.gaps == [[]] + rest.gaps;
        assert !Contains([], lit);
        forall i | 0 <= i < |sc.gaps|
          ensures !Contains(sc.gaps[i], lit)
        {
          if i > 0 { assert sc.gaps[i] == rest.gaps[i - 1]; }
        }
      case None =>
        LiteralGapsClean(s[1..], lit);
        var rest := ScanAll(Literal(lit), s[1..]);
        var g := [s[0]] + rest.gaps[0];
        assert sc.gaps == [g] + rest.gaps[1..];
        assert g[1..] == rest.gaps[0];
        assert !StartsWith(g, lit) by {
          assert StartsWith(s, g) by {
            assert s == [s[0]] + s[1..];
            assert s[..|g|] == [s[0]] + s[1..][..|rest.gaps[0]|];
          }
        }
        assert !Contains(g, lit);
        forall i | 0 <= i < |sc.gaps|
          ensures !Contains(sc.gaps[i], lit)
        {
          if i > 0 { assert sc.gaps[i] == rest.gaps[i]; }
        }
    }
  }

  /** `open(.*?)close` matches at the start of `s` whenever some text (free of newlines
      unless DOTALL is on) sits between `open` and a later `close`, and the group it
      captures is the shortest such text. */
  lemma LazyShortest(open: string, close: string, dotAll: bool, s: string, g: string)
    requires |open| > 0
    requires StartsWith(s, open + g + close) && (dotAll || '\n' !in g)
    ensures MatchAt(Lazy(open, close, dotAll), s).Some?
    ensures |MatchAt(Lazy(open, close, dotAll), s).value.g1| <= |g|
  {
    var k := |open| + |g|;
    var w := open + g + close;
    assert s[..|w|] == w;
    assert s[..|open|] == w[..|open|] && w[..|open|] == open;
    assert s[|open|..k] == w[|open|..k] && w[|open|..k] == g;
    assert StartsWith(s[k..], close) by {
      assert s[k..][..|close|] == w[k..] && w[k..] == close;
    }
  }

  /** Every match of `p` starts with `<`: the pattern opens with a tag. */
  predicate Opens(p: Pattern) {
    match p
    case Literal(lit) => |lit| > 0 && lit[0] == '<'
    case Lazy(open, _, _) => |open| > 0 && open[0] == '<'
    case TaggedLazy(prefix, _) => |prefix| > 0 && prefix[0] == '<'
    case _ => true
  }

  lemma HitOpens(p: Pattern, t: string)
    requires Wf(p) && Opens(p)
    ensures MatchAt(p, t).Some? ==> |t| > 0 && t[0] == '<'
  {
    var m := MatchAt(p, t);
    if m.Some? {
      var h := m.value;
      assert t[..|h.text|] == h.text && |h.text| > 0;
      assert t[0] == h.text[0];
      match p
      case Anchor => assert AnchorOpen[0] == '<';
      case Image => assert ImageOpen[0] == '<';
      case _ =>
    }
  }

  /** Text without `<` holds no match of a pattern that opens with a tag. */
  lemma ScanNoTag(p: Pattern, s: string)
    requires Wf(p) && Opens(p) && '<' !in s
    ensures ScanAll(p, s) == Scan([s], [])
  {
    forall k | 0 <= k <= |s|
      ensures MatchAt(p, s[k..]).None?
    {
      HitOpens(p, s[k..]);
      if k < |s| {
        assert s[k..][0] == s[k];
      }
    }
    ScanNoMatch(p, s);
  }

  /** Characters where the pattern does not match are copied into the first gap, and the
      scan of what follows is unaffected by them. */
  lemma {:induction false} ScanSkip(p: Pattern, x: string, y: string)
    requires Wf(p) && Unmatched(p, x + y, |x|)
    ensures ScanAll(p, x + y) == Prepend(x, ScanAll(p, y))
    decreases |x|
  {
    if x == [] {
      var ys := ScanAll(p, y);
      assert x + y == y && x + ys.gaps[0] == ys.gaps[0];
      assert [ys.gaps[0]] + ys.gaps[1..] == ys.gaps;
    } else {
      SkipFirst(p, x, y);
      ScanSkip(p, x[1..], y);
      PrependTwice(x[0], x[1..], ScanAll(p, y));
    }
  }

  lemma SkipFirst(p: Pattern, x: string, y: string)
    requires Wf(p) && x != [] && Unmatched(p, x + y, |x|)
    ensures ScanAll(p, x + y) == Prepend([x[0]], ScanAll(p, x[1..] + y))
    ensures Unmatched(p, x[1..] + y, |x| - 1)
    ensures [x[0]] + x[1..] == x
  {
    var s := x + y;
    assert s[0..] == s && s[1..] == x[1..] + y;
    ScanMiss(p, s);
    forall k | 0 <= k < |x| - 1
      ensures MatchAt(p, (x[1..] + y)[k..]).None?
    {
      assert (x[1..] + y)[k..] == s[k + 1..];
    }
  }

  /** Where no match starts, the first character joins the first gap. */
  lemma ScanMiss(p: Pattern, s: string)
    requires Wf(p) && s != [] && MatchAt(p, s).None?
    ensures ScanAll(p, s) == Prepend([s[0]], ScanAll(p, s[1..]))
  {
  }

  /** A hit at the very start is the scan's first hit, and the scan resumes after it. */
  lemma ScanHead(p: Pattern, s: string)
    requires Wf(p) && MatchAt(p, s).Some?
    ensures var h := MatchAt(p, s).value;
            var rest := ScanAll(p, s[|h.text|..]);
            ScanAll(p, s) == Scan([[]] + rest.gaps, [h] + rest.hits)
  {
  }

  /** A subject that is one whole match scans as that single hit between two empty gaps. */
  lemma ScanWhole(p: Pattern, s: string, h: Hit)
    requires Wf(p) && MatchAt(p, s) == Some(h) && h.text == s
    ensures ScanAll(p, s) == Scan([[], []], [h])
  {
    ScanHead(p, s);
    assert s[|h.text|..] == [];
  }

  /** After a hit at the very start, the scan continues on the rest of the subject. */
  lemma ScanAfter(p: Pattern, s: string, h: Hit, rest: string)
    requires Wf(p) && MatchAt(p, s) == Some(h) && s == h.text + rest
    ensures ScanAll(p, s) == Scan([[]] + ScanAll(p, rest).gaps, [h] + ScanAll(p, rest).hits)
  {
    assert s[|h.text|..] == rest;
  }

  /** FindChar finds exactly the first occurrence. */
  lemma FindCharAt(s: string, from: nat, c: char, q: nat)
    requires from <= q < |s| && s[q] == c && c !in s[from..q]
    ensures FindChar(s, from, c) == Some(q)
  {
    assert s[from..][q - from] == c;
  }

  /** SpaceRun stops exactly at the first non-space character. */
  lemma SpaceRunAt(s: string, from: nat, e: nat)
    requires from <= e <= |s| && AllSpace(s[from..e]) && (e == |s| || !IsSpace(s[e]))
    ensures SpaceRun(s, from) == e
  {
    if e < |s| {
      assert s[from..e + 1][e - from] == s[e];
    }
  }
}

=== FILE: sections.dfy ===
/**
 * `process_markdown_content` after the markdown renderer: the image-paragraph
 * rewrite and the split of the rendered HTML into titled sections at `<h1>` and
 * `<h2>` lines (generate_newsletter.py:27-73).
 */
module Sections {
  import opened Wrappers
  import opened Text
  import opened Scanner

  datatype Section = Section(title: string, content: string)

  /** A line that opens a section. */
  predicate IsHeader(line: string) {
    StartsWith(line, "<h1>") || StartsWith(line, "<h2>")
  }

  /** The empty replacement. */
  function Erase(h: Hit): string {
    ""
  }

  /** `re.sub(r'</?h[12]>', '', line)`: every header tag found left to right is deleted. */
  function Title(line: string): string {
    Sub(HeaderTag, Erase, line)
  }

  /** Text holding none of the four header tags. */
  predicate TagFree(x: string) {
    !Contains(x, "<h1>") && !Contains(x, "<h2>") && !Contains(x, "</h1>") && !Contains(x, "</h2>")
  }

  /** A header line wrapping text that holds no header tag gives that text back as its
      title: only the two header tags go, other markup such as `<strong>` stays. */
  lemma TitleOfHeader(open: string, x: string, close: string)
    requires open == "<h1>" || open == "<h2>"
    requires close == "</h1>" || close == "</h2>"
    requires TagFree(x)
    ensures Title(open + x + close) == x
  {
    var s := open + x + close;
    assert s == open + (x + close);
    TagMatch(open, x + close);
    SubAfter(HeaderTag, Erase, s, Hit(open, "", "", None, ""), x + close);
    forall k | 0 <= k < |x|
      ensures MatchAt(HeaderTag, (x + close)[k..]).None?
    {
      NoTagBeforeSeam(x, close, k);
    }
    SubSkip(HeaderTag, Erase, x, close);
    TagMatch(close, []);
    assert close + [] == close;
    SubWhole(HeaderTag, Erase, close, Hit(close, "", "", None, ""));
  }

  /** No header tag starts inside tag-free text, even when a closing tag follows it: the
      tags have `<` only as their first character. */
  lemma NoTagBeforeSeam(x: string, close: string, k: nat)
    requires TagFree(x) && k < |x| && close != [] && close[0] == '<'
    ensures MatchAt(HeaderTag, (x + close)[k..]).None?
  {
    var h1, h2, c1, c2 := "<h1>", "<h2>", "</h1>", "</h2>";
    assert '<' !in h1[1..] && '<' !in h2[1..] && '<' !in c1[1..] && '<' !in c2[1..];
    SeamFree(x, close, h1, k);
    SeamFree(x, close, h2, k);
    SeamFree(x, close, c1, k);
    SeamFree(x, close, c2, k);
  }

  /** Every header tag is matched as itself. */
  lemma TagMatch(t: string, rest: string)
    requires t in {"<h1>", "<h2>", "</h1>", "</h2>"}
    ensures MatchAt(HeaderTag, t + rest) == Some(Hit(t, "", "", None, ""))
  {
    var s := t + rest;
    assert s[..|t|] == t;
    if t[1] == '/' {
      assert s[1] == '/';
    }
  }

  /** The text a run of body lines contributes: each line followed by a newline. */
  function Body(lines: seq<string>): string
    decreases |lines|
  {
    if lines == [] then "" else lines[0] + "\n" + Body(lines[1..])
  }

  /** The number of lines before the next header line (all of them when there is none). */
  function NextHeader(lines: seq<string>): (n: nat)
    ensures n <= |lines|
    ensures n < |lines| ==> IsHeader(lines[n])
    ensures forall k :: 0 <= k < n ==> !IsHeader(lines[k])
    decreases |lines|
  {
    if lines == [] || IsHeader(lines[0]) then 0 else 1 + NextHeader(lines[1..])
  }

  function HeaderCount(lines: seq<string>): nat
    decreases |lines|
  {
    if lines == [] then 0 else (if IsHeader(lines[0]) then 1 else 0) + HeaderCount(lines[1..])
  }

  /** A section is kept only when its title or its content is non-empty. */
  function Emit(s: Section): seq<Section> {
    if s.title != "" || s.content != "" then [s] else []
  }

  /** The sections of a list of lines, grouped: lines before the first header are dropped,
      each header line with the body lines up to the next header forms one section, and
      sections with neither title nor content are left out. */
  function Sections(lines: seq<string>): (r: seq<Section>)
    ensures forall i :: 0 <= i < |r| ==> r[i].title != "" || r[i].content != ""
    ensures |r| <= HeaderCount(lines)
    decreases |lines|
  {
    if lines == [] then []
    else if !IsHeader(lines[0]) then Sections(lines[1..])
    else
      var n := 1 + NextHeader(lines[1..]);
      HeaderCountAfter(lines[1..], n - 1);
      assert lines[1..][n - 1..] == lines[n..];
      Emit(Section(Title(lines[0]), Body(lines[1..n]))) + Sections(lines[n..])
  }

  lemma {:induction false} HeaderCountAfter(lines: seq<string>, n: nat)
    requires n <= |lines|
    requires forall k :: 0 <= k < n ==> !IsHeader(lines[k])
    ensures HeaderCount(lines[n..]) == HeaderCount(lines)
    decreases n
  {
    if n > 0 {
      HeaderCountAfter(lines[1..], n - 1);
      assert lines[1..][n - 1..] == lines[n..];
    }
  }

  /** Lines before the first header contribute nothing. */
  lemma {:induction false} PreambleDropped(pre: seq<string>, rest: seq<string>)
    requires forall k :: 0 <= k < |pre| ==> !IsHeader(pre[k])
    ensures Sections(pre + rest) == Sections(rest)
    decreases |pre|
  {
    if pre != [] {
      assert (pre + rest)[1..] == pre[1..] + rest;
      PreambleDropped(pre[1..], rest);
    } else {
      assert pre + rest == rest;
    }
  }

  /** The sections still to come when `cur` is open and `rest` is unread: `cur` takes the
      body lines up to the next header, then the sections of what follows. */
  function Resume(cur: Section, rest: seq<string>): seq<Section> {
    var n := NextHeader(rest);
    Emit(Section(cur.title, cur.content + Body(rest[..n]))) + Sections(rest[n..])
  }

  lemma ResumeHeader(cur: Section, rest: seq<string>)
    requires rest != [] && IsHeader(rest[0])
    ensures Resume(cur, rest) == Emit(cur) + Resume(Section(Title(rest[0]), ""), rest[1..])
  {
    ResumeClosed(cur, rest);
    SectionsOpen(rest);
  }

  /** A header right away closes the open section with the body it has. */
  lemma ResumeClosed(cur: Section, rest: seq<string>)
    requires rest != [] && IsHeader(rest[0])
    ensures Resume(cur, rest) == Emit(cur) + Sections(rest)
  {
    assert NextHeader(rest) == 0;
    assert rest[..0] == [] && rest[0..] == rest;
    assert cur.content + "" == cur.content;
  }

  lemma ResumeLine(cur: Section, rest: seq<string>)
    requires rest != [] && !IsHeader(rest[0])
    ensures Resume(cur, rest) == Resume(Section(cur.title, cur.content + rest[0] + "\n"), rest[1..])
  {
    var m := NextHeader(rest[1..]);
    var n := NextHeader(rest);
    assert n == 1 + m;
    assert rest[..n][1..] == rest[1..][..m];
    assert rest[..n][0] == rest[0];
    assert Body(rest[..n]) == rest[0] + "\n" + Body(rest[1..][..m]);
    assert rest[n..] == rest[1..][m..];
    assert cur.content + Body(rest[..n]) == (cur.content + rest[0] + "\n") + Body(rest[1..][..m]);
  }

  lemma SectionsOpen(rest: seq<string>)
    requires rest != [] && IsHeader(rest[0])
    ensures Sections(rest) == Resume(Section(Title(rest[0]), ""), rest[1..])
  {
    var m := NextHeader(rest[1..]);
    assert rest[1..1 + m] == rest[1..][..m];
    assert rest[1 + m..] == rest[1..][m..];
    assert "" + Body(rest[1..][..m]) == Body(rest[1..][..m]);
  }

  lemma ResumeEnd(cur: Section)
    ensures Resume(cur, []) == Emit(cur)
  {
    var none: seq<string> := [];
    assert none[..0] == none && cur.content + "" == cur.content;
  }

  /** A header line closes the open section and opens the next one. */
  lemma HeaderStep(before: seq<Section>, cur: Section, rest: seq<string>)
    requires rest != [] && IsHeader(rest[0])
    ensures (before + Emit(cur)) + Resume(Section(Title(rest[0]), ""), rest[1..]) == before + Resume(cur, rest)
  {
    var next := Resume(Section(Title(rest[0]), ""), rest[1..]);
    ResumeHeader(cur, rest);
    assert (before + Emit(cur)) + next == before + (Emit(cur) + next);
  }

  /** The loop of `process_markdown_content`, as written: it yields the grouped sections. */
  method SplitSections(html: string) returns (sections: seq<Section>)
    ensures sections == Sections(Split(html, '\n'))
    ensures forall i :: 0 <= i < |sections| ==> sections[i].title != "" || sections[i].content != ""
  {
    var lines := Split(html, '\n');
    sections := [];
    var current := Section("", "");
    var inSection := false;
    var i := 0;
    while i < |lines|
      invariant 0 <= i <= |lines|
      invariant !inSection ==> sections == [] && current == Section("", "")
      invariant Pending(inSection, sections, current, lines[i..]) == Sections(lines)
    {
      assert lines[i..][0] == lines[i] && lines[i..][1..] == lines[i + 1..];
      sections, current, inSection := Feed(lines[i], lines[i..], sections, current, inSection);
      i := i + 1;
    }
    assert lines[i..] == [];
    if inSection {
      ResumeEnd(current);
    }
    if current.title != "" || current.content != "" {
      sections := sections + [current];
    }
  }

  /** The sections still to come while reading `rest`: before the first header, those of
      `rest`; after it, the ones already closed and then the open one's continuation. */
  function Pending(inSection: bool, sections: seq<Section>, cur: Section, rest: seq<string>): seq<Section> {
    if inSection then sections + Resume(cur, rest) else Sections(rest)
  }

  /** One turn of the loop: a header line closes the open section (when it has a title or
      content) and opens a new one; any other line is appended to the open section. */
  method Feed(line: string, rest: seq<string>, sections: seq<Section>, current: Section, inSection: bool)
    returns (sections': seq<Section>, current': Section, inSection': bool)
    requires rest != [] && rest[0] == line
    requires !inSection ==> sections == [] && current == Section("", "")
    ensures !inSection' ==> sections' == [] && current' == Section("", "")
    ensures Pending(inSection', sections', current', rest[1..]) == Pending(inSection, sections, current, rest)
  {
    sections', current', inSection' := sections, current, inSection;
    if StartsWith(line, "<h1>") || StartsWith(line, "<h2>") {
      var started := Section(Title(line), "");
      if current.title != "" || current.content != "" {
        sections' := sections + [current];
      }
      assert sections' == sections + Emit(current);
      if inSection {
        HeaderStep(sections, current, rest);
      } else {
        SectionsOpen(rest);
        assert sections' + Resume(started, rest[1..]) == Resume(started, rest[1..]);
      }
      current' := started;
      inSection' := true;
    } else if inSection {
      ResumeLine(current, rest);
      current' := Section(current.title, current.content + line + "\n");
    }
  }

  // ---- Image paragraphs ----

  /** `match.group(3) or alt_text`: an absent or empty title falls back to the alt text. */
  function Caption(h: Hit): string {
    if h.g3.Some? && h.g3.value != "" then h.g3.value else h.g1
  }

  /** The `image-section` block that `replace_img` returns. */
  function ImageBlock(h: Hit): string {
    "<div class=\"image-section\">\n    <img src=\"" + h.g2 + "\" alt=\"" + h.g1 + "\" />\n    <p class=\"image-caption\">"
      + Caption(h) + "</p>\n</div>"
  }

  /** `re.sub(img_pattern, replace_img, html)` */
  function RewriteImages(html: string): string {
    Sub(Image, ImageBlock, html)
  }

  /** A standalone image paragraph becomes one image-section block that keeps `src` and
      `alt` and is captioned with the title, or with the alt text when there is no title. */
  lemma StandaloneImage(alt: string, src: string, title: Option<string>)
    requires '"' !in alt && '"' !in src
    requires title.Some? ==> '"' !in title.value
    ensures var tail := if title.Some? then " title=\"" + title.value + "\" " else " ";
            var caption := if title.Some? && title.value != "" then title.value else alt;
            RewriteImages(ImageOpen + alt + ImageSrc + src + "\"" + tail + ImageClose)
            == "<div class=\"image-section\">\n    <img src=\"" + src + "\" alt=\"" + alt + "\" />\n    <p class=\"image-caption\">"
               + caption + "</p>\n</div>"
  {
    var tail := if title.Some? then " title=\"" + title.value + "\" " else " ";
    var s := ImageOpen + alt + ImageSrc + src + "\"" + tail + ImageClose;
    var h := Hit(s, alt, src, title, tail);
    ImageMatches(alt, src, title, tail, s);
    SubWhole(Image, ImageBlock, s, h);
  }

  lemma ImageMatches(alt: string, src: string, title: Option<string>, tail: string, s: string)
    requires '"' !in alt && '"' !in src
    requires title.Some? ==> '"' !in title.value
    requires tail == if title.Some? then " title=\"" + title.value + "\" " else " "
    requires s == ImageOpen + alt + ImageSrc + src + "\"" + tail + ImageClose
    ensures MatchImage(s).Some?
    ensures MatchImage(s).value == Hit(s, alt, src, title, tail)
  {
    var q1 := |ImageOpen| + |alt|;
    var q2 := q1 + |ImageSrc| + |src|;
    var e := q2 + 1 + |tail|;
    ImageHead(alt, src, tail + ImageClose, s, q1, q2);
    var after := ImageEnd(title, tail, s, q2, e);
    MatchImageAt(s, q1, q2, title, after, e);
  }

  /** Where the title search and the whitespace before `/></p>` stop. */
  lemma ImageEnd(title: Option<string>, tail: string, s: string, q2: nat, e: nat) returns (after: nat)
    requires title.Some? ==> '"' !in title.value
    requires tail == if title.Some? then " title=\"" + title.value + "\" " else " "
    requires q2 < |s| && s[q2 + 1..] == tail + ImageClose && e == q2 + 1 + |tail|
    ensures after <= |s| && ImageTitleAt(s, q2) == (title, after) && SpaceRun(s, after) == e
    ensures e <= |s| && StartsWith(s[e..], ImageClose) && s[..e + |ImageClose|] == s
    ensures s[q2 + 1..e] == tail
  {
    ImageTailSlices(title, tail, s, q2, e);
    if title.Some? {
      TitleFound(s, q2, title.value, e);
      after := e - 1;
    } else {
      TitleAbsent(s, q2);
      after := q2 + 1;
    }
  }

  /** The alt text and the source of an image tag are read back as written. */
  lemma ImageHead(alt: string, src: string, rest: string, s: string, q1: nat, q2: nat)
    requires '"' !in alt && '"' !in src
    requires s == ImageOpen + alt + ImageSrc + src + "\"" + rest
    requires q1 == |ImageOpen| + |alt| && q2 == q1 + |ImageSrc| + |src|
    ensures StartsWith(s, ImageOpen)
    ensures FindChar(s, |ImageOpen|, '"') == Some(q1)
    ensures StartsWith(s[q1..], ImageSrc)
    ensures FindChar(s, q1 + |ImageSrc|, '"') == Some(q2)
    ensures s[|ImageOpen|..q1] == alt && s[q1 + |ImageSrc|..q2] == src
    ensures s[q2 + 1..] == rest
  {
    var n := |ImageOpen|;
    assert s[..n] == ImageOpen;
    assert s[n..q1] == alt;
    assert s[q1..q1 + |ImageSrc|] == ImageSrc;
    assert s[q1 + |ImageSrc|..q2] == src;
    assert s[q2] == '"';
    FindCharAt(s, n, '"', q1);
    assert s[q1..][..|ImageSrc|] == s[q1..q1 + |ImageSrc|];
    FindCharAt(s, q1 + |ImageSrc|, '"', q2);
  }

  /** The pieces of the text after the `src` attribute of a standalone image tag. */
  lemma ImageTailSlices(title: Option<string>, tail: string, s: string, q2: nat, e: nat)
    requires tail == if title.Some? then " title=\"" + title.value + "\" " else " "
    requires q2 < |s| && s[q2 + 1..] == tail + ImageClose && e == q2 + 1 + |tail|
    ensures e + |ImageClose| == |s| && s[e..] == ImageClose && s[q2 + 1..e] == tail
    ensures s[q2 + 1] == ' ' && s[e] == '/' && s[..e + |ImageClose|] == s
    ensures title.None? ==> e == q2 + 2
    ensures title.Some? ==>
              var t := title.value;
              var w := q2 + 2;
              && e == w + |ImageTitle| + |t| + 2
              && s[w..w + |ImageTitle|] == ImageTitle
              && s[w + |ImageTitle|..e - 2] == t
              && s[e - 2] == '"' && s[e - 1] == ' '
  {
    ImageTailEnds(tail, s, q2, e);
    if title.Some? {
      ImageTitleSlices(title.value, tail, s, q2, e);
    }
  }

  /** The tail starts with a space and is followed by `/></p>` up to the end. */
  lemma ImageTailEnds(tail: string, s: string, q2: nat, e: nat)
    requires tail != [] && tail[0] == ' '
    requires q2 < |s| && s[q2 + 1..] == tail + ImageClose && e == q2 + 1 + |tail|
    ensures e + |ImageClose| == |s| && s[e..] == ImageClose && s[q2 + 1..e] == tail
    ensures s[q2 + 1] == ' ' && s[e] == '/' && s[..e + |ImageClose|] == s
  {
    SliceParts(s, q2 + 1, |s|, tail, ImageClose);
    assert s[q2 + 1..e][0] == s[q2 + 1];
    assert s[e..][0] == s[e];
  }

  /** The pieces of a ` title="t" ` tail. */
  lemma ImageTitleSlices(t: string, tail: string, s: string, q2: nat, e: nat)
    requires tail == " title=\"" + t + "\" "
    requires e == q2 + 1 + |tail| <= |s| && s[q2 + 1..e] == tail
    ensures var w := q2 + 2;
            && e == w + |ImageTitle| + |t| + 2
            && s[w..w + |ImageTitle|] == ImageTitle
            && s[w + |ImageTitle|..e - 2] == t
            && s[e - 2] == '"' && s[e - 1] == ' '
  {
    var w := q2 + 2;
    assert tail == " " + (ImageTitle + (t + "\" "));
    SliceParts(s, q2 + 1, e, " ", ImageTitle + (t + "\" "));
    SliceParts(s, w, e, ImageTitle, t + "\" ");
    SliceParts(s, w + |ImageTitle|, e, t, "\" ");
    assert s[e - 2..e][0] == s[e - 2] && s[e - 2..e][1] == s[e - 1];
  }

  /** A ` title="t"` attribute followed by a space is read as the title `t`. */
  lemma TitleFound(s: string, q2: nat, t: string, e: nat)
    requires '"' !in t
    requires q2 + 2 + |ImageTitle| + |t| + 2 == e < |s|
    requires s[q2 + 1] == ' ' && s[q2 + 2..q2 + 2 + |ImageTitle|] == ImageTitle
    requires s[q2 + 2 + |ImageTitle|..e - 2] == t && s[e - 2] == '"' && s[e - 1] == ' ' && s[e] == '/'
    ensures ImageTitleAt(s, q2) == (Some(t), e - 1)
    ensures SpaceRun(s, e - 1) == e
  {
    var w := q2 + 2;
    assert s[w] == ImageTitle[0];
    SpaceRunAt(s, q2 + 1, w);
    assert s[w..][..|ImageTitle|] == s[w..w + |ImageTitle|];
    FindCharAt(s, w + |ImageTitle|, '"', e - 2);
    SpaceRunAt(s, e - 1, e);
  }

  /** A single space before `/></p>` leaves the title out. */
  lemma TitleAbsent(s: string, q2: nat)
    requires q2 + 2 < |s| && s[q2 + 1] == ' ' && s[q2 + 2] == '/'
    ensures ImageTitleAt(s, q2) == (None, q2 + 1)
    ensures SpaceRun(s, q2 + 1) == q2 + 2
  {
    SpaceRunAt(s, q2 + 1, q2 + 2);
    assert s[q2 + 2..][0] == '/';
  }

  /** `process_markdown_content(md)`, the renderer supplied as a parameter. */
  function ProcessMarkdown(md: string, render: string -> string): seq<Section> {
    Sections(Split(RewriteImages(render(md)), '\n'))
  }
}

=== FILE: text.dfy ===
/** String primitives with the semantics of the Python `str` methods the scripts use. */
module Text {

  /** Python's `str.isspace` for one character; also the set matched by the regex class `\s`. */
  predicate IsSpace(c: char) {
    || c == ' '
    || ('\t' <= c <= '\r')
    || ('\U{1C}' <= c <= '\U{1F}')
    || c == '\U{85}' || c == '\U{A0}' || c == '\U{1680}'
    || ('\U{2000}' <= c <= '\U{200A}')
    || c == '\U{2028}' || c == '\U{2029}' || c == '\U{202F}' || c == '\U{205F}' || c == '\U{3000}'
  }

  predicate AllSpace(s: string) {
    forall i :: 0 <= i < |s| ==> IsSpace(s[i])
  }

  lemma SpaceAt(s: string, a: nat, b: nat, i: nat)
    requires a <= i < b <= |s| && AllSpace(s[a..b])
    ensures IsSpace(s[i])
  {
    assert s[a..b][i - a] == s[i];
  }

  lemma AllSpaceShrink(s: string, a: nat, b: nat, c: nat)
    requires a <= b <= c <= |s| && AllSpace(s[a..c])
    ensures AllSpace(s[a..b])
  {
    assert forall i :: 0 <= i < b - a ==> s[a..b][i] == s[a..c][i];
  }

  /** `s.startswith(p)` */
  predicate StartsWith(s: string, p: string) {
    |p| <= |s| && s[..|p|] == p
  }

  /** `s.endswith(p)` */
  predicate EndsWith(s: string, p: string) {
    |p| <= |s| && s[|s| - |p|..] == p
  }

  /** `p in s` */
  predicate Contains(s: string, p: string)
    decreases |s|
  {
    StartsWith(s, p) || (|s| > 0 && Contains(s[1..], p))
  }

  /** `p in s` holds exactly when `p` occurs at some position of `s`. */
  lemma {:induction false} ContainsAt(s: string, p: string)
    ensures Contains(s, p) <==> exists k :: 0 <= k <= |s| && StartsWith(s[k..], p)
    decreases |s|
  {
    if |s| > 0 {
      ContainsAt(s[1..], p);
      if Contains(s[1..], p) {
        var k :| 0 <= k <= |s[1..]| && StartsWith(s[1..][k..], p);
        assert s[1..][k..] == s[k + 1..];
      }
      forall k | 1 <= k <= |s| && StartsWith(s[k..], p)
        ensures Contains(s[1..], p)
      {
        assert s[1..][k - 1..] == s[k..];
      }
    }
    assert s[0..] == s;
  }

  /** Anything that occurs inside `a` also occurs inside any string containing `a`. */
  lemma ContainsConcat(a: string, b: string, c: string, p: string)
    requires Contains(b, p)
    ensures Contains(a + b + c, p)
  {
    ContainsAt(b, p);
    var k :| 0 <= k <= |b| && StartsWith(b[k..], p);
    assert (a + b + c)[|a| + k..] == b[k..] + c;
    ContainsAt(a + b + c, p);
  }

  /** Every character of a contained string is a character of the container. */
  lemma ContainedChars(s: string, p: string)
    ensures Contains(s, p) ==> forall c :: c in p ==> c in s
  {
    ContainsAt(s, p);
    if Contains(s, p) {
      var k :| 0 <= k <= |s| && StartsWith(s[k..], p);
      forall i | 0 <= i < |p|
        ensures p[i] in s
      {
        assert s[k..][i] == s[k + i];
      }
    }
  }

  /** A string lacking one of the characters of `p` does not contain `p`. */
  lemma MissingChar(s: string, p: string, c: char)
    requires c in p && c !in s
    ensures !Contains(s, p)
  {
    ContainedChars(s, p);
  }

  /** Appending a character the pattern lacks cannot create an occurrence of it. */
  lemma ContainsAppend(s: string, p: string, c: char)
    requires !Contains(s, p) && c !in p
    ensures !Contains(s + [c], p)
  {
    ContainsAt(s, p);
    ContainsAt(s + [c], p);
    forall m | 0 <= m <= |s| + 1
      ensures !StartsWith((s + [c])[m..], p)
    {
      var t := (s + [c])[m..];
      if m + |p| <= |s| {
        assert t[..|p|] == s[m..][..|p|];
      } else if |p| <= |t| {
        assert t[..|p|][|s| - m] == c;
      }
    }
  }

  /** An occurrence of `t` starting inside `x` lies wholly inside `x`, when the text after
      `x` opens with a character that `t` has nowhere but first; so if `x` does not
      contain `t`, none starts there. */
  lemma SeamFree(x: string, y: string, t: string, k: nat)
    requires k < |x| && |t| > 0 && !Contains(x, t) && (y == [] || y[0] !in t[1..])
    ensures !StartsWith((x + y)[k..], t)
  {
    var s := (x + y)[k..];
    if k + |t| <= |x| {
      ContainsAt(x, t);
      assert s[..|t|] == x[k..][..|t|];
    } else if |t| <= |s| {
      var j := |x| - k;
      assert s[..|t|][j] == y[0];
      assert t[j] == t[1..][j - 1];
    }
  }

  /** Removes leading whitespace (`s.lstrip()`). */
  function TrimStart(s: string): string
    decreases |s|
  {
    if |s| > 0 && IsSpace(s[0]) then TrimStart(s[1..]) else s
  }

  /** `lstrip` removes a prefix of whitespace and stops at the first other character. */
  lemma {:induction false} TrimStartShape(s: string)
    ensures var r := TrimStart(s);
            && |r| <= |s| && r == s[|s| - |r|..]
            && AllSpace(s[..|s| - |r|])
            && (r == [] || !IsSpace(r[0]))
    decreases |s|
  {
    if |s| > 0 && IsSpace(s[0]) {
      TrimStartShape(s[1..]);
      var r := TrimStart(s);
      assert s[1..][|s| - 1 - |r|..] == s[|s| - |r|..];
      var pre := s[..|s| - |r|];
      forall i | 0 <= i < |pre|
        ensures IsSpace(pre[i])
      {
        if i > 0 {
          assert pre[i] == s[1..][..|s| - 1 - |r|][i - 1];
        }
      }
    } else {
      assert s[..0] == [];
    }
  }

  /** Removes trailing whitespace (`s.rstrip()`). */
  function TrimEnd(s: string): string
    decreases |s|
  {
    if |s| > 0 && IsSpace(s[|s| - 1]) then TrimEnd(s[..|s| - 1]) else s
  }

  /** `rstrip` removes a suffix of whitespace and stops at the last other character. */
  lemma {:induction false} TrimEndShape(s: string)
    ensures var r := TrimEnd(s);
            && |r| <= |s| && r == s[..|r|]
            && AllSpace(s[|r|..])
            && (r == [] || !IsSpace(r[|r| - 1]))
    decreases |s|
  {
    if |s| > 0 && IsSpace(s[|s| - 1]) {
      var t := s[..|s| - 1];
      TrimEndShape(t);
      var r := TrimEnd(s);
      assert t[..|r|] == s[..|r|];
      var post := s[|r|..];
      forall i | 0 <= i < |post|
        ensures IsSpace(post[i])
      {
        if i < |s| - 1 - |r| {
          assert post[i] == t[|r|..][i];
        }
      }
    } else {
      assert s[|s|..] == [];
    }
  }

  /** `s.strip()`: leading and then trailing whitespace removed. */
  function Strip(s: string): string {
    TrimEnd(TrimStart(s))
  }

  /** The stripped string neither starts nor ends with whitespace, and it is empty exactly
      when the whole string is whitespace. */
  lemma StripShape(s: string)
    ensures var r := Strip(s);
            && (r == [] || (!IsSpace(r[0]) && !IsSpace(r[|r| - 1])))
            && (r == [] <==> AllSpace(s))
  {
    var t := TrimStart(s);
    var r := TrimEnd(t);
    StripEnds(s, t, r);
    StripNonBlank(s, t, r);
    StripBlank(s, t, r);
  }

  lemma StripEnds(s: string, t: string, r: string)
    requires t == TrimStart(s) && r == TrimEnd(t)
    ensures r == [] || (!IsSpace(r[0]) && !IsSpace(r[|r| - 1]))
  {
    TrimStartShape(s);
    TrimEndShape(t);
    if r != [] {
      assert t[0] == r[0];
    }
  }

  lemma StripNonBlank(s: string, t: string, r: string)
    requires t == TrimStart(s) && r == TrimEnd(t)
    ensures r != [] ==> !AllSpace(s)
  {
    TrimStartShape(s);
    TrimEndShape(t);
    if r != [] {
      assert t[0] == r[0];
      assert s[|s| - |t|] == t[0];
    }
  }

  lemma StripBlank(s: string, t: string, r: string)
    requires t == TrimStart(s) && r == TrimEnd(t)
    ensures r == [] ==> AllSpace(s)
  {
    TrimStartShape(s);
    TrimEndShape(t);
    if r == [] {
      assert t == [];
      assert s[..|s|] == s;
    }
  }

  /** Stripping leaves a string that starts and ends with non-space untouched, so `strip` is idempotent. */
  lemma StripIdempotent(s: string)
    ensures Strip(Strip(s)) == Strip(s)
  {
    StripShape(s);
  }

  /** Python's `str.lower` on one character, for the characters that lower to ASCII letters. */
  function LowerChar(c: char): char {
    if 'A' <= c <= 'Z' then (c as int + 32) as char
    else if c == '\U{212A}' then 'k'
    else c
  }

  /** `s.lower()` (see LowerChar). */
  function Lower(s: string): (r: string)
    ensures |r| == |s|
  {
    seq(|s|, i requires 0 <= i < |s| => LowerChar(s[i]))
  }

  /** `sep.join(parts)` */
  function Join(parts: seq<string>, sep: string): string
    decreases |parts|
  {
    if |parts| == 0 then ""
    else if |parts| == 1 then parts[0]
    else parts[0] + sep + Join(parts[1..], sep)
  }

  /** `s.split(sep)` for a one-character separator: joining the pieces gives back `s`. */
  function Split(s: string, sep: char): (r: seq<string>)
    ensures |r| >= 1
    ensures forall i :: 0 <= i < |r| ==> sep !in r[i]
    ensures Join(r, [sep]) == s
    decreases |s|
  {
    if s == [] then [[]]
    else
      var rest := Split(s[1..], sep);
      if s[0] == sep then
        assert s == [sep] + s[1..];
        [[]] + rest
      else
        var r := [[s[0]] + rest[0]] + rest[1..];
        assert r[1..] == rest[1..];
        assert Join(r, [sep]) == [s[0]] + Join(rest, [sep]);
        r
  }
}

=== FILE: wrappers.dfy ===
/** Failure-compatible wrappers used across the model. */
module Wrappers {

  /** Python's `None` / a present value. */
  datatype Option<+T> = None | Some(value: T) {

    /** Returns the wrapped value, or `default` when None. */
    function GetOr(default: T): T {
      match this
      case Some(v) => v
      case None => default
    }
  }

  /** An outcome that is either a value or an error (an exception the source would raise). */
  datatype Result<+R, +E> = Success(value: R) | Failure(error: E) {

    predicate IsFailure() {
      Failure?
    }

    function PropagateFailure<U>(): Result<U, E>
      requires Failure?
    {
      Failure(error)
    }

    function Extract(): R
      requires Success?
    {
      value
    }
  }
}
